=== FILE: README.md ===
# Luhn card toolkit — a Dafny model

This project models the core of a small Windows Forms toolkit that works with
payment-card numbers protected by the Luhn check digit:

- **Luhn arithmetic** (`CoreLogic.GetLuhnCheckDigit`, `CoreLogic.IsLuhnValid`):
  the check digit of a digit string and the validity of a full number.
- **Pattern expansion** (`CoreLogic.GenerateForPattern`): a card pattern such as
  `411111xxxxxx` has its runs of `x` placeholders filled with every combination
  of digits. The prefix sets a target length of 14, 15 or 16. A candidate one
  digit short of the target gets its Luhn check digit appended. A candidate of
  exactly the target length has its last digit replaced by the check digit.
  A candidate of any other length gives no record. Each record is added to a
  shared result set as `number|MM|YYYY|000`.
- **The bulk generator** (`Program.GenerateBulkProcess`): each line of the input
  text is a template `BINxxxx|MM|YYYY|`. It is trimmed, split on `|`, defaulted
  (month `01`, year `2028`), validated in a fixed order of seven checks and
  scanned for placeholder runs. The accepted lines are expanded into one set,
  and the set is listed and shuffled (`CoreLogic.ShuffleList`, Fisher–Yates).
  A final pass keeps the records whose first field passes the Luhn check, and
  every rejected line gets a numbered error entry.
- **Formatting** (`CoreLogic.ApplyCardMask`, `CoreLogic.CleanAndFormatLine`,
  `CoreLogic.GetFormatErrorReason`):
  - masking the last digits of a record's card field with `x`;
  - extracting `card|MM|YYYY` from a free-form line, by a 15–16 digit card
    match, then a `MM/YY(YY)` date or the first two digit groups;
  - classifying why a line was rejected.

`Program.cs` repeats the `CoreLogic` helpers at lines 347-449. They have the
same text, so one set of members models both copies.

Modules follow the program's structure:

| module | contents |
|---|---|
| `Outcomes` | `Option` and `Result`. They stand in for `CleanAndFormatLine`'s `""` results, the `-1` of `IndexOf` in `GenerateForPattern`, and the early `continue`s of `GenerateBulkProcess`. |
| `Text` | The .NET primitives used: `Split`/`Join`, `Trim`, `PadLeft`, `Replace`, `int.TryParse`, and zero-padded number formatting. |
| `Luhn` | Check digit (a reference function and `GetLuhnCheckDigit`'s loop) and validity. |
| `Expansion` | Placeholder scan, `IndexOf` substitution, length rule, `GenerateForPattern`. |
| `Shuffle` | Fisher–Yates over an explicit sequence of random draws. |
| `Formatting` | Mask, line normaliser, error classifier. |
| `Scenarios` | Worked instances of the formatting functions on concrete lines. |
| `Bulk` | Template-line validation, the batch over all lines, listing, shuffling and the Luhn post-filter. |

Because `CleanAndFormatLine` removes every space before matching
(CoreLogic.cs:126), `4111111111111111 12/26 123` gives `""`. The year `26`
fuses with the next field as `2612`, which is out of range
(`Scenarios.FusedFieldsExample`).

## Model

| member | source | states |
|---|---|---|
| Luhn.CsRem | CoreLogic.cs:27 | C#'s remainder truncates toward zero: quotient and remainder recompose the dividend, and the remainder takes the dividend's sign. |
| Luhn.CheckDigit | CoreLogic.cs:12-28 | The check digit is in 0..9 and is 0 for the empty string. For a digit string, adding it to the doubled-from-the-right digit sum gives a multiple of 10. |
| Luhn.GetLuhnCheckDigit | CoreLogic.cs:12-28 | The right-to-left loop with the alternating doubling flag computes the reference check digit, for any string, always in 0..9. |
| Luhn.IsLuhnValid | CoreLogic.cs:30-38 | A number is valid iff it has at least two characters, all ASCII digits, and its Luhn sum (rightmost digit undoubled) is divisible by 10. |
| Luhn.ValidIffSumDivisible | CoreLogic.cs:35-37 | Comparing the prefix's check digit with the last digit is the same as the whole number's Luhn sum being divisible by 10. |
| Luhn.CheckDigitRoundTrip | CoreLogic.cs:30-38 | Appending the check digit of a digit prefix gives a valid number, and that digit is the only last digit that does. |
| Shuffle.ShuffledPermutes | CoreLogic.cs:40-52 | A shuffle driven by any in-range draws is a permutation: same length, same multiset. |
| Shuffle.SelfDrawsKeepOrder | CoreLogic.cs:44-51 | If every draw picks the position being filled, every swap is a no-op and the list keeps its order. |
| Shuffle.ShuffleList | CoreLogic.cs:40-52 | The in-place loop from the end downward, swapping with `draws[j]`, computes the recursive shuffle and so permutes the list. |
| Expansion.XPrefixLen | Program.cs:206-211 | The inner counting loop stops at the first non-`x`: everything before it is a placeholder. |
| Expansion.XRuns | Program.cs:197-218 | The placeholder runs of a pattern, each of length at least one. |
| Expansion.RunsCountPlaceholders | Program.cs:197-218 | The run lengths add up to the number of placeholders in the pattern. |
| Expansion.ScanPlaceholders | Program.cs:197-218 | The nested scanning loop returns exactly the pattern's placeholder runs. |
| Expansion.RunStartIsRun | Program.cs:202-218 | The `p`-th reported length belongs to a maximal run of `x` that starts at `RunStart(p)`. |
| Expansion.RunsOrdered | Program.cs:202-218 | Successive runs are reported left to right and are separated by at least one other character. |
| Expansion.Total | CoreLogic.cs:56-58 | The number of index values is 10 to the power of the total placeholder count. |
| Expansion.IndexOfRun | CoreLogic.cs:76-78 | `IndexOf` of `len` x's gives the first position where they occur, or -1 when there is none. |
| Expansion.FormatValue | CoreLogic.cs:80-82 | Formatting a value below `10^len` with a `len`-zero format gives `len` ASCII digits whose decimal value is the value. With `len = 0` it gives one digit, `0`. |
| Expansion.WriteGroup | CoreLogic.cs:76-84 | One step of the inner loop: without a run of `len` placeholders the pattern is unchanged. Otherwise the characters before and after the first run are kept, and the run is overwritten by `len` digits whose value is the group. |
| Expansion.Substitute | CoreLogic.cs:66-85 | The `IndexOf` substitution keeps the pattern's length when every length is positive. |
| Expansion.Blocks | CoreLogic.cs:69-75 | One digit block per length, each of that length and all digits. |
| Expansion.BlockValue | CoreLogic.cs:69-75 | Block `p` is `(i / 10^(sum of the earlier lengths)) % 10^len_p`, zero-padded: the mixed-radix digits of the index value. |
| Expansion.FillShape | CoreLogic.cs:76-84 | Filling the runs keeps the length, keeps every non-placeholder character, and puts a digit at every placeholder. |
| Expansion.FillRunValue | CoreLogic.cs:76-84 | The `p`-th run's span of the filled pattern holds exactly block `p`. |
| Expansion.SubstitutionFillsRuns | CoreLogic.cs:64-85 | With the pattern's own run lengths, the left-to-right `IndexOf` substitution writes block `p` over run `p`. It equals the run-wise reference expansion for every index value. |
| Expansion.IndexOfFirstRun | CoreLogic.cs:77 | After a placeholder-free prefix, `IndexOf` finds the first remaining run where it starts. |
| Expansion.TargetLen | CoreLogic.cs:87-92 | The target length is always 14, 15 or 16. |
| Expansion.TargetLenOfPrefix | CoreLogic.cs:88-92 | The target length depends only on the first two characters. |
| Expansion.Emit | CoreLogic.cs:94-104 | A record is emitted iff the candidate is one short of its target or exactly on it. The record has the `id\|MM\|YYYY\|000` shape, and its identifier has the target length and agrees with the candidate except in the check digit. For a digit candidate the identifier passes the Luhn check. |
| Expansion.RecordAt | CoreLogic.cs:66-104 | For one index value: a record comes out iff the substituted pattern is one short of its target length or exactly on it, and it has the `id\|MM\|YYYY\|000` shape. |
| Expansion.ExactLengthDiscardsLastDigit | CoreLogic.cs:99-104 | A candidate of exactly the target length gives the same record as the candidate without its last character. |
| Expansion.Collect | CoreLogic.cs:64-105 | The loop over index values adds exactly the present records, and no more than one per index value. |
| Expansion.GeneratedMembers | CoreLogic.cs:64-105 | A string is generated iff some index value below the bound produces it, and every generated string has the record shape. |
| Expansion.GenerateForPattern | CoreLogic.cs:54-106 | The result set only grows, by at most `10^(placeholders)` records. Every new member is a record produced by some index value, and every index value's record is added. |
| Expansion.ExpandAllDigits | CoreLogic.cs:76-84 | Filling a pattern of digits and placeholders gives a string of ASCII digits. |
| Expansion.RecordLuhnValid | CoreLogic.cs:94-104 | Every record produced from a digits-and-placeholders pattern has a Luhn-valid first field. |
| Expansion.RecordFirstField | CoreLogic.cs:97 | The first `\|` field of a record with a digit identifier is that identifier. |
| Expansion.GeneratedAreLuhnValid | CoreLogic.cs:64-105 | Every generated record of such a pattern has a Luhn-valid first field. |
| Expansion.GenerateForPatternLuhnValid | CoreLogic.cs:54-106 | Everything `GenerateForPattern` adds for a validated pattern has a Luhn-valid first field. |
| Text.TryParseInt | Program.cs:172 | `int.TryParse` yields only 32-bit values, and on one to nine ASCII digits yields their decimal value. |
| Text.ParsedIsNumeral | Program.cs:172 | `int.TryParse` succeeds only when the text, without its leading white space, trailing NULs and the white space before them, is an optionally signed run of ASCII digits. It always succeeds on such a run of at most nine characters. |
| Text.TrailingNulsSkipped | Program.cs:172 | `int.TryParse` ignores trailing NUL characters: `"12\0\0"` parses as 12. |
| Text.Trim | Program.cs:129 | `Trim` gives the empty string iff the line is all white space; otherwise the result starts and ends with non-white characters. |
| Text.TrimIsSlice | Program.cs:129 | The trimmed line is a slice of the line with only white space before it and after it. With `Trim`'s contract, this makes it the line with exactly its leading and trailing white space removed. |
| Text.PadLeft | Program.cs:153 | `PadLeft` ends with the original string, is at least `width` long, and is padded only with the pad character. |
| Text.Split | Program.cs:143 | `Split` yields at least one piece, and no piece contains a separator. |
| Text.JoinSplit | CoreLogic.cs:112-121 | Joining the pieces of a split with the same separator gives back the string. |
| Text.SplitJoin | CoreLogic.cs:112-121 | Splitting a join of separator-free pieces gives back the pieces. |
| Text.ReplaceAll | CoreLogic.cs:131 | `Replace` introduces no characters beyond those of the string and the replacement. Up to the first character of the replacement, the result is the string unchanged. When the replacement is non-empty and shares no character with the pattern, the result holds no occurrence of the pattern: every occurrence was replaced. `ReplaceFront` and `ReplaceSkip` fix the rest of the result. |
| Text.ReplaceFront | CoreLogic.cs:131 | An occurrence at the front becomes the replacement, and the scan continues after it. |
| Text.ReplaceSkip | CoreLogic.cs:131 | Text in which no occurrence of the pattern starts is copied unchanged in front of the replaced rest. With `ReplaceFront` this determines the result: it is the text with each leftmost non-overlapping occurrence replaced and everything else kept. |
| Text.StripSpaces | CoreLogic.cs:126 | `Replace(" ", "")` removes exactly the spaces: it equals the space-free subsequence of the line. |
| Formatting.ApplyCardMask | CoreLogic.cs:110-122 | Masking keeps the length and returns the line unchanged when the card field is shorter than the count. Otherwise it keeps every other field and the card's leading digits, and replaces the last `maskDigits` characters of the card field by `x`. |
| Formatting.MaskedFields | CoreLogic.cs:119-121 | Replacing the first field by one of the same length and re-joining keeps the line's length and field structure. |
| Formatting.MaskIdempotent | CoreLogic.cs:110-122 | Masking twice with the same count is the same as masking once. |
| Formatting.MaskNothing | CoreLogic.cs:116-121 | Masking zero digits leaves every line unchanged. |
| Formatting.CardFrom | CoreLogic.cs:127 | The regex scan finds the leftmost position with 15 digits in a row. |
| Formatting.MatchCard | CoreLogic.cs:127-129 | `(\d{15,16})` fails iff no 15 consecutive digits exist. Otherwise it returns the leftmost such digits, greedily extended to a 16th digit when there is one. |
| Formatting.CardNeedsFifteenDigits | CoreLogic.cs:173-178 | A line whose space-free form contains a card has at least 15 digits. |
| Formatting.CountDigitsWithoutSpaces | CoreLogic.cs:173-176 | Removing spaces does not change the digit count. |
| Formatting.FindDate | CoreLogic.cs:136 | `(\d{1,2})/(\d{2,4})` fails iff no position starts a date. A match is the date at some position before which no position starts a date, so it is the leftmost one. It has a 1–2 digit month and a 2–4 digit year. |
| Formatting.FreeHasNoDate | CoreLogic.cs:136 | A string without a separator contains no date. |
| Formatting.DateWiden | CoreLogic.cs:184 | Accepting more separators (`[/\|]` instead of `/`) never loses a date. |
| Formatting.DigitRuns | CoreLogic.cs:146-148 | `\d+` matches are non-empty digit groups. |
| Formatting.RunsSplitAtNonDigit | CoreLogic.cs:146 | A non-digit separates the `\d+` groups: the groups of `a`, a non-digit, then `b` are the groups of `a` followed by those of `b`. No group spans a non-digit. |
| Formatting.RunsWhole | CoreLogic.cs:146 | A non-empty digit string is one group. With the separation lemma, this makes each group a maximal run of digits. |
| Formatting.RunsCoverDigits | CoreLogic.cs:146-148 | The `\d+` groups concatenate to exactly the digits of the string, in order. |
| Formatting.SlashExpiry | CoreLogic.cs:137-143 | A slash date gives a two-digit month of the same value, and a year that is `20`+YY for two digits and verbatim otherwise. |
| Formatting.RunYear | CoreLogic.cs:156-159 | The second digit group becomes a year for lengths 1 (`202`+Y), 2 (`20`+YY) and 4 (verbatim), and nothing otherwise. |
| Formatting.RunsExpiry | CoreLogic.cs:146-161 | A month is taken iff there are at least two groups and the first has at most two digits and value 1..12. The year is then derived from the second group. Without a month there is no year. |
| Formatting.ExtractExpiry | CoreLogic.cs:135-162 | With a slash date, the expiry is the padded month and normalised year of the leftmost date. Without one, it is the fallback on the `\d+` groups. The month and year are digit strings of the expected widths, and a slash date always yields both. |
| Formatting.CleanAndFormatLine | CoreLogic.cs:124-169 | No card gives `""`. With a card, take the expiry read from the line with the card replaced by `\|`. A record comes out iff that expiry passes the final checks, and its fields are then exactly the card, that month and that year. A non-empty result is `card\|MM\|YYYY` with a 15–16 digit card, month 01..12 and year 2020..2040. |
| Formatting.Accepts | CoreLogic.cs:164-166 | For the digit month and year that `ExtractExpiry` produces, the three final checks pass iff the month is two digits in 01..12 and the year is four digits in 2020..2040. |
| Formatting.CleanIdempotent | CoreLogic.cs:124-169 | Normalising a normalised line changes nothing. |
| Formatting.CleanEmpty | CoreLogic.cs:126-128 | The empty line normalises to `""`. |
| Formatting.NormalizedIsFixed | CoreLogic.cs:124-169 | Every well-formed `card\|MM\|YYYY` is a fixed point of the normaliser. |
| Formatting.GetFormatErrorReason | CoreLogic.cs:171-191 | "Too short" carries the digit count and means fewer than 15 digits. "No card" holds iff there is no card match despite 15 digits. "No expiry" holds iff there is a card, no `[/\|]` date and fewer than two digit groups. |
| Formatting.TooShortIff | CoreLogic.cs:173-178 | The reason is "too short" iff the line has fewer than 15 digits. |
| Formatting.ReasonMeansRejected | CoreLogic.cs:171-191 | Every reason other than "expiry unrecognised" describes a line the normaliser rejects. |
| Scenarios.FusedFieldsAfter | CoreLogic.cs:126-166 | A 16-digit card followed by ` 12/26 123` normalises to `""`, because removing spaces fuses the year with the next field. |
| Scenarios.FusedFieldsExample | CoreLogic.cs:124-169 | `4111111111111111 12/26 123` normalises to `""`. |
| Scenarios.SlashDateAfter | CoreLogic.cs:124-169 | A 16-digit card and `12/2026` separated by a space normalise to `card\|12\|2026`. |
| Scenarios.SlashDateExample | CoreLogic.cs:124-169 | `4111111111111111 12/2026` normalises to `4111111111111111\|12\|2026`. |
| Scenarios.MaskFourAfter | CoreLogic.cs:110-122 | Masking four digits of `card\|12\|2026` replaces the last four card digits by `xxxx`. |
| Scenarios.MaskExample | CoreLogic.cs:110-122 | `4111111111111111\|12\|2026` masked with 4 is `411111111111xxxx\|12\|2026`. |
| Bulk.ParseTemplateLine | Program.cs:129-225 | An accepted line yields a valid template whose pattern, month and year are the trimmed, defaulted and padded fields of the line. |
| Bulk.ParseFieldValues | Program.cs:157-225 | The field checks accept only valid templates and keep the given pattern, month and year. |
| Bulk.RejectionOrder | Program.cs:129-225 | A line is accepted iff all seven checks hold. A rejection names the first check that fails, and every earlier check holds. |
| Bulk.FieldOrder | Program.cs:157-225 | The same first-failure order holds for the five checks after splitting. |
| Bulk.BlankAfterTrim | Program.cs:129-130 | A trimmed line is blank iff the line was. |
| Bulk.PatternCharsOk | Program.cs:179-195 | The early-exit scan answers true iff every pattern character is a digit, `x` or `X`. |
| Bulk.TemplateRoundTrip | Program.cs:137-225 | Writing a valid template as `pattern\|MM\|YYYY\|` and parsing the line gives back the template. |
| Bulk.LineOfFields | Program.cs:141-155 | For a line assembled from fields, parsing reduces to the field checks on the trimmed, defaulted values. |
| Bulk.MonthField | Program.cs:139-153 | A missing or blank second field gives `01`. Otherwise the month is the trimmed field with `0`s in front up to two characters. |
| Bulk.YearField | Program.cs:140-155 | A missing or blank third field gives `2028`. Otherwise the year is non-empty and is a slice of the field with only white space around it. |
| Bulk.DefaultsApply | Program.cs:138-155 | Blank month and year fields default to `01` and `2028`. |
| Bulk.MonthPadded | Program.cs:152-153 | A one-digit month is left-padded with `0` and accepted. |
| Bulk.SignedYearAccepted | Program.cs:172-177 | The year check is length 4 plus `int.TryParse`, so a signed four-character year such as `-123` is accepted. |
| Bulk.NulPaddedYearAccepted | Program.cs:172-177 | A year of two digits and two trailing NULs passes `int.TryParse` and is accepted. |
| Bulk.Verdicts | Program.cs:120-225 | One verdict per line, each the line's parse and usable by the batch. |
| Bulk.Results | Program.cs:120-235 | Every record in the shared set after any number of lines has a Luhn-valid first field. |
| Bulk.ProcessLines | Program.cs:112-235 | The batch over all lines produces only Luhn-valid records. |
| Bulk.ErrorList | Program.cs:129-225 | The `errorDetails` list has one entry per rejected line, each with the 1-based line number and the line's rejection reason, in line order. |
| Bulk.LineEffect | Program.cs:129-234 | A rejected line adds one error entry and no records. An accepted line adds no error entry, keeps every earlier record and adds every record of its index values. |
| Bulk.AllRejectedNoRecords | Program.cs:120-235 | If every line is rejected, there are no records and one error per line. |
| Bulk.LinesReported | Program.cs:120-225 | Each error entry points at an input line whose parse fails with exactly that reason, and entries are in strictly increasing line order. |
| Bulk.Keeps | Program.cs:256-259 | The post-filter keeps a line iff its first `\|` field is Luhn-valid; the emptiness test is redundant, and a kept field has at least two digits. |
| Bulk.Kept | Program.cs:253-267 | The kept lines are no more than the input and each passes the filter. |
| Bulk.KeptMembers | Program.cs:253-267 | A line is kept iff it is an input line that passes the filter, so every passing line is kept. |
| Bulk.LuhnFilter | Program.cs:253-267 | The filter loop keeps exactly the passing lines in order. Kept plus counted-invalid equals the input size, and an all-valid input is kept whole with zero invalid. |
| Bulk.KeptAll | Program.cs:253-267 | When every line passes, the filter keeps all of them. |
| Bulk.Lines | Program.cs:112 | Splitting on CR/LF with empty entries removed gives non-empty lines without line breaks. Concatenated in order, the lines are the text with every CR and LF removed. `LinesAtBreak` and `LinesWhole` fix where the lines break. |
| Bulk.LinesAtBreak | Program.cs:112 | A CR or LF ends the line before it, which is kept only if non-empty, and the rest of the text is split on its own. |
| Bulk.LinesWhole | Program.cs:112 | Text without CR or LF is one line, or no line when it is empty. With `LinesAtBreak` this determines the lines: the non-empty maximal CR/LF-free pieces, in order. |
| Bulk.SplitLinesConcat | Program.cs:112 | The pieces between CR/LF, concatenated in order, are the text with its line breaks removed. |
| Bulk.SetToList | Program.cs:243 | Listing a set gives each member exactly once. |
| Bulk.Draws | CoreLogic.cs:42-47 | The draws taken from the random source are each within the range `Next(n + 1)` allows. |
| Bulk.ShuffledAllKept | Program.cs:243-267 | A shuffled listing of Luhn-valid records passes the filter entirely and has the same members. |
| Bulk.GenerateBulkProcess | Program.cs:110-267 | The final list holds exactly the batch's records, once each, and they all pass the Luhn check. The invalid count is always 0, and the error list is the batch's list. |

## Left out

- Expansion.GenerateForPattern: requires at most 18 placeholders. The source counts combinations in a 64-bit `long` (CoreLogic.cs:56-58), and 19 or more placeholders overflow it; the model does not reproduce the wrapped count.
- Bulk.GenerateBulkProcess: requires every accepted line to have at most 18 placeholders (`Capped`), for the same `long` overflow.
- Bulk.GenerateBulkProcess: the progress-bar `Invoke`s, the `cards.txt` and `errors.txt` writers, the message box and the exception handler are I/O and are not modelled. The Vietnamese error messages become the `LineError` datatype, and `parseErrorCount` is the length of the error list.
- Bulk.GenerateBulkProcess: the `combinations` product (Program.cs:227-232) is computed and never used, so it is not modelled.
- Formatting.CleanAndFormatLine: the regex `\d` and `int.TryParse` are modelled as ASCII `0`–`9` only. .NET's `\d` also matches other Unicode decimal digits.
- Formatting.GetFormatErrorReason: `char.IsDigit` and `\d` are modelled as ASCII digits only, as above.
- Formatting.GetFormatErrorReason: returns the `FormatError` datatype (with the digit count for "too short") instead of the Vietnamese message strings.
- Formatting.ApplyCardMask: `maskDigits` is a `nat`. A negative count makes `ApplyCardMask` throw from `Substring` (CoreLogic.cs:118), and that exception is not modelled.
- Expansion.IndexOfRun: `ToLower` and `IndexOf`/`StartsWith` (CoreLogic.cs:77, 89) are culture-sensitive in .NET. They are modelled ordinally on ASCII `x`/`X` and digits.
- Text.ReplaceAll: the absence of the pattern in the result is stated only for a non-empty replacement that shares no character with the pattern. Without that condition it fails: removing `ab` from `aabb` leaves `ab`.
- Text.TryParseInt: the sign symbols are the invariant culture's `+` and `-`. Culture-specific signs are not modelled.
- Luhn.GetLuhnCheckDigit: the `int` sum (CoreLogic.cs:24) is unbounded in the model. It cannot overflow for card-length inputs.
- Shuffle.ShuffleList: `new Random()` is replaced by a sequence of draws given as a parameter, one per swap, each in range.
- Bulk.Draws: the random source is a function from the step to a number, reduced into range.
- Bulk.SetToList: the enumeration order of a `HashSet` is unspecified, so the listing is an arbitrary order of the members.
- `null` strings are not modelled. Every string is a sequence of characters.
- `Program.cs` lines 347-449 duplicate the `CoreLogic` helpers and are modelled by the same members.
- The single-card generator, the file readers and the window (MainForm.cs and the rest of Program.cs) are user interface and I/O, and are not part of this model.

=== FILE: bulk.dfy ===
/** The bulk generator: each template line `BINxxxx|MM|YYYY|` is validated
    and expanded into the shared result set, the set is listed and shuffled,
    and a final pass keeps the records whose card number passes the Luhn
    check. */
module Bulk {
  import opened Outcomes
  import opened Text
  import opened Luhn
  import opened Expansion
  import opened Shuffle

  // ---------------------------------------------------------------------
  // One template line
  // ---------------------------------------------------------------------

  /** Why a template line was skipped, one case per check, in the order the
      checks are made. */
  datatype LineError =
    | Blank
    | MissingFields
    | BadMonth(mm: string)
    | MonthOutOfRange(mm: string)
    | BadYear(yyyy: string)
    | BadPatternChars
    | NoPlaceholder

  /** A validated template line: the card pattern, the expiry to print and
      the lengths of the pattern's placeholder runs. */
  datatype Template = Template(cardPattern: string, mm: string, yyyy: string, lengths: seq<nat>)

  /** The position of each check in the order they are made. */
  function Stage(e: LineError): (k: nat)
    ensures k < 7
  {
    match e
    case Blank => 0
    case MissingFields => 1
    case BadMonth(_) => 2
    case MonthOutOfRange(_) => 3
    case BadYear(_) => 4
    case BadPatternChars => 5
    case NoPlaceholder => 6
  }

  /** The `|`-fields of the trimmed line. */
  function Fields(line: string): (parts: seq<string>)
    ensures |parts| >= 1
  {
    Split(Trim(line), {'|'})
  }

  /** The month to use: the trimmed second field with `'0'`s in front up to
      two characters, or `"01"` when that field is blank. */
  function MonthField(parts: seq<string>): (m: string)
    ensures |parts| < 2 || IsBlank(parts[1]) ==> m == "01"
    ensures |parts| >= 2 && !IsBlank(parts[1]) ==>
              var f := Trim(parts[1]);
              && |m| == (if |f| >= 2 then |f| else 2) && m[|m| - |f|..] == f
              && forall i :: 0 <= i < |m| - |f| ==> m[i] == '0'
  {
    if |parts| >= 2 && !IsBlank(parts[1]) then PadLeft(Trim(parts[1]), 2, '0') else "01"
  }

  /** The year to use: the third field without its surrounding white space,
      or `"2028"` when it is blank. */
  function YearField(parts: seq<string>): (y: string)
    ensures |parts| < 3 || IsBlank(parts[2]) ==> y == "2028"
    ensures |parts| >= 3 && !IsBlank(parts[2]) ==> y != [] && exists a :: WhiteFramed(parts[2], a, y)
  {
    if |parts| >= 3 && !IsBlank(parts[2]) then TrimIsSlice(parts[2]); Trim(parts[2]) else "2028"
  }

  /** Check number `k` of a template line, stated on its own. */
  predicate Check(line: string, k: nat)
  {
    var parts := Fields(line);
    if k == 0 then !IsBlank(line)
    else if k == 1 then |parts| >= 3
    else FieldCheck(Trim(parts[0]), MonthField(parts), YearField(parts), k)
  }

  /** Checks 2 to 6, on the card pattern, month and year of the line. */
  predicate FieldCheck(cardPattern: string, mm: string, yyyy: string, k: nat)
  {
    if k == 2 then |mm| == 2 && AllDigits(mm)
    else if k == 3 then AllDigits(mm) && 1 <= DecimalValue(mm) <= 12
    else if k == 4 then |yyyy| == 4 && TryParseInt(yyyy).Some?
    else if k == 5 then DigitsAndPlaceholders(cardPattern)
    else XRuns(cardPattern) != []
  }

  /** A template that the line `cardPattern|mm|yyyy|` describes exactly. */
  predicate ValidTemplate(t: Template)
  {
    && DigitsAndPlaceholders(t.cardPattern)
    && t.lengths == XRuns(t.cardPattern) && t.lengths != []
    && |t.mm| == 2 && AllDigits(t.mm) && 1 <= DecimalValue(t.mm) <= 12
    && |t.yyyy| == 4 && TryParseInt(t.yyyy).Some?
    && Free(t.yyyy, {'|'}) && !IsWhiteSpace(t.yyyy[0]) && !IsWhiteSpace(t.yyyy[3])
  }

  /** The per-line validation of the bulk generator: trim, split on `|`,
      fill in the default month and year, check month, year and pattern
      characters, and scan the placeholder runs. The error is that of the
      first check that fails. */
  function ParseTemplateLine(line: string): (r: Result<Template, LineError>)
    ensures r.Success? ==> ValidTemplate(r.value)
    ensures r.Success? ==>
              && r.value.cardPattern == Trim(Fields(line)[0])
              && r.value.mm == MonthField(Fields(line))
              && r.value.yyyy == YearField(Fields(line))
  {
    var pattern := Trim(line);
    if IsBlank(pattern) then Failure(Blank)
    else
      var parts := Split(pattern, {'|'});
      if |parts| < 3 then Failure(MissingFields)
      else
        YearFieldShape(parts);
        ParseFieldValues(Trim(parts[0]), MonthField(parts), YearField(parts))
  }

  /** The checks made once the three fields are known. */
  function ParseFieldValues(cardPattern: string, mm: string, yyyy: string): (r: Result<Template, LineError>)
    requires YearShape(yyyy)
    ensures r.Success? ==> ValidTemplate(r.value)
    ensures r.Success? ==> r.value.cardPattern == cardPattern && r.value.mm == mm && r.value.yyyy == yyyy
  {
    if !(|mm| == 2 && IsDigit(mm[0]) && IsDigit(mm[1])) then Failure(BadMonth(mm))
    else
      assert AllDigits(mm);
      if !(1 <= DecimalValue(mm) <= 12) then Failure(MonthOutOfRange(mm))
      else if |yyyy| != 4 || TryParseInt(yyyy).None? then Failure(BadYear(yyyy))
      else if !DigitsAndPlaceholders(cardPattern) then Failure(BadPatternChars)
      else
        var lengths := XRuns(cardPattern);
        if lengths == [] then Failure(NoPlaceholder)
        else Success(Template(cardPattern, mm, yyyy, lengths))
  }

  /** The rejection order: a line is accepted iff it passes all seven checks,
      and a rejected line is reported with the first check it fails. */
  lemma RejectionOrder(line: string)
    ensures var r := ParseTemplateLine(line);
            r.Success? <==> forall k :: 0 <= k < 7 ==> Check(line, k)
    ensures var r := ParseTemplateLine(line);
            r.Failure? ==>
              && !Check(line, Stage(r.error))
              && forall k :: 0 <= k < Stage(r.error) ==> Check(line, k)
  {
    var r := ParseTemplateLine(line);
    BlankAfterTrim(line);
    var parts := Fields(line);
    if IsBlank(line) {
      assert !Check(line, 0);
    } else if |parts| < 3 {
      assert Check(line, 0) && !Check(line, 1);
    } else {
      var cp, mm, yyyy := Trim(parts[0]), MonthField(parts), YearField(parts);
      YearFieldShape(parts);
      assert r == ParseFieldValues(cp, mm, yyyy);
      FieldOrder(cp, mm, yyyy);
      assert Check(line, 0) && Check(line, 1);
      assert forall k :: 2 <= k < 7 ==> (Check(line, k) <==> FieldCheck(cp, mm, yyyy, k));
    }
  }

  /** The rejection order of checks 2 to 6. */
  lemma FieldOrder(cardPattern: string, mm: string, yyyy: string)
    requires YearShape(yyyy)
    ensures var r := ParseFieldValues(cardPattern, mm, yyyy);
            r.Success? <==> forall k :: 2 <= k < 7 ==> FieldCheck(cardPattern, mm, yyyy, k)
    ensures var r := ParseFieldValues(cardPattern, mm, yyyy);
            r.Failure? ==>
              && 2 <= Stage(r.error)
              && !FieldCheck(cardPattern, mm, yyyy, Stage(r.error))
              && forall k :: 2 <= k < Stage(r.error) ==> FieldCheck(cardPattern, mm, yyyy, k)
  {
    var r := ParseFieldValues(cardPattern, mm, yyyy);
    var twoDigits := |mm| == 2 && IsDigit(mm[0]) && IsDigit(mm[1]);
    assert twoDigits <==> FieldCheck(cardPattern, mm, yyyy, 2) by {
      if FieldCheck(cardPattern, mm, yyyy, 2) {
        assert IsDigit(mm[0]) && IsDigit(mm[1]);
      }
    }
    if r.Success? {
      assert FieldCheck(cardPattern, mm, yyyy, 3);
      assert FieldCheck(cardPattern, mm, yyyy, 4);
      assert FieldCheck(cardPattern, mm, yyyy, 5);
      assert FieldCheck(cardPattern, mm, yyyy, 6);
    } else {
      var k := Stage(r.error);
      if k >= 4 { assert FieldCheck(cardPattern, mm, yyyy, 3); }
      if k >= 5 { assert FieldCheck(cardPattern, mm, yyyy, 4); }
      if k >= 6 { assert FieldCheck(cardPattern, mm, yyyy, 5); }
      assert !FieldCheck(cardPattern, mm, yyyy, k);
    }
  }

  lemma BlankAfterTrim(line: string)
    ensures IsBlank(Trim(line)) <==> IsBlank(line)
  {
    var t := Trim(line);
    if t != [] {
      assert !IsWhiteSpace(t[0]);
    }
  }

  /** A year as the line supplies it: no `|`, and when it has four
      characters, none of white space at either end. */
  predicate YearShape(yyyy: string)
  {
    Free(yyyy, {'|'}) && (|yyyy| == 4 ==> !IsWhiteSpace(yyyy[0]) && !IsWhiteSpace(yyyy[3]))
  }

  /** A year taken from a field is trimmed and holds no `|`. */
  lemma YearFieldShape(parts: seq<string>)
    requires forall i :: 0 <= i < |parts| ==> Free(parts[i], {'|'})
    ensures YearShape(YearField(parts))
  {
    if |parts| >= 3 && !IsBlank(parts[2]) {
      TrimFree(parts[2], '|');
    }
  }

  lemma TrimFree(s: string, c: char)
    requires Free(s, {c})
    ensures Free(Trim(s), {c})
  {
    var t := DropWhile(s, IsWhiteSpace);
    var r := DropWhileEnd(t, IsWhiteSpace);
    var a := |s| - |t|;
    assert r == s[a..a + |r|];
    forall i | 0 <= i < |r|
      ensures r[i] != c
    {
      assert r[i] == s[a + i];
    }
  }

  /** The pattern-character loop, with its early exit. */
  method PatternCharsOk(cardPattern: string) returns (ok: bool)
    ensures ok <==> DigitsAndPlaceholders(cardPattern)
  {
    ok := true;
    var ci := 0;
    while ci < |cardPattern|
      invariant 0 <= ci <= |cardPattern|
      invariant ok <==> forall k :: 0 <= k < ci ==> IsDigit(cardPattern[k]) || IsX(cardPattern[k])
      invariant !ok ==> !DigitsAndPlaceholders(cardPattern)
    {
      var c := cardPattern[ci];
      if !(IsDigit(c) || IsX(c)) {
        ok := false;
        break;
      }
      ci := ci + 1;
    }
  }

  /** The line a template is written as. */
  function TemplateLine(t: Template): string
  {
    FieldLine(t.cardPattern, t.mm, t.yyyy)
  }

  /** The line `cp|m|y|` in the `BINxxxx|MM|YYYY|` template format. */
  function FieldLine(cp: string, m: string, y: string): string
  {
    cp + "|" + m + "|" + y + "|"
  }

  /** Every valid template is read back from its own line: the accepted
      lines are exactly the `BINxxxx|MM|YYYY|` template format, up to white
      space and defaults. */
  lemma TemplateRoundTrip(t: Template)
    requires ValidTemplate(t)
    ensures ParseTemplateLine(TemplateLine(t)) == Success(t)
  {
    var line := TemplateLine(t);
    var p := [t.cardPattern, t.mm, t.yyyy, ""];
    TemplateFields(t);
    assert !IsBlank(Trim(line)) by {
      BlankAfterTrim(line);
      assert !IsWhiteSpace(line[|line| - 1]);
    }
    FieldsKeepValues(t);
    ParseOfFields(line);
    FieldValuesOfValid(t);
  }

  /** A line that is not blank and has three fields is decided by checks 2
      to 6 on its fields. */
  lemma ParseOfFields(line: string)
    requires !IsBlank(Trim(line)) && |Fields(line)| >= 3
    requires YearShape(YearField(Fields(line)))
    ensures var parts := Fields(line);
            ParseTemplateLine(line) == ParseFieldValues(Trim(parts[0]), MonthField(parts), YearField(parts))
  {
  }

  /** The fields of a valid template are read back unchanged: no trimming,
      padding or default applies to them. */
  lemma FieldsKeepValues(t: Template)
    requires ValidTemplate(t) && t.cardPattern != []
    ensures var p := [t.cardPattern, t.mm, t.yyyy, ""];
            Trim(p[0]) == t.cardPattern && MonthField(p) == t.mm && YearField(p) == t.yyyy
  {
    TemplateEnds(t);
    KeepValues(t.cardPattern, t.mm, t.yyyy);
  }

  /** The fields of a valid template neither start nor end with white space,
      and none holds a `|`. */
  lemma TemplateEnds(t: Template)
    requires ValidTemplate(t)
    ensures var cp := t.cardPattern;
            && cp != [] && !IsWhiteSpace(cp[0]) && !IsWhiteSpace(cp[|cp| - 1])
            && !IsWhiteSpace(t.mm[0]) && !IsWhiteSpace(t.mm[1])
            && !IsWhiteSpace(t.yyyy[0]) && !IsWhiteSpace(t.yyyy[3])
            && Free(cp, {'|'}) && Free(t.mm, {'|'}) && Free(t.yyyy, {'|'})
  {
    var cp := t.cardPattern;
    assert cp != [] by {
      assert XRuns(cp) != [];
    }
    PatternEnds(cp);
    MonthEnds(t.mm);
  }

  lemma MonthEnds(mm: string)
    requires |mm| == 2 && AllDigits(mm)
    ensures !IsWhiteSpace(mm[0]) && !IsWhiteSpace(mm[1]) && Free(mm, {'|'})
  {
    assert IsDigit(mm[0]) && IsDigit(mm[1]);
  }

  lemma KeepValues(cp: string, mm: string, yyyy: string)
    requires cp != [] && !IsWhiteSpace(cp[0]) && !IsWhiteSpace(cp[|cp| - 1])
    requires |mm| == 2 && !IsWhiteSpace(mm[0]) && !IsWhiteSpace(mm[1])
    requires |yyyy| == 4 && !IsWhiteSpace(yyyy[0]) && !IsWhiteSpace(yyyy[3])
    ensures var p := [cp, mm, yyyy, ""];
            Trim(p[0]) == cp && MonthField(p) == mm && YearField(p) == yyyy
  {
    TrimKeeps(cp);
    MonthKeeps(cp, mm, yyyy);
    YearKeeps(cp, mm, yyyy);
  }

  lemma MonthKeeps(cp: string, mm: string, yyyy: string)
    requires |mm| == 2 && !IsWhiteSpace(mm[0]) && !IsWhiteSpace(mm[1])
    ensures MonthField([cp, mm, yyyy, ""]) == mm
  {
    TrimKeeps(mm);
    assert !IsBlank(mm);
  }

  lemma YearKeeps(cp: string, mm: string, yyyy: string)
    requires |yyyy| == 4 && !IsWhiteSpace(yyyy[0]) && !IsWhiteSpace(yyyy[3])
    ensures YearField([cp, mm, yyyy, ""]) == yyyy
  {
    TrimKeeps(yyyy);
    assert !IsBlank(yyyy);
  }

  /** The fields of a template's line are its pattern, month, year and an
      empty last field. */
  lemma TemplateFields(t: Template)
    requires ValidTemplate(t)
    ensures Fields(TemplateLine(t)) == [t.cardPattern, t.mm, t.yyyy, ""]
    ensures t.cardPattern != []
  {
    TemplateEnds(t);
    LineEnds(t.cardPattern, t.mm, t.yyyy);
    TrimKeeps(TemplateLine(t));
    SplitFour(t.cardPattern, t.mm, t.yyyy);
  }

  /** Three `|`-free fields, each followed by a `|`, split back into those
      fields and an empty last one. */
  lemma SplitFour(a: string, b: string, c: string)
    requires Free(a, {'|'}) && Free(b, {'|'}) && Free(c, {'|'})
    ensures Split(FieldLine(a, b, c), {'|'}) == [a, b, c, ""]
  {
    var p := [a, b, c, ""];
    assert Join(p, '|') == a + "|" + b + "|" + c + "|" by {
      assert Join(p[3..], '|') == "";
      assert Join(p[2..], '|') == c + "|";
      assert Join(p[1..], '|') == b + "|" + c + "|";
    }
    assert forall i :: 0 <= i < 4 ==> Free(p[i], {'|'});
    SplitJoin(p, '|');
  }

  /** A valid template's own fields pass checks 2 to 6. */
  lemma FieldValuesOfValid(t: Template)
    requires ValidTemplate(t)
    ensures ParseFieldValues(t.cardPattern, t.mm, t.yyyy) == Success(t)
  {
    assert IsDigit(t.mm[0]) && IsDigit(t.mm[1]);
    assert TryParseInt(t.yyyy).Some? && DigitsAndPlaceholders(t.cardPattern);
    assert XRuns(t.cardPattern) == t.lengths != [];
  }

  /** A string that neither starts nor ends with white space is its own trim. */
  lemma TrimKeeps(s: string)
    requires s != [] ==> !IsWhiteSpace(s[0]) && !IsWhiteSpace(s[|s| - 1])
    ensures Trim(s) == s
  {
  }

  /** A line `cp|m|y|` whose pattern is made of digits and placeholders is
      decided by checks 2 to 6 on the pattern and the month and year the
      defaults and padding make of `m` and `y`. */
  lemma LineOfFields(cp: string, m: string, y: string)
    requires cp != [] && DigitsAndPlaceholders(cp)
    requires Free(m, {'|'}) && Free(y, {'|'})
    requires YearShape(YearField([cp, m, y, ""]))
    ensures ParseTemplateLine(FieldLine(cp, m, y))
         == ParseFieldValues(cp, MonthField([cp, m, y, ""]), YearField([cp, m, y, ""]))
  {
    var line := FieldLine(cp, m, y);
    LineShape(cp, m, y);
    TrimKeeps(line);
    ParseOfFields(line);
  }

  lemma LineShape(cp: string, m: string, y: string)
    requires cp != [] && DigitsAndPlaceholders(cp)
    requires Free(m, {'|'}) && Free(y, {'|'})
    ensures var line := FieldLine(cp, m, y);
            && !IsWhiteSpace(line[0]) && !IsWhiteSpace(line[|line| - 1])
            && Split(line, {'|'}) == [cp, m, y, ""]
            && Trim(cp) == cp
  {
    PatternEnds(cp);
    TrimKeeps(cp);
    SplitFour(cp, m, y);
    LineEnds(cp, m, y);
  }

  /** A pattern of digits and placeholders holds no `|` and has no white
      space at either end. */
  lemma PatternEnds(cp: string)
    requires cp != [] && DigitsAndPlaceholders(cp)
    ensures Free(cp, {'|'}) && !IsWhiteSpace(cp[0]) && !IsWhiteSpace(cp[|cp| - 1])
  {
    assert forall k :: 0 <= k < |cp| ==> IsDigit(cp[k]) || IsX(cp[k]);
    assert IsDigit(cp[0]) || IsX(cp[0]);
    assert IsDigit(cp[|cp| - 1]) || IsX(cp[|cp| - 1]);
  }

  lemma LineEnds(cp: string, m: string, y: string)
    requires cp != []
    ensures var line := FieldLine(cp, m, y);
            line[0] == cp[0] && line[|line| - 1] == '|'
  {
  }

  /** A template built from a pattern of digits and placeholders and a month
      and year that pass checks 2 to 4. */
  lemma ValidOfParts(cp: string, mm: string, yyyy: string)
    requires DigitsAndPlaceholders(cp) && XRuns(cp) != []
    requires |mm| == 2 && AllDigits(mm) && 1 <= DecimalValue(mm) <= 12
    requires |yyyy| == 4 && TryParseInt(yyyy).Some?
    requires Free(yyyy, {'|'}) && !IsWhiteSpace(yyyy[0]) && !IsWhiteSpace(yyyy[3])
    ensures ValidTemplate(Template(cp, mm, yyyy, XRuns(cp)))
    ensures ParseFieldValues(cp, mm, yyyy) == Success(Template(cp, mm, yyyy, XRuns(cp)))
  {
    FieldValuesOfValid(Template(cp, mm, yyyy, XRuns(cp)));
  }

  /** Blank month and year fields take the defaults `01` and `2028`. */
  lemma DefaultsApply(cp: string, m: string, y: string)
    requires DigitsAndPlaceholders(cp) && XRuns(cp) != []
    requires IsBlank(m) && IsBlank(y) && Free(m, {'|'}) && Free(y, {'|'})
    ensures ParseTemplateLine(FieldLine(cp, m, y)) == Success(Template(cp, "01", "2028", XRuns(cp)))
  {
    assert cp != [];
    assert MonthField([cp, m, y, ""]) == "01";
    assert YearField([cp, m, y, ""]) == "2028";
    MonthOne();
    YearDefault();
    LineOfFields(cp, m, y);
    ValidOfParts(cp, "01", "2028");
  }

  lemma MonthOne()
    ensures |"01"| == 2 && AllDigits("01") && DecimalValue("01") == 1
    ensures Free("01", {'|'}) && !IsWhiteSpace("01"[0]) && !IsWhiteSpace("01"[1])
  {
    assert "01"[..1] == "0" && "0"[..0] == "";
  }

  lemma YearDefault()
    ensures |"2028"| == 4 && TryParseInt("2028").Some?
    ensures Free("2028", {'|'}) && !IsWhiteSpace("2028"[0]) && !IsWhiteSpace("2028"[3])
    ensures YearShape("2028")
  {
    YearDigits();
  }

  lemma YearDigits()
    ensures |"2028"| == 4 && AllDigits("2028")
    ensures Free("2028", {'|'}) && !IsWhiteSpace("2028"[0]) && !IsWhiteSpace("2028"[3])
  {
    var y := "2028";
    assert y[0] == '2' && y[1] == '0' && y[2] == '2' && y[3] == '8';
  }

  /** A one-digit month is padded with a leading `0`. */
  lemma MonthPadded(cp: string, d: char)
    requires DigitsAndPlaceholders(cp) && XRuns(cp) != []
    requires '1' <= d <= '9'
    ensures ParseTemplateLine(FieldLine(cp, [d], "2028")) == Success(Template(cp, ['0', d], "2028", XRuns(cp)))
  {
    assert cp != [];
    PaddedDigit(cp, d);
    YearDefault();
    YearKeeps(cp, [d], "2028");
    LineOfFields(cp, [d], "2028");
    ValidOfParts(cp, ['0', d], "2028");
  }

  lemma PaddedDigit(cp: string, d: char)
    requires '1' <= d <= '9'
    ensures MonthField([cp, [d], "2028", ""]) == ['0', d]
    ensures |['0', d]| == 2 && AllDigits(['0', d]) && 1 <= DecimalValue(['0', d]) <= 12
    ensures Free([d], {'|'})
  {
    var parts := [cp, [d], "2028", ""];
    assert |parts| >= 2 && parts[1] == [d];
    PadDigit(d);
    assert MonthField(parts) == PadLeft(Trim([d]), 2, '0');
    TwoDigitMonth(d);
    assert 1 <= DigitValue(d) <= 9;
    assert [d][0] == d;
  }

  lemma PadDigit(d: char)
    requires '1' <= d <= '9'
    ensures !IsBlank([d]) && Trim([d]) == [d] && PadLeft([d], 2, '0') == ['0', d]
  {
    assert [d][0] == d && !IsWhiteSpace(d);
    TrimKeeps([d]);
    assert seq(1, _ => '0') == ['0'];
  }

  lemma TwoDigitMonth(d: char)
    requires '1' <= d <= '9'
    ensures |['0', d]| == 2 && AllDigits(['0', d]) && DecimalValue(['0', d]) == DigitValue(d)
  {
    assert ['0', d][..1] == "0" && "0"[..0] == "";
  }

  /** The year check is `int.TryParse` on four characters, so a signed year
      such as `-123` is accepted. */
  lemma SignedYearAccepted(cp: string)
    requires DigitsAndPlaceholders(cp) && XRuns(cp) != []
    ensures ParseTemplateLine(FieldLine(cp, "01", "-123")) == Success(Template(cp, "01", "-123", XRuns(cp)))
  {
    assert cp != [];
    MonthOne();
    SignedYearParses();
    MonthKeeps(cp, "01", "-123");
    YearKeeps(cp, "01", "-123");
    LineOfFields(cp, "01", "-123");
    ValidOfParts(cp, "01", "-123");
  }

  lemma SignedYearParses()
    ensures TryParseInt("-123") == Some(-123)
    ensures Free("-123", {'|'}) && YearShape("-123")
  {
    SignedNumberPart();
    SignedValue();
  }

  lemma SignedNumberPart()
    ensures NumberPart("-123") == "-123"
  {
    var s := "-123";
    assert !IsParseWhite(s[0]) && !IsNul(s[3]) && !IsParseWhite(s[3]);
    DropWhileStops(s, IsParseWhite);
    DropWhileEndStops(s, IsNul);
    DropWhileEndStops(s, IsParseWhite);
  }

  lemma SignedValue()
    ensures ParseNumber("-123") == Some(-123)
  {
    var s := "-123";
    assert s[1..] == "123";
    assert AllDigits("123") && DecimalValue("123") == 123 by {
      assert "123"[..2] == "12" && "12"[..1] == "1" && "1"[..0] == "";
    }
  }


  /** A year of four characters that `int.TryParse` reads through trailing
      NULs, such as `12` followed by two NULs, is accepted. */
  lemma NulPaddedYearAccepted(cp: string)
    requires DigitsAndPlaceholders(cp) && XRuns(cp) != []
    ensures ParseTemplateLine(FieldLine(cp, "01", "12\0\0")) == Success(Template(cp, "01", "12\0\0", XRuns(cp)))
  {
    assert cp != [];
    NulYearShape();
    MonthKeeps(cp, "01", "12\0\0");
    YearKeeps(cp, "01", "12\0\0");
    MonthOne();
    TrailingNulsSkipped();
    LineOfFields(cp, "01", "12\0\0");
    ValidOfParts(cp, "01", "12\0\0");
  }

  lemma NulYearShape()
    ensures |"12\0\0"| == 4 && Free("12\0\0", {'|'}) && YearShape("12\0\0")
    ensures !IsWhiteSpace("12\0\0"[0]) && !IsWhiteSpace("12\0\0"[3])
  {
    var y := "12\0\0";
    assert y[0] == '1' && y[1] == '2' && y[2] == '\0' && y[3] == '\0';
  }


  // ---------------------------------------------------------------------
  // The batch
  // ---------------------------------------------------------------------

  /** An error entry: the 1-based line number and what was wrong. */
  datatype ErrorEntry = ErrorEntry(lineNumber: nat, error: LineError)

  /** The shared result set and the error list after some lines. */
  datatype Batch = Batch(results: set<string>, errors: seq<ErrorEntry>)

  /** The expansion counts in a 64-bit `long`: a line that passes validation
      has at most 18 placeholders. */
  predicate Capped(line: string)
  {
    var r := ParseTemplateLine(line);
    r.Success? ==> Sum(r.value.lengths) <= 18
  }

  /** A verdict the batch can act on: an accepted template is valid and has
      at most 18 placeholders. */
  predicate Usable(v: Result<Template, LineError>)
  {
    v.Success? ==> ValidTemplate(v.value) && Sum(v.value.lengths) <= 18
  }

  /** The verdict on each line. */
  function Verdicts(lines: seq<string>): (vs: seq<Result<Template, LineError>>)
    requires forall j :: 0 <= j < |lines| ==> Capped(lines[j])
    ensures |vs| == |lines|
    ensures forall j :: 0 <= j < |lines| ==> vs[j] == ParseTemplateLine(lines[j]) && Usable(vs[j])
  {
    AllUsable(lines);
    seq(|lines|, j requires 0 <= j < |lines| => ParseTemplateLine(lines[j]))
  }

  lemma AllUsable(lines: seq<string>)
    requires forall j :: 0 <= j < |lines| ==> Capped(lines[j])
    ensures forall j :: 0 <= j < |lines| ==> Usable(ParseTemplateLine(lines[j]))
  {
    forall j | 0 <= j < |lines|
      ensures Usable(ParseTemplateLine(lines[j]))
    {
      assert Capped(lines[j]);
    }
  }

  /** How many of the first `n` verdicts are rejections. */
  function Rejected(vs: seq<Result<Template, LineError>>, n: nat): (c: nat)
    requires n <= |vs|
    ensures c <= n
  {
    if n == 0 then 0
    else Rejected(vs, n - 1) + (if vs[n - 1].Failure? then 1 else 0)
  }

  /** The shared result set after the first `n` lines: a rejected line adds
      nothing, an accepted one adds the records of its template. */
  function Results(vs: seq<Result<Template, LineError>>, n: nat): (r: set<string>)
    requires n <= |vs|
    requires forall j :: 0 <= j < |vs| ==> Usable(vs[j])
    ensures forall s :: s in r ==> IsLuhnValid(FirstField(s))
  {
    if n == 0 then {}
    else
      var before := Results(vs, n - 1);
      match vs[n - 1]
      case Failure(_) => before
      case Success(t) =>
        AddedAreLuhnValid(t, before);
        GenerateForPattern(t.cardPattern, t.mm, t.yyyy, t.lengths, before)
  }

  /** The records a valid template adds pass the Luhn check. */
  lemma AddedAreLuhnValid(t: Template, results: set<string>)
    requires ValidTemplate(t) && Sum(t.lengths) <= 18
    ensures forall s :: s in GenerateForPattern(t.cardPattern, t.mm, t.yyyy, t.lengths, results) && s !in results
              ==> IsLuhnValid(FirstField(s))
  {
    forall s | s in GenerateForPattern(t.cardPattern, t.mm, t.yyyy, t.lengths, results) && s !in results
      ensures IsLuhnValid(FirstField(s))
    {
      GenerateForPatternLuhnValid(t.cardPattern, t.mm, t.yyyy, results, s);
    }
  }

  /** The state after the first `n` lines, given the verdict on each line. */
  function Process(vs: seq<Result<Template, LineError>>, n: nat): (b: Batch)
    requires n <= |vs|
    requires forall j :: 0 <= j < |vs| ==> Usable(vs[j])
  {
    Batch(Results(vs, n), ErrorList(vs, n))
  }

  /** The state after the whole text's lines. */
  function ProcessLines(lines: seq<string>): (b: Batch)
    requires forall j :: 0 <= j < |lines| ==> Capped(lines[j])
    ensures forall s :: s in b.results ==> IsLuhnValid(FirstField(s))
  {
    Process(Verdicts(lines), |lines|)
  }

  /** Sound error entries for the first `n` verdicts: each names a line among
      the first `n` and the reason that line was rejected, in line order. */
  predicate Reports(vs: seq<Result<Template, LineError>>, es: seq<ErrorEntry>, n: nat)
    requires n <= |vs|
  {
    && (forall k :: 0 <= k < |es| ==>
          && 1 <= es[k].lineNumber <= n
          && vs[es[k].lineNumber - 1] == Failure(es[k].error))
    && (forall a, c :: 0 <= a < c < |es| ==> es[a].lineNumber < es[c].lineNumber)
  }

  /** The error entries of the first `n` verdicts: one per rejected line,
      each naming the line's number and the reason it was rejected, in line
      order. */
  function ErrorList(vs: seq<Result<Template, LineError>>, n: nat): (es: seq<ErrorEntry>)
    requires n <= |vs|
    ensures |es| == Rejected(vs, n)
    ensures Reports(vs, es, n)
  {
    if n == 0 then []
    else
      var before := ErrorList(vs, n - 1);
      var es := before + (if vs[n - 1].Failure? then [ErrorEntry(n, vs[n - 1].error)] else []);
      EntriesExtend(vs, before, es, n);
      es
  }

  /** Appending the entry of line `n` when it is rejected keeps the entries
      sound and ordered. */
  lemma EntriesExtend(vs: seq<Result<Template, LineError>>, before: seq<ErrorEntry>, es: seq<ErrorEntry>, n: nat)
    requires 1 <= n <= |vs|
    requires Reports(vs, before, n - 1)
    requires vs[n - 1].Failure? ==> es == before + [ErrorEntry(n, vs[n - 1].error)]
    requires vs[n - 1].Success? ==> es == before
    ensures Reports(vs, es, n)
  {
    forall k | 0 <= k < |es|
      ensures && 1 <= es[k].lineNumber <= n
              && vs[es[k].lineNumber - 1] == Failure(es[k].error)
    {
      if k < |before| {
        assert es[k] == before[k];
      }
    }
  }

  /** A rejected line adds exactly one error and no records; an accepted line
      adds no error, keeps every earlier record and adds the records of all
      its index values. */
  lemma LineEffect(vs: seq<Result<Template, LineError>>, n: nat)
    requires 1 <= n <= |vs|
    requires forall j :: 0 <= j < |vs| ==> Usable(vs[j])
    ensures var before := Process(vs, n - 1);
            var after := Process(vs, n);
            match vs[n - 1]
            case Failure(e) =>
              after.results == before.results && after.errors == before.errors + [ErrorEntry(n, e)]
            case Success(t) =>
              && after.errors == before.errors && before.results <= after.results
              && forall i :: 0 <= i < Pow10(Sum(t.lengths)) && RecordAt(t.cardPattern, t.mm, t.yyyy, t.lengths, i).Some? ==>
                   RecordAt(t.cardPattern, t.mm, t.yyyy, t.lengths, i).value in after.results
  {
  }

  /** A batch of rejected lines produces no records. */
  lemma {:induction false} AllRejectedNoRecords(vs: seq<Result<Template, LineError>>, n: nat)
    requires n <= |vs|
    requires forall j :: 0 <= j < |vs| ==> Usable(vs[j])
    requires forall j :: 0 <= j < n ==> vs[j].Failure?
    ensures Process(vs, n).results == {}
    ensures |Process(vs, n).errors| == n
  {
    if n > 0 {
      AllRejectedNoRecords(vs, n - 1);
    }
  }

  /** The error list of a whole text, stated on its lines. */
  lemma LinesReported(lines: seq<string>)
    requires forall j :: 0 <= j < |lines| ==> Capped(lines[j])
    ensures ReportsLines(lines, ProcessLines(lines).errors)
  {
    var vs := Verdicts(lines);
    ErrorsOfLines(lines);
    ReportsOnLines(lines, vs, ErrorList(vs, |lines|));
  }

  /** Sound error entries for a text's lines: each names one of the lines
      and the reason that line's parse fails, in strictly increasing line
      order. */
  predicate ReportsLines(lines: seq<string>, es: seq<ErrorEntry>)
  {
    && (forall k :: 0 <= k < |es| ==>
          && 1 <= es[k].lineNumber <= |lines|
          && ParseTemplateLine(lines[es[k].lineNumber - 1]) == Failure(es[k].error))
    && (forall a, c :: 0 <= a < c < |es| ==> es[a].lineNumber < es[c].lineNumber)
  }

  lemma ErrorsOfLines(lines: seq<string>)
    requires forall j :: 0 <= j < |lines| ==> Capped(lines[j])
    ensures ProcessLines(lines).errors == ErrorList(Verdicts(lines), |lines|)
  {
  }

  /** Sound entries for the verdicts are sound entries for the lines. */
  lemma ReportsOnLines(lines: seq<string>, vs: seq<Result<Template, LineError>>, es: seq<ErrorEntry>)
    requires |vs| == |lines|
    requires forall j :: 0 <= j < |lines| ==> vs[j] == ParseTemplateLine(lines[j])
    requires Reports(vs, es, |lines|)
    ensures ReportsLines(lines, es)
  {
  }

  // ---------------------------------------------------------------------
  // The Luhn post-filter
  // ---------------------------------------------------------------------

  /** The filter's condition: a non-empty first field that passes
      `IsLuhnValid`. The emptiness check is redundant, since `IsLuhnValid`
      already rejects the empty string. */
  function Keeps(line: string): (b: bool)
    ensures b <==> IsLuhnValid(FirstField(line))
    ensures b ==> |FirstField(line)| >= 2
  {
    var num := FirstField(line);
    num != [] && IsLuhnValid(num)
  }

  /** The records kept, in their original order. */
  function Kept(xs: seq<string>): (r: seq<string>)
    ensures |r| <= |xs|
    ensures forall i :: 0 <= i < |r| ==> Keeps(r[i])
  {
    if xs == [] then []
    else Kept(xs[..|xs| - 1]) + (if Keeps(xs[|xs| - 1]) then [xs[|xs| - 1]] else [])
  }

  /** A record is kept exactly when it is one of the records and passes. */
  lemma {:induction false} KeptMembers(xs: seq<string>)
    ensures forall x :: x in Kept(xs) <==> x in xs && Keeps(x)
  {
    if xs != [] {
      var init := xs[..|xs| - 1];
      KeptMembers(init);
      assert xs == init + [xs[|xs| - 1]];
    }
  }

  /** The post-filter loop: keeps the passing records in order and counts the
      others. */
  method LuhnFilter(finalResults: seq<string>) returns (validResults: seq<string>, invalidCount: nat)
    ensures validResults == Kept(finalResults)
    ensures |validResults| + invalidCount == |finalResults|
    ensures (forall i :: 0 <= i < |finalResults| ==> Keeps(finalResults[i])) ==>
              validResults == finalResults && invalidCount == 0
  {
    validResults := [];
    invalidCount := 0;
    var i := 0;
    while i < |finalResults|
      invariant 0 <= i <= |finalResults|
      invariant validResults == Kept(finalResults[..i])
      invariant |validResults| + invalidCount == i
    {
      var line := finalResults[i];
      KeptStep(finalResults, i);
      if Keeps(line) {
        validResults := validResults + [line];
      } else {
        invalidCount := invalidCount + 1;
      }
      i := i + 1;
    }
    assert finalResults[..i] == finalResults;
    if forall k :: 0 <= k < |finalResults| ==> Keeps(finalResults[k]) {
      KeptAll(finalResults);
    }
  }

  /** `Kept` over one more record. */
  lemma KeptStep(xs: seq<string>, i: nat)
    requires i < |xs|
    ensures Kept(xs[..i + 1]) == Kept(xs[..i]) + (if Keeps(xs[i]) then [xs[i]] else [])
  {
    assert xs[..i + 1][..i] == xs[..i];
  }

  /** When every record passes, all are kept. */
  lemma {:induction false} KeptAll(xs: seq<string>)
    requires forall k :: 0 <= k < |xs| ==> Keeps(xs[k])
    ensures Kept(xs) == xs
  {
    if xs != [] {
      var n := |xs| - 1;
      KeptAll(xs[..n]);
      assert Keeps(xs[n]);
      assert xs == xs[..n] + [xs[n]];
    }
  }

  // ---------------------------------------------------------------------
  // The whole batch
  // ---------------------------------------------------------------------

  /** `text.Split(new[] { '\r', '\n' }, StringSplitOptions.RemoveEmptyEntries)`:
      non-empty lines free of line breaks which, written one after another,
      give back the text without its line breaks. */
  function Lines(text: string): (lines: seq<string>)
    ensures forall i :: 0 <= i < |lines| ==> lines[i] != [] && Free(lines[i], {'\r', '\n'})
    ensures Concat(lines) == Without(Without(text, '\r'), '\n')
  {
    var parts := Split(text, {'\r', '\n'});
    ConcatNonEmpty(parts);
    SplitLinesConcat(text);
    NonEmpty(parts)
  }

  function NonEmpty(parts: seq<string>): (r: seq<string>)
    ensures |r| <= |parts|
    ensures forall i :: 0 <= i < |r| ==> r[i] != [] && r[i] in parts
  {
    if parts == [] then []
    else (if parts[0] == [] then [] else [parts[0]]) + NonEmpty(parts[1..])
  }

  /** Dropping the empty pieces does not change what they spell. */
  lemma {:induction false} ConcatNonEmpty(parts: seq<string>)
    ensures Concat(NonEmpty(parts)) == Concat(parts)
  {
    if parts != [] {
      ConcatNonEmpty(parts[1..]);
      if parts[0] == [] {
        assert NonEmpty(parts) == NonEmpty(parts[1..]);
      } else {
        ConcatCons(parts[0], NonEmpty(parts[1..]));
      }
    }
  }

  /** The pieces between line breaks, written one after another, are the
      text without its line breaks. */
  lemma {:induction false} SplitLinesConcat(s: string)
    ensures Concat(Split(s, {'\r', '\n'})) == Without(Without(s, '\r'), '\n')
  {
    if s != [] {
      var tail := Split(s[1..], {'\r', '\n'});
      SplitLinesConcat(s[1..]);
      var h := if s[0] == '\r' then "" else [s[0]];
      assert Without(s, '\r') == h + Without(s[1..], '\r');
      WithoutAppend(h, Without(s[1..], '\r'), '\n');
      if s[0] in {'\r', '\n'} {
        ConcatCons("", tail);
        assert Without(h, '\n') == "" by {
          if h != "" { assert h[1..] == ""; }
        }
      } else {
        assert tail == [tail[0]] + tail[1..];
        ConcatCons([s[0]] + tail[0], tail[1..]);
        ConcatCons(tail[0], tail[1..]);
        Associative([s[0]], tail[0], Concat(tail[1..]));
        assert Without(h, '\n') == [s[0]] by {
          assert h[1..] == "";
        }
      }
    }
  }

  /** A line break ends the line before it, if that line is non-empty, and
      the rest of the text is split on its own. */
  lemma LinesAtBreak(a: string, c: char, b: string)
    requires c in {'\r', '\n'} && Free(a, {'\r', '\n'})
    ensures Lines(a + [c] + b) == (if a == [] then [] else [a]) + Lines(b)
  {
    var parts := Split(b, {'\r', '\n'});
    SplitPrefix(a, c, b, {'\r', '\n'});
    assert ([a] + parts)[1..] == parts;
  }

  /** Text without line breaks is one line, or none when it is empty. */
  lemma LinesWhole(a: string)
    requires Free(a, {'\r', '\n'})
    ensures Lines(a) == (if a == [] then [] else [a])
  {
    SplitFree(a, {'\r', '\n'});
    assert [a][1..] == [];
  }

  /** `new List<string>(set)`: the set's members, each once, in an order the
      set chooses. */
  method SetToList(s: set<string>) returns (xs: seq<string>)
    ensures |xs| == |s|
    ensures forall x :: x in xs <==> x in s
    ensures forall i, j :: 0 <= i < j < |xs| ==> xs[i] != xs[j]
  {
    xs := [];
    var rest := s;
    while rest != {}
      invariant rest <= s
      invariant |xs| + |rest| == |s|
      invariant forall x :: x in xs ==> x in s && x !in rest
      invariant forall x :: x in s ==> x in xs || x in rest
      invariant forall i, j :: 0 <= i < j < |xs| ==> xs[i] != xs[j]
      decreases |rest|
    {
      var x :| x in rest;
      xs := xs + [x];
      rest := rest - {x};
    }
  }

  /** The draws of `rng.Next(n + 1)` as the pass with counter `n` sees them:
      the caller's numbers, reduced into range. */
  function Draws(len: nat, pick: nat -> nat): (draws: seq<nat>)
    ensures ValidDraws(len, draws)
  {
    var n := if len == 0 then 0 else len - 1;
    seq(n, j requires 0 <= j < n => pick(j) % (len - j))
  }

  /** `GenerateBulkProcess` without its progress bar, files and message box:
      returns the records written out, the Luhn rejects, and the error
      entries. */
  method GenerateBulkProcess(patternsText: string, pick: nat -> nat)
    returns (validResults: seq<string>, invalidCount: nat, errorDetails: seq<ErrorEntry>)
    requires forall j :: 0 <= j < |Lines(patternsText)| ==> Capped(Lines(patternsText)[j])
    ensures var b := ProcessLines(Lines(patternsText));
            && errorDetails == b.errors
            && |validResults| == |b.results|
            && (forall s :: s in validResults <==> s in b.results)
    ensures invalidCount == 0
    ensures forall i :: 0 <= i < |validResults| ==> IsLuhnValid(FirstField(validResults[i]))
  {
    var lines := Lines(patternsText);
    var b := ProcessLines(lines);
    var finalResults := SetToList(b.results);
    var shuffled := ShuffleList(finalResults, Draws(|finalResults|, pick));
    ShuffledAllKept(b.results, finalResults, shuffled);
    validResults, invalidCount := LuhnFilter(shuffled);
    errorDetails := b.errors;
  }

  /** Every listed and shuffled record of a Luhn-valid set passes the filter,
      and the shuffled list holds exactly the set's members. */
  lemma ShuffledAllKept(results: set<string>, listed: seq<string>, shuffled: seq<string>)
    requires forall s :: s in results ==> IsLuhnValid(FirstField(s))
    requires forall x :: x in listed <==> x in results
    requires multiset(shuffled) == multiset(listed)
    ensures forall i :: 0 <= i < |shuffled| ==> Keeps(shuffled[i])
    ensures forall s :: s in shuffled <==> s in results
  {
    forall s
      ensures s in shuffled <==> s in listed
    {
      assert s in shuffled <==> s in multiset(shuffled);
      assert s in listed <==> s in multiset(listed);
    }
    forall i | 0 <= i < |shuffled|
      ensures Keeps(shuffled[i])
    {
      assert shuffled[i] in shuffled;
    }
  }
}

=== FILE: expansion.dfy ===
/** The wildcard expander: the scan for runs of `x` placeholders, the
    substitution of one zero-padded number per run, the card length rule and
    `GenerateForPattern`, which adds every resulting record to a set. */
module Expansion {
  import opened Outcomes
  import opened Text
  import opened Luhn

  // ---------------------------------------------------------------------
  // Placeholder runs
  // ---------------------------------------------------------------------

  /** A placeholder: a character that is `x` once the pattern is lower-cased. */
  predicate IsX(c: char) { c == 'x' || c == 'X' }

  /** No placeholder left in `s`. */
  predicate NoX(s: string) { forall k :: 0 <= k < |s| ==> !IsX(s[k]) }

  function CountX(s: string): nat
  {
    if s == [] then 0 else (if IsX(s[0]) then 1 else 0) + CountX(s[1..])
  }

  /** Length of the run of placeholders that `s` starts with. */
  function XPrefixLen(s: string): (n: nat)
    ensures n <= |s|
    ensures forall i :: 0 <= i < n ==> IsX(s[i])
    ensures n < |s| ==> !IsX(s[n])
  {
    if s != [] && IsX(s[0]) then 1 + XPrefixLen(s[1..]) else 0
  }

  function Sum(xs: seq<nat>): nat
  {
    if xs == [] then 0 else xs[0] + Sum(xs[1..])
  }

  /** The number of index values: the product of `10^len` over all runs. */
  function Total(lengths: seq<nat>): (t: nat)
    ensures t == Pow10(Sum(lengths))
  {
    if lengths == [] then 1
    else
      Pow10Add(lengths[0], Sum(lengths[1..]));
      Pow10(lengths[0]) * Total(lengths[1..])
  }

  lemma {:induction false} Pow10Add(a: nat, b: nat)
    ensures Pow10(a + b) == Pow10(a) * Pow10(b)
  {
    if a > 0 {
      Pow10Add(a - 1, b);
    }
  }

  /** The lengths of the maximal placeholder runs of `s`, left to right. */
  function XRuns(s: string): (runs: seq<nat>)
    ensures forall j :: 0 <= j < |runs| ==> runs[j] >= 1
  {
    if s == [] then []
    else if IsX(s[0]) then
      var n := XPrefixLen(s);
      [n] + XRuns(s[n..])
    else XRuns(s[1..])
  }

  /** The runs account for every placeholder of the string. */
  lemma {:induction false} RunsCountPlaceholders(s: string)
    ensures Sum(XRuns(s)) == CountX(s)
    decreases |s|
  {
    if s != [] {
      if IsX(s[0]) {
        var n := XPrefixLen(s);
        CountXSplit(s, n);
        RunsCountPlaceholders(s[n..]);
        XRunsHead(s);
        assert Sum(XRuns(s)) == n + Sum(XRuns(s[n..]));
      } else {
        RunsCountPlaceholders(s[1..]);
        XRunsSkip(s);
      }
    }
  }

  lemma {:induction false} CountXSplit(s: string, n: nat)
    requires n <= |s|
    requires forall i :: 0 <= i < n ==> IsX(s[i])
    ensures CountX(s) == n + CountX(s[n..])
  {
    if n > 0 {
      CountXSplit(s[1..], n - 1);
      assert s[1..][n - 1..] == s[n..];
    }
  }

  /** The placeholder scan of the template parser, as written: an outer walk
      over the lower-cased pattern and an inner count of each run of `x`. */
  method ScanPlaceholders(cardPattern: string) returns (placeholderLengths: seq<nat>)
    ensures placeholderLengths == XRuns(cardPattern)
  {
    placeholderLengths := [];
    var idx := 0;
    while idx < |cardPattern|
      invariant 0 <= idx <= |cardPattern|
      invariant placeholderLengths + XRuns(cardPattern[idx..]) == XRuns(cardPattern)
    {
      if IsX(cardPattern[idx]) {
        var start := idx;
        var xCount;
        idx, xCount := CountRun(cardPattern, idx);
        XRunsAtRun(cardPattern, start, idx);
        placeholderLengths := placeholderLengths + [xCount];
      } else {
        XRunsAtOther(cardPattern, idx);
        idx := idx + 1;
      }
    }
  }

  /** The inner loop of the scan: counts the placeholders from `start` on. */
  method CountRun(s: string, start: nat) returns (idx: nat, xCount: nat)
    requires start < |s| && IsX(s[start])
    ensures start < idx <= |s| && xCount == idx - start
    ensures XPrefixLen(s[start..]) == xCount
  {
    idx := start;
    xCount := 0;
    while idx < |s| && IsX(s[idx])
      invariant start <= idx <= |s|
      invariant xCount == idx - start
      invariant XPrefixLen(s[start..]) == xCount + XPrefixLen(s[idx..])
    {
      XPrefixStep(s, idx);
      xCount := xCount + 1;
      idx := idx + 1;
    }
  }

  lemma XPrefixStep(s: string, i: nat)
    requires i < |s| && IsX(s[i])
    ensures XPrefixLen(s[i..]) == 1 + XPrefixLen(s[i + 1..])
  {
    assert s[i..][1..] == s[i + 1..];
  }

  lemma XRunsAtRun(s: string, start: nat, end: nat)
    requires start < end <= |s|
    requires XPrefixLen(s[start..]) == end - start
    ensures XRuns(s[start..]) == [end - start] + XRuns(s[end..])
  {
    assert s[start..][end - start..] == s[end..];
  }

  lemma XRunsAtOther(s: string, i: nat)
    requires i < |s| && !IsX(s[i])
    ensures XRuns(s[i..]) == XRuns(s[i + 1..])
  {
    assert s[i..][1..] == s[i + 1..];
  }

  /** Where run `p` of `s` starts. */
  function RunStart(s: string, p: nat): (st: nat)
    requires p < |XRuns(s)|
    ensures st + XRuns(s)[p] <= |s|
  {
    if IsX(s[0]) then
      var n := XPrefixLen(s);
      XRunsHead(s);
      if p == 0 then 0
      else n + RunStart(s[n..], p - 1)
    else
      XRunsSkip(s);
      1 + RunStart(s[1..], p)
  }

  /** Unfolding `XRuns` at a leading run. */
  lemma XRunsHead(s: string)
    requires s != [] && IsX(s[0])
    ensures XRuns(s) == [XPrefixLen(s)] + XRuns(s[XPrefixLen(s)..])
  {
  }

  /** Unfolding `XRuns` at a leading non-placeholder. */
  lemma XRunsSkip(s: string)
    requires s != [] && !IsX(s[0])
    ensures XRuns(s) == XRuns(s[1..])
  {
  }

  /** Run `p` is a maximal run of placeholders: it is bounded by
      non-placeholders or by the ends of the string. */
  lemma {:induction false} RunStartIsRun(s: string, p: nat)
    requires p < |XRuns(s)|
    ensures MaximalRun(s, RunStart(s, p), XRuns(s)[p])
    decreases |s|, 2
  {
    if !IsX(s[0]) {
      RunStartIsRunAfterOther(s, p);
    } else if p == 0 {
      XRunsHead(s);
    } else {
      RunStartIsRunAfterRun(s, p);
    }
  }

  /** `RunStartIsRun` for a later run of a string that opens with a run. */
  lemma {:induction false} RunStartIsRunAfterRun(s: string, p: nat)
    requires 1 <= p < |XRuns(s)| && s != [] && IsX(s[0])
    ensures MaximalRun(s, RunStart(s, p), XRuns(s)[p])
    decreases |s|, 1
  {
    var n := XPrefixLen(s);
    var t := s[n..];
    RunStartAtRun(s, p);
    var j, len := RunStart(t, p - 1), XRuns(t)[p - 1];
    RunStartIsRun(t, p - 1);
    RunNotAtStart(t, j, len);
    ShiftRun(s, n, j, len);
  }

  /** A non-empty maximal run of a string that opens with a kept character
      does not start at 0. */
  lemma RunNotAtStart(t: string, j: nat, len: nat)
    requires MaximalRun(t, j, len) && len >= 1
    requires t != [] ==> !IsX(t[0])
    ensures j > 0
  {
    assert IsX(t[j]);
  }

  /** `RunStartIsRun` for a string that opens with a kept character. */
  lemma {:induction false} RunStartIsRunAfterOther(s: string, p: nat)
    requires p < |XRuns(s)| && s != [] && !IsX(s[0])
    ensures MaximalRun(s, RunStart(s, p), XRuns(s)[p])
    decreases |s|, 1
  {
    RunStartAtOther(s, p);
    RunStartIsRun(s[1..], p);
    ShiftRun(s, 1, RunStart(s[1..], p), XRuns(s[1..])[p]);
    XRunsSkip(s);
  }

  /** A run of exactly `len` placeholders starts at `j`: it cannot be
      extended to the left or to the right. */
  predicate MaximalRun(s: string, j: nat, len: nat)
  {
    && RunAt(s, j, len)
    && (j == 0 || !IsX(s[j - 1]))
    && (j + len == |s| || !IsX(s[j + len]))
  }

  /** A maximal run of `s[d..]` is a maximal run of `s` when it does not
      start at `d`, or `s[d - 1]` is no placeholder. */
  lemma ShiftRun(s: string, d: nat, j: nat, len: nat)
    requires d <= |s|
    requires MaximalRun(s[d..], j, len)
    requires j == 0 && d > 0 ==> !IsX(s[d - 1])
    ensures MaximalRun(s, d + j, len)
  {
    var t := s[d..];
    forall k | d + j <= k < d + j + len ensures IsX(s[k]) {
      assert s[k] == t[k - d];
    }
    if j > 0 {
      assert s[d + j - 1] == t[j - 1];
    }
    if d + j + len < |s| {
      assert s[d + j + len] == t[j + len];
    }
  }

  /** Runs come left to right and do not touch. */
  lemma {:induction false} RunsOrdered(s: string, p: nat)
    requires p + 1 < |XRuns(s)|
    ensures RunStart(s, p) + XRuns(s)[p] < RunStart(s, p + 1)
  {
    if IsX(s[0]) {
      var n := XPrefixLen(s);
      XRunsHead(s);
      if p > 0 {
        RunsOrdered(s[n..], p - 1);
      } else {
        SecondRunApart(s);
      }
    } else {
      XRunsSkip(s);
      RunsOrdered(s[1..], p);
    }
  }

  /** After a leading run, the next run does not start right away. */
  lemma SecondRunApart(s: string)
    requires s != [] && IsX(s[0])
    requires 0 < |XRuns(s[XPrefixLen(s)..])|
    ensures RunStart(s[XPrefixLen(s)..], 0) > 0
  {
    var n := XPrefixLen(s);
    var rest := s[n..];
    RunStartIsRun(rest, 0);
    var st := RunStart(rest, 0);
    assert IsX(rest[st]);
    assert rest[0] == s[n];
  }



  // ---------------------------------------------------------------------
  // Substitution, as `GenerateForPattern` performs it
  // ---------------------------------------------------------------------

  /** A run of at least `len` placeholders starts at `j`. */
  predicate RunAt(s: string, j: nat, len: nat)
  {
    j + len <= |s| && forall k :: j <= k < j + len ==> IsX(s[k])
  }

  /** `s.ToLower().IndexOf(new string('x', len))`: the first position of
      `len` consecutive placeholders, or -1. */
  function IndexOfRun(s: string, len: nat): (j: int)
    ensures j == -1 || (0 <= j && RunAt(s, j, len))
    ensures forall k: nat :: k < j ==> !RunAt(s, k, len)
    ensures j == -1 ==> forall k: nat :: !RunAt(s, k, len)
  {
    IndexOfRunFrom(s, len, 0)
  }

  function IndexOfRunFrom(s: string, len: nat, from: nat): (j: int)
    requires from <= |s| + 1
    ensures j == -1 || (from <= j && RunAt(s, j, len))
    ensures forall k: nat :: from <= k < j ==> !RunAt(s, k, len)
    ensures j == -1 ==> forall k: nat :: from <= k ==> !RunAt(s, k, len)
    decreases |s| + 1 - from
  {
    if from + len > |s| then -1
    else if RunAt(s, from, len) then from
    else IndexOfRunFrom(s, len, from + 1)
  }

  /** `value.ToString(new string('0', len))`: `len` digits, zero-padded; an
      empty format string falls back to the general format, which prints the
      value (always 0 here) as one digit. */
  function FormatValue(value: nat, len: nat): (r: string)
    requires value < Pow10(len)
    ensures |r| == if len == 0 then 1 else len
    ensures AllDigits(r)
    ensures DecimalValue(r) == value
  {
    if len == 0 then assert "0"[..0] == ""; "0" else ZeroPadded(value, len)
  }

  /** The inner loop of `GenerateForPattern`: for each length in turn, peel
      the next group off `remaining` (`remaining % 10^len`, then
      `remaining /= 10^len`, written with `LowDigits` and `ShiftDown`) and
      write it, zero-padded, over the first run of `len` placeholders still
      in `current`. */
  function Substitute(current: string, lengths: seq<nat>, remaining: nat): (r: string)
    ensures (forall j :: 0 <= j < |lengths| ==> lengths[j] >= 1) ==> |r| == |current|
    decreases |lengths|
  {
    if lengths == [] then current
    else
      var len := lengths[0];
      Substitute(WriteGroup(current, len, LowDigits(remaining, len)), lengths[1..], ShiftDown(remaining, len))
  }

  /** One pass of the inner loop: `digitValue`, formatted to `len` digits,
      replaces the first run of `len` placeholders, if there is one. */
  function WriteGroup(current: string, len: nat, digitValue: nat): (r: string)
    requires digitValue < Pow10(len)
    ensures len >= 1 ==> |r| == |current|
    ensures IndexOfRun(current, len) == -1 ==> r == current
    ensures len >= 1 && IndexOfRun(current, len) >= 0 ==>
              var x := IndexOfRun(current, len);
              && r[..x] == current[..x] && r[x + len..] == current[x + len..]
              && AllDigits(r[x..x + len]) && DecimalValue(r[x..x + len]) == digitValue
  {
    var xIndex := IndexOfRun(current, len);
    if xIndex >= 0 then current[..xIndex] + FormatValue(digitValue, len) + current[xIndex + len..]
    else current
  }

  /** The arithmetic of one step of `GenerateForPattern`'s inner loop: the group is
      `remaining % 10^len` and what is left is `remaining / 10^len`. */
  lemma SubstituteArithmetic(remaining: nat, len: nat)
    ensures LowDigits(remaining, len) == remaining % Pow10(len)
    ensures ShiftDown(remaining, len) == remaining / Pow10(len)
  {
    LowDigitsIsMod(remaining, len);
    ShiftDownIsDiv(remaining, len);
  }

  // ---------------------------------------------------------------------
  // The run-wise decomposition, and its agreement with `IndexOf` substitution
  // ---------------------------------------------------------------------

  /** The digit blocks an index value is cut into: one per length, the
      lowest group first, each zero-padded to its length. */
  function Blocks(remaining: nat, lengths: seq<nat>): (bs: seq<string>)
    ensures |bs| == |lengths|
    ensures forall k :: 0 <= k < |lengths| ==> |bs[k]| == lengths[k] && AllDigits(bs[k])
    decreases |lengths|
  {
    if lengths == [] then []
    else
      var len := lengths[0];
      [ZeroPadded(LowDigits(remaining, len), len)] + Blocks(ShiftDown(remaining, len), lengths[1..])
  }

  /** Block `p` is `remaining` shifted down past the earlier groups and cut
      to `lengths[p]` digits. */
  lemma {:induction false} BlockShift(remaining: nat, lengths: seq<nat>, p: nat)
    requires p < |lengths|
    ensures Blocks(remaining, lengths)[p]
         == ZeroPadded(LowDigits(ShiftDown(remaining, Sum(lengths[..p])), lengths[p]), lengths[p])
    decreases p
  {
    if p > 0 {
      var len := lengths[0];
      var rest := lengths[1..];
      var q := ShiftDown(remaining, len);
      var later := Sum(rest[..p - 1]);
      var h := ShiftDown(q, later);
      assert Blocks(remaining, lengths)[p] == Blocks(q, rest)[p - 1] by {
        BlocksTail(remaining, lengths, p);
      }
      assert Blocks(q, rest)[p - 1] == ZeroPadded(LowDigits(h, rest[p - 1]), rest[p - 1]) by {
        BlockShift(q, rest, p - 1);
      }
      assert h == ShiftDown(remaining, Sum(lengths[..p])) by {
        SumPrefix(lengths, p);
        ShiftDownAdd(remaining, len, later);
      }
      assert rest[p - 1] == lengths[p];
    }
  }

  /** Past the first block come the blocks of the shifted value. */
  lemma BlocksTail(remaining: nat, lengths: seq<nat>, p: nat)
    requires 0 < p < |lengths|
    ensures Blocks(remaining, lengths)[p] == Blocks(ShiftDown(remaining, lengths[0]), lengths[1..])[p - 1]
  {
  }

  /** The sum of a non-empty prefix is its head plus the rest. */
  lemma SumPrefix(lengths: seq<nat>, p: nat)
    requires 0 < p <= |lengths|
    ensures Sum(lengths[..p]) == lengths[0] + Sum(lengths[1..][..p - 1])
  {
    assert lengths[..p][1..] == lengths[1..][..p - 1];
  }

  /** Block `p` of index value `i` is `(i / prod_{q<p} 10^len_q) % 10^len_p`,
      zero-padded: the decomposition of `i` into mixed-radix digits. */
  lemma BlockValue(remaining: nat, lengths: seq<nat>, p: nat)
    requires p < |lengths|
    ensures Blocks(remaining, lengths)[p]
         == ZeroPadded((remaining / Total(lengths[..p])) % Pow10(lengths[p]), lengths[p])
  {
    BlockShift(remaining, lengths, p);
    var h := ShiftDown(remaining, Sum(lengths[..p]));
    ShiftDownIsDiv(remaining, Sum(lengths[..p]));
    LowDigitsIsMod(h, lengths[p]);
  }

  /** Every block has its run's length. */
  predicate Fits(pattern: string, blocks: seq<string>)
  {
    var runs := XRuns(pattern);
    |blocks| == |runs| && forall k :: 0 <= k < |runs| ==> |blocks[k]| == runs[k]
  }

  /** Reference definition: the `k`-th run of placeholders of `pattern` is
      replaced by `blocks[k]` and every other character is kept. */
  function Fill(pattern: string, blocks: seq<string>): (r: string)
    requires |blocks| == |XRuns(pattern)|
    decreases |pattern|
  {
    if pattern == [] then ""
    else if IsX(pattern[0]) then
      XRunsHead(pattern);
      blocks[0] + Fill(pattern[XPrefixLen(pattern)..], blocks[1..])
    else
      XRunsSkip(pattern);
      [pattern[0]] + Fill(pattern[1..], blocks)
  }

  /** Filled with blocks of the right lengths, the pattern keeps its length,
      its other characters, and gets a digit for every placeholder when the
      blocks are digits. */
  lemma {:induction false} FillShape(pattern: string, blocks: seq<string>)
    requires Fits(pattern, blocks)
    ensures |Fill(pattern, blocks)| == |pattern|
    ensures forall k :: 0 <= k < |pattern| && !IsX(pattern[k]) ==> Fill(pattern, blocks)[k] == pattern[k]
    ensures (forall q :: 0 <= q < |blocks| ==> AllDigits(blocks[q])) ==>
              forall k :: 0 <= k < |pattern| && IsX(pattern[k]) ==> IsDigit(Fill(pattern, blocks)[k])
    decreases |pattern|, 1
  {
    if pattern != [] {
      if IsX(pattern[0]) {
        FillShapeAfterRun(pattern, blocks);
      } else {
        FillShapeAfterOther(pattern, blocks);
      }
    }
  }

  lemma {:induction false} FillShapeAfterRun(pattern: string, blocks: seq<string>)
    requires Fits(pattern, blocks) && pattern != [] && IsX(pattern[0])
    ensures |Fill(pattern, blocks)| == |pattern|
    ensures forall k :: 0 <= k < |pattern| && !IsX(pattern[k]) ==> Fill(pattern, blocks)[k] == pattern[k]
    ensures (forall q :: 0 <= q < |blocks| ==> AllDigits(blocks[q])) ==>
              forall k :: 0 <= k < |pattern| && IsX(pattern[k]) ==> IsDigit(Fill(pattern, blocks)[k])
    decreases |pattern|, 0
  {
    var n := XPrefixLen(pattern);
    FitsTail(pattern, blocks);
    FillAtRun(pattern, blocks);
    FillShape(pattern[n..], blocks[1..]);
    ShapeAfterRun(pattern, blocks[0], blocks[1..], Fill(pattern, blocks), Fill(pattern[n..], blocks[1..]), n);
  }

  /** The shape facts carry over a leading run filled by `z`. */
  lemma ShapeAfterRun(pattern: string, z: string, later: seq<string>, f: string, rest: string, n: nat)
    requires n <= |pattern| && |z| == n && f == z + rest
    requires forall k :: 0 <= k < n ==> IsX(pattern[k])
    requires |rest| == |pattern[n..]|
    requires forall k :: 0 <= k < |pattern[n..]| && !IsX(pattern[n..][k]) ==> rest[k] == pattern[n..][k]
    requires (forall q :: 0 <= q < |later| ==> AllDigits(later[q])) ==>
               forall k :: 0 <= k < |pattern[n..]| && IsX(pattern[n..][k]) ==> IsDigit(rest[k])
    ensures |f| == |pattern|
    ensures forall k :: 0 <= k < |pattern| && !IsX(pattern[k]) ==> f[k] == pattern[k]
    ensures (forall q :: 0 <= q < |[z] + later| ==> AllDigits(([z] + later)[q])) ==>
              forall k :: 0 <= k < |pattern| && IsX(pattern[k]) ==> IsDigit(f[k])
  {
    forall k | n <= k < |pattern|
      ensures f[k] == rest[k - n] && pattern[k] == pattern[n..][k - n]
    {
    }
    if forall q :: 0 <= q < |[z] + later| ==> AllDigits(([z] + later)[q]) {
      assert AllDigits(([z] + later)[0]);
      forall q | 0 <= q < |later| ensures AllDigits(later[q]) {
        assert later[q] == ([z] + later)[q + 1];
      }
      forall k | 0 <= k < n
        ensures IsDigit(f[k])
      {
        assert f[k] == z[k];
      }
    }
  }

  lemma {:induction false} FillShapeAfterOther(pattern: string, blocks: seq<string>)
    requires Fits(pattern, blocks) && pattern != [] && !IsX(pattern[0])
    ensures |Fill(pattern, blocks)| == |pattern|
    ensures forall k :: 0 <= k < |pattern| && !IsX(pattern[k]) ==> Fill(pattern, blocks)[k] == pattern[k]
    ensures (forall q :: 0 <= q < |blocks| ==> AllDigits(blocks[q])) ==>
              forall k :: 0 <= k < |pattern| && IsX(pattern[k]) ==> IsDigit(Fill(pattern, blocks)[k])
    decreases |pattern|, 0
  {
    FillAtOther(pattern, blocks);
    FillShape(pattern[1..], blocks);
    ShapeAfterOther(pattern, Fill(pattern, blocks), Fill(pattern[1..], blocks), blocks);
  }

  /** The shape facts carry over a leading kept character. */
  lemma ShapeAfterOther(pattern: string, f: string, rest: string, blocks: seq<string>)
    requires pattern != [] && !IsX(pattern[0]) && f == [pattern[0]] + rest
    requires |rest| == |pattern[1..]|
    requires forall k :: 0 <= k < |pattern[1..]| && !IsX(pattern[1..][k]) ==> rest[k] == pattern[1..][k]
    requires (forall q :: 0 <= q < |blocks| ==> AllDigits(blocks[q])) ==>
               forall k :: 0 <= k < |pattern[1..]| && IsX(pattern[1..][k]) ==> IsDigit(rest[k])
    ensures |f| == |pattern|
    ensures forall k :: 0 <= k < |pattern| && !IsX(pattern[k]) ==> f[k] == pattern[k]
    ensures (forall q :: 0 <= q < |blocks| ==> AllDigits(blocks[q])) ==>
              forall k :: 0 <= k < |pattern| && IsX(pattern[k]) ==> IsDigit(f[k])
  {
    forall k | 1 <= k < |pattern|
      ensures f[k] == rest[k - 1] && pattern[k] == pattern[1..][k - 1]
    {
    }
  }

  /** `Fill` at a leading run. */
  lemma FillAtRun(pattern: string, blocks: seq<string>)
    requires |blocks| == |XRuns(pattern)| && pattern != [] && IsX(pattern[0])
    ensures |blocks| >= 1 && |blocks[1..]| == |XRuns(pattern[XPrefixLen(pattern)..])|
    ensures Fits(pattern, blocks) ==> |blocks[0]| == XPrefixLen(pattern)
    ensures Fill(pattern, blocks) == blocks[0] + Fill(pattern[XPrefixLen(pattern)..], blocks[1..])
  {
    XRunsHead(pattern);
  }

  /** `Fill` at a leading kept character. */
  lemma FillAtOther(pattern: string, blocks: seq<string>)
    requires |blocks| == |XRuns(pattern)| && pattern != [] && !IsX(pattern[0])
    ensures |blocks| == |XRuns(pattern[1..])|
    ensures Fits(pattern, blocks) ==> Fits(pattern[1..], blocks)
    ensures Fill(pattern, blocks) == [pattern[0]] + Fill(pattern[1..], blocks)
  {
    XRunsSkip(pattern);
  }

  /** `RunStart` past a leading run. */
  lemma RunStartAtRun(s: string, p: nat)
    requires 1 <= p < |XRuns(s)| && s != [] && IsX(s[0])
    ensures p - 1 < |XRuns(s[XPrefixLen(s)..])|
    ensures RunStart(s, p) == XPrefixLen(s) + RunStart(s[XPrefixLen(s)..], p - 1)
    ensures XRuns(s)[p] == XRuns(s[XPrefixLen(s)..])[p - 1]
    ensures XPrefixLen(s) < |s| ==> !IsX(s[XPrefixLen(s)..][0])
  {
    XRunsHead(s);
  }

  /** `RunStart` past a leading kept character. */
  lemma RunStartAtOther(s: string, p: nat)
    requires p < |XRuns(s)| && s != [] && !IsX(s[0])
    ensures p < |XRuns(s[1..])|
    ensures RunStart(s, p) == 1 + RunStart(s[1..], p)
  {
    XRunsSkip(s);
  }

  /** Run `p` of the filled pattern is exactly `blocks[p]`. */
  lemma {:induction false} FillRunValue(pattern: string, blocks: seq<string>, p: nat)
    requires Fits(pattern, blocks) && p < |blocks|
    ensures RunStart(pattern, p) + |blocks[p]| <= |Fill(pattern, blocks)|
    ensures Fill(pattern, blocks)[RunStart(pattern, p)..RunStart(pattern, p) + |blocks[p]|] == blocks[p]
    decreases |pattern|, 1
  {
    if IsX(pattern[0]) {
      if p == 0 {
        FillAtRun(pattern, blocks);
        assert RunStart(pattern, 0) == 0;
        SliceAfter(Fill(pattern, blocks), [], Fill(pattern, blocks), 0, |blocks[0]|);
      } else {
        FillRunValueAfterRun(pattern, blocks, p);
      }
    } else {
      FillRunValueAfterOther(pattern, blocks, p);
    }
  }

  lemma {:induction false} FillRunValueAfterRun(pattern: string, blocks: seq<string>, p: nat)
    requires Fits(pattern, blocks) && 1 <= p < |blocks|
    requires pattern != [] && IsX(pattern[0])
    ensures RunStart(pattern, p) + |blocks[p]| <= |Fill(pattern, blocks)|
    ensures Fill(pattern, blocks)[RunStart(pattern, p)..RunStart(pattern, p) + |blocks[p]|] == blocks[p]
    decreases |pattern|, 0
  {
    var n := XPrefixLen(pattern);
    FitsTail(pattern, blocks);
    FillAtRun(pattern, blocks);
    RunStartAtRun(pattern, p);
    FillRunValue(pattern[n..], blocks[1..], p - 1);
    ShiftedSlice(Fill(pattern, blocks), blocks[0], Fill(pattern[n..], blocks[1..]),
                 RunStart(pattern[n..], p - 1), RunStart(pattern, p), blocks[1..][p - 1]);
    assert blocks[1..][p - 1] == blocks[p];
  }

  lemma {:induction false} FillRunValueAfterOther(pattern: string, blocks: seq<string>, p: nat)
    requires Fits(pattern, blocks) && p < |blocks|
    requires pattern != [] && !IsX(pattern[0])
    ensures RunStart(pattern, p) + |blocks[p]| <= |Fill(pattern, blocks)|
    ensures Fill(pattern, blocks)[RunStart(pattern, p)..RunStart(pattern, p) + |blocks[p]|] == blocks[p]
    decreases |pattern|, 0
  {
    FillAtOther(pattern, blocks);
    RunStartAtOther(pattern, p);
    FillRunValue(pattern[1..], blocks, p);
    ShiftedSlice(Fill(pattern, blocks), [pattern[0]], Fill(pattern[1..], blocks),
                 RunStart(pattern[1..], p), RunStart(pattern, p), blocks[p]);
  }

  /** Past the leading run, the remaining blocks fit the remaining runs. */
  lemma FitsTail(pattern: string, blocks: seq<string>)
    requires Fits(pattern, blocks) && pattern != [] && IsX(pattern[0])
    ensures Fits(pattern[XPrefixLen(pattern)..], blocks[1..])
  {
    XRunsHead(pattern);
    var runs := XRuns(pattern[XPrefixLen(pattern)..]);
    forall k | 0 <= k < |runs|
      ensures |blocks[1..][k]| == runs[k]
    {
      assert blocks[1..][k] == blocks[k + 1];
      assert XRuns(pattern)[k + 1] == runs[k];
    }
  }

  /** A slice of the right part of a concatenation, seen from the whole. */
  lemma ShiftedSlice<T>(f: seq<T>, a: seq<T>, b: seq<T>, j: nat, start: nat, v: seq<T>)
    requires f == a + b && start == |a| + j
    requires j + |v| <= |b| && b[j..j + |v|] == v
    ensures start + |v| <= |f| && f[start..start + |v|] == v
  {
    assert f[start..start + |v|] == b[j..j + |v|];
  }

  lemma SliceAfter<T>(f: seq<T>, a: seq<T>, b: seq<T>, j: nat, len: nat)
    requires f == a + b && j + len <= |b|
    ensures f[|a| + j..|a| + j + len] == b[j..j + len]
  {
  }

  /** The expansion of index value `i` over a pattern's own runs. */
  function Expand(pattern: string, remaining: nat): (r: string)
  {
    Fill(pattern, Blocks(remaining, XRuns(pattern)))
  }

  /** When the lengths are the pattern's own runs, `GenerateForPattern`'s `IndexOf`
      substitution writes block `k` over run `k`, left to right: every
      placeholder is replaced by a digit and nothing else changes. */
  lemma SubstitutionFillsRuns(pattern: string, remaining: nat)
    ensures Substitute(pattern, XRuns(pattern), remaining) == Expand(pattern, remaining)
  {
    SubstituteAfter([], pattern, remaining);
    assert [] + pattern == pattern;
  }

  lemma {:induction false} SubstituteAfter(done: string, pattern: string, remaining: nat)
    requires NoX(done)
    ensures Substitute(done + pattern, XRuns(pattern), remaining)
         == done + Fill(pattern, Blocks(remaining, XRuns(pattern)))
    decreases |pattern|, 1
  {
    if pattern == [] {
      assert done + pattern == done;
    } else if IsX(pattern[0]) {
      SubstituteAfterRun(done, pattern, remaining);
    } else {
      SubstituteAfterOther(done, pattern, remaining);
    }
  }

  lemma {:induction false} SubstituteAfterRun(done: string, pattern: string, remaining: nat)
    requires NoX(done) && pattern != [] && IsX(pattern[0])
    ensures Substitute(done + pattern, XRuns(pattern), remaining)
         == done + Fill(pattern, Blocks(remaining, XRuns(pattern)))
    decreases |pattern|, 0
  {
    var n := XPrefixLen(pattern);
    var q := ShiftDown(remaining, n);
    var v := ZeroPadded(LowDigits(remaining, n), n);
    var later := Fill(pattern[n..], Blocks(q, XRuns(pattern[n..])));
    assert Substitute(done + pattern, XRuns(pattern), remaining)
        == Substitute((done + v) + pattern[n..], XRuns(pattern[n..]), q) by {
      SubstituteAtRun(done, pattern, remaining);
    }
    assert Substitute((done + v) + pattern[n..], XRuns(pattern[n..]), q) == (done + v) + later by {
      NoXAppend(done, v);
      SubstituteAfter(done + v, pattern[n..], q);
    }
    assert Fill(pattern, Blocks(remaining, XRuns(pattern))) == v + later by {
      FillBlocksAtRun(pattern, remaining);
    }
    ConcatAssoc(done, v, later);
  }

  lemma {:induction false} SubstituteAfterOther(done: string, pattern: string, remaining: nat)
    requires NoX(done) && pattern != [] && !IsX(pattern[0])
    ensures Substitute(done + pattern, XRuns(pattern), remaining)
         == done + Fill(pattern, Blocks(remaining, XRuns(pattern)))
    decreases |pattern|, 0
  {
    var c := [pattern[0]];
    var later := Fill(pattern[1..], Blocks(remaining, XRuns(pattern[1..])));
    assert done + pattern == (done + c) + pattern[1..] by {
      assert pattern == c + pattern[1..];
      ConcatAssoc(done, c, pattern[1..]);
    }
    assert Substitute((done + c) + pattern[1..], XRuns(pattern[1..]), remaining) == (done + c) + later by {
      NoXAppend(done, c);
      SubstituteAfter(done + c, pattern[1..], remaining);
    }
    assert Fill(pattern, Blocks(remaining, XRuns(pattern))) == c + later by {
      XRunsSkip(pattern);
      FillAtOther(pattern, Blocks(remaining, XRuns(pattern)));
    }
    XRunsSkip(pattern);
    ConcatAssoc(done, c, later);
  }

  lemma NoXAppend(a: string, b: string)
    requires NoX(a) && NoX(b)
    ensures NoX(a + b)
  {
  }

  /** At a leading run, the fill starts with the lowest group. */
  lemma FillBlocksAtRun(pattern: string, remaining: nat)
    requires pattern != [] && IsX(pattern[0])
    ensures var n := XPrefixLen(pattern);
            Fill(pattern, Blocks(remaining, XRuns(pattern)))
              == ZeroPadded(LowDigits(remaining, n), n)
                 + Fill(pattern[n..], Blocks(ShiftDown(remaining, n), XRuns(pattern[n..])))
  {
    var n := XPrefixLen(pattern);
    XRunsHead(pattern);
    var bs := Blocks(remaining, XRuns(pattern));
    assert bs[1..] == Blocks(ShiftDown(remaining, n), XRuns(pattern[n..]));
    FillAtRun(pattern, bs);
  }

  /** One step of `Substitute` at the pattern's first run, past a
      placeholder-free prefix: the run receives the lowest group. */
  lemma SubstituteAtRun(done: string, pattern: string, remaining: nat)
    requires NoX(done) && pattern != [] && IsX(pattern[0])
    ensures var n := XPrefixLen(pattern);
            Substitute(done + pattern, XRuns(pattern), remaining)
              == Substitute(done + ZeroPadded(LowDigits(remaining, n), n) + pattern[n..],
                            XRuns(pattern[n..]), ShiftDown(remaining, n))
  {
    var n := XPrefixLen(pattern);
    XRunsHead(pattern);
    var lengths := XRuns(pattern);
    assert lengths[0] == n && lengths[1..] == XRuns(pattern[n..]);
    WriteFirstRun(done, pattern, LowDigits(remaining, n));
  }

  /** Past a placeholder-free prefix, the group is written over the
      pattern's first run. */
  lemma WriteFirstRun(done: string, pattern: string, v: nat)
    requires NoX(done) && pattern != [] && IsX(pattern[0])
    requires v < Pow10(XPrefixLen(pattern))
    ensures var n := XPrefixLen(pattern);
            WriteGroup(done + pattern, n, v) == done + ZeroPadded(v, n) + pattern[n..]
  {
    var n := XPrefixLen(pattern);
    var s := done + pattern;
    IndexOfFirstRun(done, pattern, n);
    ConcatSlices(done, pattern, n);
  }

  lemma ConcatAssoc<T>(a: seq<T>, b: seq<T>, c: seq<T>)
    ensures (a + b) + c == a + (b + c)
  {
  }

  lemma ConcatSlices<T>(a: seq<T>, b: seq<T>, n: nat)
    requires n <= |b|
    ensures (a + b)[..|a|] == a
    ensures (a + b)[|a| + n..] == b[n..]
  {
  }

  /** Past a placeholder-free prefix, the first run of `n` placeholders is
      found where the pattern's first run starts. */
  lemma IndexOfFirstRun(done: string, pattern: string, n: nat)
    requires NoX(done) && n >= 1
    requires RunAt(pattern, 0, n)
    ensures IndexOfRun(done + pattern, n) == |done|
  {
    var s := done + pattern;
    assert RunAt(s, |done|, n) by {
      forall k | |done| <= k < |done| + n ensures IsX(s[k]) {
        assert s[k] == pattern[k - |done|];
      }
    }
    forall k: nat | k < |done| ensures !RunAt(s, k, n) {
      assert s[k] == done[k];
    }
  }

  // ---------------------------------------------------------------------
  // Length rule and records
  // ---------------------------------------------------------------------

  /** Card length by prefix: 14 for `30`, `36`, `38`; 15 for any other `3`; else 16. */
  function TargetLen(card: string): (t: nat)
    ensures 14 <= t <= 16
  {
    if StartsWith(card, "30") || StartsWith(card, "36") || StartsWith(card, "38") then 14
    else if StartsWith(card, "3") then 15
    else 16
  }

  /** The fixed fields after the identifier: `|mm|yyyy|000`. */
  function Tail(mm: string, yyyy: string): string
  {
    "|" + mm + "|" + yyyy + "|000"
  }

  /** The identifier part of a record for the given month and year. */
  function Identifier(record: string, mm: string, yyyy: string): string
    requires |record| >= |Tail(mm, yyyy)|
  {
    record[..|record| - |Tail(mm, yyyy)|]
  }

  /** `record` is `id|mm|yyyy|000` where `id` has the target length of its
      own prefix and ends with the check digit of the rest. */
  predicate IsRecord(record: string, mm: string, yyyy: string)
  {
    && |record| > |Tail(mm, yyyy)|
    && record[|record| - |Tail(mm, yyyy)|..] == Tail(mm, yyyy)
    && var id := Identifier(record, mm, yyyy);
       && |id| == TargetLen(id)
       && id[|id| - 1] == DigitChar(CheckDigit(id[..|id| - 1]))
  }

  lemma TargetLenOfPrefix(a: string, b: string)
    requires |a| >= 2 && |b| >= 2 && a[..2] == b[..2]
    ensures TargetLen(a) == TargetLen(b)
  {
    assert a[..1] == a[..2][..1] && b[..1] == b[..2][..1];
  }

  /** The length rule applied to a substituted pattern: one short of the
      target gets a check digit appended; exactly the target gets its last
      character replaced by the check digit; any other length gives nothing. */
  function Emit(current: string, mm: string, yyyy: string): (r: Option<string>)
    ensures r.Some? <==> |current| + 1 == TargetLen(current) || |current| == TargetLen(current)
    ensures r.Some? ==> IsRecord(r.value, mm, yyyy)
    ensures r.Some? ==>
              var id := Identifier(r.value, mm, yyyy);
              |id| == TargetLen(current) && id[..|id| - 1] == current[..|id| - 1]
    ensures r.Some? && AllDigits(current) ==> IsLuhnValid(Identifier(r.value, mm, yyyy))
  {
    var targetLen := TargetLen(current);
    if |current| == targetLen - 1 then
      var id := current + [DigitChar(CheckDigit(current))];
      RecordFacts(id, current, mm, yyyy);
      Some(id + Tail(mm, yyyy))
    else if |current| == targetLen then
      var withoutLast := current[..targetLen - 1];
      var id := withoutLast + [DigitChar(CheckDigit(withoutLast))];
      RecordFacts(id, current, mm, yyyy);
      Some(id + Tail(mm, yyyy))
    else None
  }

  lemma RecordFacts(id: string, current: string, mm: string, yyyy: string)
    requires |id| == TargetLen(current) && |current| >= |id| - 1
    requires id[..|id| - 1] == current[..|id| - 1]
    requires id[|id| - 1] == DigitChar(CheckDigit(id[..|id| - 1]))
    ensures IsRecord(id + Tail(mm, yyyy), mm, yyyy)
    ensures Identifier(id + Tail(mm, yyyy), mm, yyyy) == id
    ensures AllDigits(current) ==> IsLuhnValid(id)
  {
    var record := id + Tail(mm, yyyy);
    assert record[..|record| - |Tail(mm, yyyy)|] == id;
    assert record[|record| - |Tail(mm, yyyy)|..] == Tail(mm, yyyy);
    assert id[..2] == current[..2] by {
      assert id[..2] == id[..|id| - 1][..2];
      assert current[..2] == current[..|id| - 1][..2];
    }
    TargetLenOfPrefix(id, current);
    if AllDigits(current) {
      var prefix := id[..|id| - 1];
      assert AllDigits(prefix) by {
        forall k | 0 <= k < |prefix| ensures IsDigit(prefix[k]) {
          assert prefix[k] == current[k];
        }
      }
      CheckDigitRoundTrip(prefix, id[|id| - 1]);
      assert id == prefix + [id[|id| - 1]];
    }
  }

  /** In the exact-length case the supplied last digit is discarded: the
      record is the one the pattern without its last character would give. */
  lemma ExactLengthDiscardsLastDigit(current: string, mm: string, yyyy: string)
    requires |current| == TargetLen(current)
    ensures Emit(current, mm, yyyy) == Emit(current[..|current| - 1], mm, yyyy)
  {
    var w := current[..|current| - 1];
    assert w[..2] == current[..2];
    TargetLenOfPrefix(w, current);
  }

  // ---------------------------------------------------------------------
  // GenerateForPattern
  // ---------------------------------------------------------------------

  /** The record, if any, for index value `i`. */
  function RecordAt(pattern: string, mm: string, yyyy: string, lengths: seq<nat>, i: nat): (r: Option<string>)
    ensures var c := Substitute(pattern, lengths, i);
            r.Some? <==> |c| + 1 == TargetLen(c) || |c| == TargetLen(c)
    ensures r.Some? ==> IsRecord(r.value, mm, yyyy)
  {
    Emit(Substitute(pattern, lengths, i), mm, yyyy)
  }

  /** The values present among `f(0) .. f(n-1)`: what a loop over the index
      values that adds each present value to a set ends up adding. */
  function Collect(f: nat -> Option<string>, n: nat): (r: set<string>)
    ensures |r| <= n
    ensures forall i :: 0 <= i < n && f(i).Some? ==> f(i).value in r
    ensures forall s :: s in r ==> exists i :: 0 <= i < n && f(i) == Some(s)
  {
    if n == 0 then {}
    else
      var prev := Collect(f, n - 1);
      match f(n - 1)
      case Some(s) => prev + {s}
      case None => prev
  }

  /** The records of the index values `0 .. n-1`. */
  function Generated(pattern: string, mm: string, yyyy: string, lengths: seq<nat>, n: nat): set<string>
  {
    Collect((i: nat) => RecordAt(pattern, mm, yyyy, lengths, i), n)
  }

  /** Exactly the records of the index values below `n` are generated, and
      each has the record shape. */
  lemma GeneratedMembers(pattern: string, mm: string, yyyy: string, lengths: seq<nat>, n: nat, s: string)
    ensures s in Generated(pattern, mm, yyyy, lengths, n)
        <==> exists i :: 0 <= i < n && RecordAt(pattern, mm, yyyy, lengths, i) == Some(s)
    ensures s in Generated(pattern, mm, yyyy, lengths, n) ==> IsRecord(s, mm, yyyy)
  {
    var f := (i: nat) => RecordAt(pattern, mm, yyyy, lengths, i);
    if s in Generated(pattern, mm, yyyy, lengths, n) {
      var i :| 0 <= i < n && f(i) == Some(s);
      assert RecordAt(pattern, mm, yyyy, lengths, i) == Some(s);
    }
    if exists i :: 0 <= i < n && RecordAt(pattern, mm, yyyy, lengths, i) == Some(s) {
      var i :| 0 <= i < n && RecordAt(pattern, mm, yyyy, lengths, i) == Some(s);
      assert f(i) == Some(s);
    }
  }

  /** `GenerateForPattern(pattern, mm, yyyy, placeholderLengths, results)`:
      the result set after the records of every index value `0 .. total-1`
      are added. `GenerateForPattern` counts in a 64-bit `long`, so at most 18
      placeholders are supported. */
  function GenerateForPattern(pattern: string, mm: string, yyyy: string, placeholderLengths: seq<nat>,
                              results: set<string>): (r: set<string>)
    requires Sum(placeholderLengths) <= 18
    ensures results <= r
    ensures |r| <= |results| + Pow10(Sum(placeholderLengths))
    ensures forall s :: s in r && s !in results ==>
              IsRecord(s, mm, yyyy)
              && exists i :: 0 <= i < Pow10(Sum(placeholderLengths)) && RecordAt(pattern, mm, yyyy, placeholderLengths, i) == Some(s)
    ensures forall i :: 0 <= i < Pow10(Sum(placeholderLengths)) && RecordAt(pattern, mm, yyyy, placeholderLengths, i).Some? ==>
              RecordAt(pattern, mm, yyyy, placeholderLengths, i).value in r
  {
    var total := Total(placeholderLengths);
    var added := Generated(pattern, mm, yyyy, placeholderLengths, total);
    assert |results + added| <= |results| + |added|;
    assert forall s :: s in added ==>
             IsRecord(s, mm, yyyy)
             && exists i :: 0 <= i < total && RecordAt(pattern, mm, yyyy, placeholderLengths, i) == Some(s) by {
      forall s | s in added {
        GeneratedMembers(pattern, mm, yyyy, placeholderLengths, total, s);
      }
    }
    assert forall i :: 0 <= i < total && RecordAt(pattern, mm, yyyy, placeholderLengths, i).Some? ==>
             RecordAt(pattern, mm, yyyy, placeholderLengths, i).value in added by {
      forall i | 0 <= i < total && RecordAt(pattern, mm, yyyy, placeholderLengths, i).Some? {
        GeneratedMembers(pattern, mm, yyyy, placeholderLengths, total, RecordAt(pattern, mm, yyyy, placeholderLengths, i).value);
      }
    }
    results + added
  }

  /** The patterns the template parser lets through: digits and placeholders only. */
  predicate DigitsAndPlaceholders(pattern: string)
  {
    forall k :: 0 <= k < |pattern| ==> IsDigit(pattern[k]) || IsX(pattern[k])
  }

  /** A pattern of digits and placeholders expands to digits only. */
  lemma ExpandAllDigits(pattern: string, remaining: nat)
    requires DigitsAndPlaceholders(pattern)
    ensures AllDigits(Expand(pattern, remaining))
  {
    var bs := Blocks(remaining, XRuns(pattern));
    FillShape(pattern, bs);
  }

  /** The record of any index value has a Luhn-valid first field. */
  lemma RecordLuhnValid(pattern: string, mm: string, yyyy: string, i: nat, s: string)
    requires DigitsAndPlaceholders(pattern)
    requires RecordAt(pattern, mm, yyyy, XRuns(pattern), i) == Some(s)
    ensures IsLuhnValid(FirstField(s))
  {
    SubstitutionFillsRuns(pattern, i);
    ExpandAllDigits(pattern, i);
    RecordFirstField(s, mm, yyyy);
  }

  /** The first field of a record whose identifier is all digits is that
      identifier. */
  lemma RecordFirstField(record: string, mm: string, yyyy: string)
    requires IsRecord(record, mm, yyyy)
    requires AllDigits(Identifier(record, mm, yyyy))
    ensures FirstField(record) == Identifier(record, mm, yyyy)
  {
    var id := Identifier(record, mm, yyyy);
    assert Free(id, {'|'});
    assert record == id + ['|'] + (mm + "|" + yyyy + "|000") by {
      assert record == id + Tail(mm, yyyy);
    }
    FirstFieldOf(id, mm + "|" + yyyy + "|000");
  }

  /** For a pattern of digits and placeholders expanded over its own runs,
      every record's first field passes `IsLuhnValid`. */
  lemma GeneratedAreLuhnValid(pattern: string, mm: string, yyyy: string, n: nat, s: string)
    requires DigitsAndPlaceholders(pattern)
    requires s in Generated(pattern, mm, yyyy, XRuns(pattern), n)
    ensures IsLuhnValid(FirstField(s))
  {
    GeneratedMembers(pattern, mm, yyyy, XRuns(pattern), n, s);
    var i :| 0 <= i < n && RecordAt(pattern, mm, yyyy, XRuns(pattern), i) == Some(s);
    RecordLuhnValid(pattern, mm, yyyy, i, s);
  }

  /** The same for everything `GenerateForPattern` adds to its set. */
  lemma GenerateForPatternLuhnValid(pattern: string, mm: string, yyyy: string, results: set<string>, s: string)
    requires DigitsAndPlaceholders(pattern) && Sum(XRuns(pattern)) <= 18
    requires s in GenerateForPattern(pattern, mm, yyyy, XRuns(pattern), results) && s !in results
    ensures IsLuhnValid(FirstField(s))
  {
    GeneratedAreLuhnValid(pattern, mm, yyyy, Total(XRuns(pattern)), s);
  }
}

=== FILE: formatting.dfy ===
/** The record formatting utilities: masking the card number of a record,
    normalizing a free-form line to `card|MM|YYYY`, and classifying why a line
    could not be normalized. The three regular expressions of
    `CleanAndFormatLine` and `GetFormatErrorReason` are modelled by explicit
    scanners that follow .NET's leftmost, greedy, backtracking match order. */
module Formatting {
  import opened Outcomes
  import opened Text

  // ---------------------------------------------------------------------
  // Masking
  // ---------------------------------------------------------------------

  /** `k` copies of `'x'`. */
  function Xs(k: nat): (r: string)
    ensures |r| == k && forall i :: 0 <= i < k ==> r[i] == 'x'
  {
    seq(k, _ => 'x')
  }

  /** `ApplyCardMask`: replaces the last `maskDigits` characters of the first
      `|`-field by `'x'`; a first field shorter than that leaves the line
      unchanged. The other fields, and so the length, never change. */
  function ApplyCardMask(formattedLine: string, maskDigits: nat): (r: string)
    ensures |r| == |formattedLine|
    ensures |FirstField(formattedLine)| < maskDigits ==> r == formattedLine
    ensures var c := FirstField(formattedLine);
            var p := Split(formattedLine, {'|'});
            var q := Split(r, {'|'});
            |c| >= maskDigits ==>
              && |q| == |p| && q[1..] == p[1..]
              && |q[0]| == |c|
              && q[0][..|c| - maskDigits] == c[..|c| - maskDigits]
              && forall i :: |c| - maskDigits <= i < |c| ==> q[0][i] == 'x'
  {
    var parts := Split(formattedLine, {'|'});
    var cardNum := parts[0];
    if |cardNum| < maskDigits then formattedLine
    else
      var masked := cardNum[..|cardNum| - maskDigits] + Xs(maskDigits);
      assert Free(masked, {'|'}) by {
        assert Free(cardNum, {'|'});
      }
      MaskedFields(parts, masked);
      JoinSplit(formattedLine, '|');
      Join(parts[0 := masked], '|')
  }

  /** Putting a separator-free field of the same length in place of the first
      one keeps the length of the joined line, and splitting gives the new
      fields back. */
  lemma MaskedFields(parts: seq<string>, masked: string)
    requires |parts| >= 1 && |masked| == |parts[0]|
    requires forall i :: 0 <= i < |parts| ==> Free(parts[i], {'|'})
    requires Free(masked, {'|'})
    ensures |Join(parts[0 := masked], '|')| == |Join(parts, '|')|
    ensures Split(Join(parts[0 := masked], '|'), {'|'}) == parts[0 := masked]
  {
    var q := parts[0 := masked];
    assert q[1..] == parts[1..];
    SplitJoin(q, '|');
  }

  /** Masking an already masked line changes nothing. */
  lemma MaskIdempotent(line: string, maskDigits: nat)
    ensures ApplyCardMask(ApplyCardMask(line, maskDigits), maskDigits) == ApplyCardMask(line, maskDigits)
  {
    var r := ApplyCardMask(line, maskDigits);
    var c := FirstField(line);
    if |c| >= maskDigits {
      var q := Split(r, {'|'});
      var d := q[0];
      var k := |d| - maskDigits;
      assert d[..k] + Xs(maskDigits) == d;
      assert q[0 := d] == q;
      JoinSplit(r, '|');
    }
  }

  /** Masking no digits gives back the line. */
  lemma MaskNothing(line: string)
    ensures ApplyCardMask(line, 0) == line
  {
    var parts := Split(line, {'|'});
    var c := parts[0];
    assert c[..|c|] + Xs(0) == c;
    assert parts[0 := c] == parts;
    JoinSplit(line, '|');
  }

  // ---------------------------------------------------------------------
  // Scanning for digits
  // ---------------------------------------------------------------------

  /** The `n` characters from position `i` exist and are all digits. */
  predicate DigitsAt(s: string, i: nat, n: nat)
  {
    i + n <= |s| && forall k :: i <= k < i + n ==> IsDigit(s[k])
  }

  /** The number of consecutive digits starting at position `j`. */
  function RunLen(s: string, j: nat): (n: nat)
    requires j <= |s|
    ensures DigitsAt(s, j, n)
    ensures j + n == |s| || !IsDigit(s[j + n])
    decreases |s| - j
  {
    if j < |s| && IsDigit(s[j]) then 1 + RunLen(s, j + 1) else 0
  }

  /** A run of `n` digits ending before a non-digit (or the end) is what
      `RunLen` measures. */
  lemma {:induction false} RunLenOf(s: string, j: nat, n: nat)
    requires DigitsAt(s, j, n)
    requires j + n == |s| || !IsDigit(s[j + n])
    ensures RunLen(s, j) == n
    decreases n
  {
    if n > 0 {
      RunLenOf(s, j + 1, n - 1);
    }
  }

  // ---------------------------------------------------------------------
  // The card number: `(\d{15,16})`
  // ---------------------------------------------------------------------

  /** The leftmost position from `i` on where fifteen digits start. */
  function CardFrom(s: string, i: nat): (r: Option<nat>)
    requires i <= |s|
    ensures r.Some? ==> i <= r.value && DigitsAt(s, r.value, 15)
    ensures forall k: nat :: i <= k && (r.None? || k < r.value) ==> !DigitsAt(s, k, 15)
    decreases |s| - i
  {
    if i + 15 > |s| then None
    else if DigitsAt(s, i, 15) then Some(i)
    else CardFrom(s, i + 1)
  }

  /** The first match of `(\d{15,16})`: fifteen digits at the leftmost
      position that has them, and a sixteenth when the next character is a
      digit too. */
  function MatchCard(s: string): (r: Option<string>)
    ensures r.None? <==> forall k: nat :: !DigitsAt(s, k, 15)
    ensures r.Some? ==> 15 <= |r.value| <= 16 && AllDigits(r.value)
    ensures r.Some? ==>
              var j := CardFrom(s, 0).value;
              && j + |r.value| <= |s| && r.value == s[j..j + |r.value|]
              && (|r.value| == 16 <==> DigitsAt(s, j, 16))
  {
    match CardFrom(s, 0)
    case None => None
    case Some(j) =>
      var len := if j + 15 < |s| && IsDigit(s[j + 15]) then 16 else 15;
      Some(s[j..j + len])
  }

  /** A line in which the card pattern matches has at least fifteen digits. */
  lemma CardNeedsFifteenDigits(s: string)
    requires MatchCard(s).Some?
    ensures CountDigits(s) >= 15
  {
    var j := CardFrom(s, 0).value;
    var w := s[j..j + 15];
    assert AllDigits(w);
    assert s == s[..j] + w + s[j + 15..];
    CountDigitsAppend(s[..j] + w, s[j + 15..]);
    CountDigitsAppend(s[..j], w);
  }

  lemma {:induction false} CountDigitsAppend(a: string, b: string)
    ensures CountDigits(a + b) == CountDigits(a) + CountDigits(b)
  {
    if a == [] {
      assert a + b == b;
    } else {
      assert (a + b)[0] == a[0] && (a + b)[1..] == a[1..] + b;
      CountDigitsAppend(a[1..], b);
    }
  }

  /** Removing spaces removes no digits. */
  lemma {:induction false} CountDigitsWithoutSpaces(s: string)
    ensures CountDigits(StripSpaces(s)) == CountDigits(s)
  {
    if s != [] {
      CountDigitsWithoutSpaces(s[1..]);
      var head := if s[0] == ' ' then "" else [s[0]];
      CountDigitsAppend(head, Without(s[1..], ' '));
    }
  }

  // ---------------------------------------------------------------------
  // The expiry date: `(\d{1,2})/(\d{2,4})`
  // ---------------------------------------------------------------------

  /** A date match at position `i` whose first group has exactly `width`
      digits: the separator follows, then the second group takes up to four
      of the digits after it and needs at least two. */
  function DateWith(s: string, i: nat, width: nat, seps: set<char>): (r: Option<(string, string)>)
    ensures r.Some? ==> i + width < |s| && s[i + width] in seps
    ensures r.Some? ==>
              && r.value.0 == s[i..i + width]
              && 2 <= |r.value.1| <= 4 && AllDigits(r.value.0) && AllDigits(r.value.1)
  {
    if DigitsAt(s, i, width) && i + width < |s| && s[i + width] in seps then
      var j := i + width + 1;
      var n := RunLen(s, j);
      if n >= 2 then
        var m := if n < 4 then n else 4;
        Some((s[i..i + width], s[j..j + m]))
      else None
    else None
  }

  /** The match of `\d{1,2}<sep>\d{2,4}` at position `i`, if any: the greedy
      first group tries two digits, and backtracks to one. */
  function DateAt(s: string, i: nat, seps: set<char>): (r: Option<(string, string)>)
    ensures r.Some? ==>
              && 1 <= |r.value.0| <= 2 && AllDigits(r.value.0)
              && 2 <= |r.value.1| <= 4 && AllDigits(r.value.1)
  {
    var two := DateWith(s, i, 2, seps);
    if two.Some? then two else DateWith(s, i, 1, seps)
  }

  /** The leftmost date match from position `from` on. */
  function FindDate(s: string, seps: set<char>, from: nat): (r: Option<(string, string)>)
    requires from <= |s|
    ensures r.None? <==> forall i: nat :: from <= i < |s| ==> DateAt(s, i, seps).None?
    ensures r.Some? ==>
              exists i: nat :: from <= i < |s| && DateAt(s, i, seps) == r
                && forall k: nat :: from <= k < i ==> DateAt(s, k, seps).None?
    ensures r.Some? ==>
              && 1 <= |r.value.0| <= 2 && AllDigits(r.value.0)
              && 2 <= |r.value.1| <= 4 && AllDigits(r.value.1)
    decreases |s| - from
  {
    if from == |s| then None
    else
      match DateAt(s, from, seps)
      case Some(d) => Some(d)
      case None =>
        var r := FindDate(s, seps, from + 1);
        NextDate(s, seps, from, r);
        r
  }

  /** A position without a date passes the leftmost match on to the next. */
  lemma NextDate(s: string, seps: set<char>, from: nat, r: Option<(string, string)>)
    requires from < |s| && DateAt(s, from, seps).None?
    requires r.None? <==> forall i: nat :: from + 1 <= i < |s| ==> DateAt(s, i, seps).None?
    requires r.Some? ==>
               exists i: nat :: from + 1 <= i < |s| && DateAt(s, i, seps) == r
                 && forall k: nat :: from + 1 <= k < i ==> DateAt(s, k, seps).None?
    ensures r.None? <==> forall i: nat :: from <= i < |s| ==> DateAt(s, i, seps).None?
    ensures r.Some? ==>
              exists i: nat :: from <= i < |s| && DateAt(s, i, seps) == r
                && forall k: nat :: from <= k < i ==> DateAt(s, k, seps).None?
  {
    if r.Some? {
      var i: nat :| from + 1 <= i < |s| && DateAt(s, i, seps) == r
                     && forall k: nat :: from + 1 <= k < i ==> DateAt(s, k, seps).None?;
      assert forall k: nat :: from <= k < i ==> DateAt(s, k, seps).None?;
    }
  }

  /** A text with none of the separators holds no date. */
  lemma FreeHasNoDate(s: string, seps: set<char>)
    requires Free(s, seps)
    ensures FindDate(s, seps, 0).None?
  {
    forall i: nat | i < |s|
      ensures DateAt(s, i, seps).None?
    {
      assert DateWith(s, i, 2, seps).None?;
      assert DateWith(s, i, 1, seps).None?;
    }
  }

  /** Allowing more separators can only turn a failed date search into a
      successful one. */
  lemma DateWiden(s: string, a: set<char>, b: set<char>)
    requires a <= b
    ensures FindDate(s, a, 0).Some? ==> FindDate(s, b, 0).Some?
  {
    if FindDate(s, a, 0).Some? {
      var i: nat :| i < |s| && DateAt(s, i, a).Some?;
      assert DateWith(s, i, 2, a).Some? ==> DateWith(s, i, 2, b).Some?;
      assert DateWith(s, i, 1, a).Some? ==> DateWith(s, i, 1, b).Some?;
      assert DateAt(s, i, b).Some?;
    }
  }

  // ---------------------------------------------------------------------
  // The digit runs: `\d+`
  // ---------------------------------------------------------------------

  /** The matches of `\d+`: the maximal runs of digits, left to right. */
  function DigitRuns(s: string): (runs: seq<string>)
    ensures forall k :: 0 <= k < |runs| ==> |runs[k]| >= 1 && AllDigits(runs[k])
    decreases |s|
  {
    if s == [] then []
    else if !IsDigit(s[0]) then DigitRuns(s[1..])
    else
      var n := RunLen(s, 0);
      [s[..n]] + DigitRuns(s[n..])
  }

  /** The digits of `s`, in order. */
  function OnlyDigits(s: string): (r: string)
    ensures |r| == CountDigits(s)
  {
    if s == [] then "" else (if IsDigit(s[0]) then [s[0]] else "") + OnlyDigits(s[1..])
  }

  lemma {:induction false} OnlyDigitsAppend(a: string, b: string)
    ensures OnlyDigits(a + b) == OnlyDigits(a) + OnlyDigits(b)
  {
    if a == [] {
      assert a + b == b;
    } else {
      assert (a + b)[0] == a[0] && (a + b)[1..] == a[1..] + b;
      OnlyDigitsAppend(a[1..], b);
    }
  }

  lemma {:induction false} OnlyDigitsOfDigits(d: string)
    requires AllDigits(d)
    ensures OnlyDigits(d) == d
  {
    if d != [] {
      OnlyDigitsOfDigits(d[1..]);
    }
  }

  /** The runs hold every digit of the text and nothing else. */
  lemma {:induction false} RunsCoverDigits(s: string)
    ensures Concat(DigitRuns(s)) == OnlyDigits(s)
    decreases |s|
  {
    if s != [] {
      if !IsDigit(s[0]) {
        RunsCoverDigits(s[1..]);
        assert DigitRuns(s) == DigitRuns(s[1..]);
        assert OnlyDigits(s) == OnlyDigits(s[1..]);
      } else {
        var n := RunLen(s, 0);
        var runs := DigitRuns(s);
        assert runs[0] == s[..n] && runs[1..] == DigitRuns(s[n..]);
        RunsCoverDigits(s[n..]);
        assert s == s[..n] + s[n..];
        OnlyDigitsAppend(s[..n], s[n..]);
        OnlyDigitsOfDigits(s[..n]);
      }
    }
  }

  lemma RunsSkip(c: char, t: string)
    requires !IsDigit(c)
    ensures DigitRuns([c] + t) == DigitRuns(t)
  {
    assert ([c] + t)[1..] == t;
  }

  /** A non-digit ends every run before it and starts none after it: the
      runs of the whole are the runs on either side. */
  lemma {:induction false} RunsSplitAtNonDigit(a: string, c: char, b: string)
    requires !IsDigit(c)
    ensures DigitRuns(a + [c] + b) == DigitRuns(a) + DigitRuns(b)
    decreases |a|
  {
    var s := a + [c] + b;
    if a == [] {
      assert s == [c] + b;
      RunsSkip(c, b);
    } else if !IsDigit(a[0]) {
      assert s[0] == a[0] && s[1..] == a[1..] + [c] + b;
      RunsSplitAtNonDigit(a[1..], c, b);
    } else {
      var n := RunLen(a, 0);
      assert DigitsAt(s, 0, n) && !IsDigit(s[n]);
      RunLenOf(s, 0, n);
      assert s[..n] == a[..n] && s[n..] == a[n..] + [c] + b;
      RunsSplitAtNonDigit(a[n..], c, b);
    }
  }

  lemma RunsWhole(d: string)
    requires |d| >= 1 && AllDigits(d)
    ensures DigitRuns(d) == [d]
  {
    RunLenOf(d, 0, |d|);
    assert d[..|d|] == d && d[|d|..] == [];
  }

  // ---------------------------------------------------------------------
  // Normalizing a line
  // ---------------------------------------------------------------------

  /** A month and a year as the line spelled them, `""` when absent. */
  datatype Expiry = Expiry(mm: string, yyyy: string)

  /** Pattern 1: the month is padded to two digits, a two-digit year is put
      in the 2000s and a longer one is kept as written. */
  function SlashExpiry(g1: string, g2: string): (e: Expiry)
    requires 1 <= |g1| <= 2 && AllDigits(g1)
    requires 2 <= |g2| <= 4 && AllDigits(g2)
    ensures |e.mm| == 2 && AllDigits(e.mm) && DecimalValue(e.mm) == DecimalValue(g1)
    ensures 3 <= |e.yyyy| <= 4 && AllDigits(e.yyyy)
    ensures |g2| == 2 ==> DecimalValue(e.yyyy) == 2000 + DecimalValue(g2)
    ensures |g2| > 2 ==> e.yyyy == g2
  {
    ZerosPadValue(g1, 2);
    if |g2| == 2 then
      DecimalValueAppend("20", g2);
      Expiry(PadLeft(g1, 2, '0'), "20" + g2)
    else Expiry(PadLeft(g1, 2, '0'), g2)
  }

  /** The year read from the second digit run in the fallback: two digits
      are put in the 2000s, four are kept, one is put in the 2020s, and any
      other length gives no year. */
  function RunYear(yy: string): (year: string)
    requires AllDigits(yy)
    ensures year == [] <==> |yy| !in {1, 2, 4}
    ensures year != [] ==> |year| == 4 && AllDigits(year)
    ensures |yy| == 1 ==> DecimalValue(year) == 2020 + DecimalValue(yy)
    ensures |yy| == 2 ==> DecimalValue(year) == 2000 + DecimalValue(yy)
    ensures |yy| == 4 ==> year == yy
  {
    if |yy| == 2 then
      DecimalValueAppend("20", yy);
      "20" + yy
    else if |yy| == 4 then yy
    else if |yy| == 1 then
      DecimalValueAppend("202", yy);
      "202" + yy
    else ""
  }

  /** The fallback: the first digit run is the month if it has at most two
      digits and lies in 1..12, and then the second run gives the year. */
  function RunsExpiry(runs: seq<string>): (e: Expiry)
    requires forall k :: 0 <= k < |runs| ==> |runs[k]| >= 1 && AllDigits(runs[k])
    ensures e.mm != [] <==>
              |runs| >= 2 && |runs[0]| <= 2 && 1 <= DecimalValue(runs[0]) <= 12
    ensures e.mm != [] ==>
              && |e.mm| == 2 && AllDigits(e.mm) && DecimalValue(e.mm) == DecimalValue(runs[0])
              && e.yyyy == RunYear(runs[1])
    ensures e.mm == [] ==> e.yyyy == []
  {
    if |runs| >= 2 && |runs[0]| <= 2 then
      var m := TryParseInt(runs[0]);
      if m.Some? && 1 <= m.value <= 12 then
        ZerosPadValue(runs[0], 2);
        Expiry(PadLeft(runs[0], 2, '0'), RunYear(runs[1]))
      else Expiry("", "")
    else Expiry("", "")
  }

  /** The expiry the line offers, from a slash date if there is one and from
      the digit runs otherwise. */
  function ExtractExpiry(rest: string): (e: Expiry)
    ensures e.mm != [] ==> |e.mm| == 2 && AllDigits(e.mm)
    ensures e.yyyy != [] ==> 3 <= |e.yyyy| <= 4 && AllDigits(e.yyyy)
    ensures FindDate(rest, {'/'}, 0).Some? ==>
              && e.mm != [] && e.yyyy != []
              && DecimalValue(e.mm) == DecimalValue(FindDate(rest, {'/'}, 0).value.0)
    ensures FindDate(rest, {'/'}, 0).Some? ==>
              e == SlashExpiry(FindDate(rest, {'/'}, 0).value.0, FindDate(rest, {'/'}, 0).value.1)
    ensures FindDate(rest, {'/'}, 0).None? ==> e == RunsExpiry(DigitRuns(rest))
  {
    match FindDate(rest, {'/'}, 0)
    case Some((g1, g2)) => SlashExpiry(g1, g2)
    case None => RunsExpiry(DigitRuns(rest))
  }

  /** The final checks: both parts present, the month parses to 1..12 and
      the year to 2020..2040. For an expiry of the shape `ExtractExpiry`
      produces, that is a two-digit month in 01..12 and a four-digit year in
      2020..2040. */
  function Accepts(e: Expiry): (ok: bool)
    ensures (e.mm != [] ==> |e.mm| == 2 && AllDigits(e.mm)) && (e.yyyy != [] ==> 3 <= |e.yyyy| <= 4 && AllDigits(e.yyyy))
            ==> (ok <==> IsMonth(e.mm) && IsYear(e.yyyy))
  {
    ExpiryChecks(e);
    && e.mm != [] && e.yyyy != []
    && (var m := TryParseInt(e.mm); m.Some? && 1 <= m.value <= 12)
    && (var y := TryParseInt(e.yyyy); y.Some? && 2020 <= y.value <= 2040)
  }

  predicate IsCardNumber(s: string) { 15 <= |s| <= 16 && AllDigits(s) }
  predicate IsMonth(s: string) { |s| == 2 && AllDigits(s) && 1 <= DecimalValue(s) <= 12 }
  predicate IsYear(s: string) { |s| == 4 && AllDigits(s) && 2020 <= DecimalValue(s) <= 2040 }

  /** A normalized record: exactly three `|`-fields, a 15- or 16-digit card
      number, a two-digit month in 01..12 and a four-digit year in
      2020..2040. */
  predicate IsNormalized(r: string)
  {
    var p := Split(r, {'|'});
    |p| == 3 && IsCardNumber(p[0]) && IsMonth(p[1]) && IsYear(p[2])
  }

  /** `CleanAndFormatLine`: removes the spaces, takes the card number, cuts
      it out of the line and reads the expiry from what is left; `""` when
      any of these fails. A record comes out exactly when the expiry is
      accepted, and its fields are the card, the month and the year. */
  function CleanAndFormatLine(line: string): (r: string)
    ensures MatchCard(StripSpaces(line)).None? ==> r == []
    ensures r != [] ==> IsNormalized(r)
    ensures r != [] ==> MatchCard(StripSpaces(line)).Some? && FirstField(r) == MatchCard(StripSpaces(line)).value
    ensures MatchCard(StripSpaces(line)).Some? ==>
              var card := MatchCard(StripSpaces(line)).value;
              var e := ExtractExpiry(ReplaceAll(StripSpaces(line), card, "|"));
              && (r != [] <==> Accepts(e))
              && (r != [] ==> Split(r, {'|'}) == [card, e.mm, e.yyyy])
  {
    var s := StripSpaces(line);
    match MatchCard(s)
    case None => ""
    case Some(cardNum) =>
      var rest := ReplaceAll(s, cardNum, "|");
      var e := ExtractExpiry(rest);
      if !Accepts(e) then ""
      else
        RecordFields(cardNum, e.mm, e.yyyy);
        cardNum + "|" + e.mm + "|" + e.yyyy
  }

  /** For a digit expiry, the three final checks are the decimal range checks. */
  lemma ExpiryChecks(e: Expiry)
    ensures (e.mm != [] ==> |e.mm| == 2 && AllDigits(e.mm)) && (e.yyyy != [] ==> 3 <= |e.yyyy| <= 4 && AllDigits(e.yyyy)) ==>
              ((&& e.mm != [] && e.yyyy != []
                && (var m := TryParseInt(e.mm); m.Some? && 1 <= m.value <= 12)
                && (var y := TryParseInt(e.yyyy); y.Some? && 2020 <= y.value <= 2040))
               <==> IsMonth(e.mm) && IsYear(e.yyyy))
  {
    if |e.mm| == 2 && AllDigits(e.mm) {
      MonthCheck(e.mm);
    }
    if 3 <= |e.yyyy| <= 4 && AllDigits(e.yyyy) {
      YearCheck(e.yyyy);
    }
  }

  lemma MonthCheck(mm: string)
    requires |mm| == 2 && AllDigits(mm)
    ensures var m := TryParseInt(mm); (m.Some? && 1 <= m.value <= 12) <==> IsMonth(mm)
  {
    assert TryParseInt(mm) == Some(DecimalValue(mm));
  }

  lemma YearCheck(yyyy: string)
    requires 3 <= |yyyy| <= 4 && AllDigits(yyyy)
    ensures var y := TryParseInt(yyyy); (y.Some? && 2020 <= y.value <= 2040) <==> IsYear(yyyy)
  {
    assert TryParseInt(yyyy) == Some(DecimalValue(yyyy));
    ThreeDigitsBelow(yyyy);
  }

  /** Three digits make a number below 1000. */
  lemma ThreeDigitsBelow(s: string)
    requires AllDigits(s)
    ensures |s| == 3 ==> DecimalValue(s) < 1000
  {
    assert Pow10(3) == 1000 by {
      assert Pow10(1) == 10 && Pow10(2) == 100;
    }
  }

  /** The fields of a record written out with `|` are the ones put in. */
  lemma RecordFields(card: string, mm: string, yyyy: string)
    requires AllDigits(card) && AllDigits(mm) && AllDigits(yyyy)
    ensures Split(card + "|" + mm + "|" + yyyy, {'|'}) == [card, mm, yyyy]
  {
    var p := [card, mm, yyyy];
    assert Join(p[2..], '|') == yyyy;
    assert Join(p[1..], '|') == mm + "|" + yyyy;
    assert Join(p, '|') == card + "|" + mm + "|" + yyyy;
    assert forall i :: 0 <= i < 3 ==> Free(p[i], {'|'}) by {
      assert forall i :: 0 <= i < 3 ==> AllDigits(p[i]);
    }
    SplitJoin(p, '|');
  }

  /** Normalizing a normalized record gives it back, so normalizing twice is
      the same as normalizing once. */
  lemma CleanIdempotent(line: string)
    ensures CleanAndFormatLine(CleanAndFormatLine(line)) == CleanAndFormatLine(line)
  {
    var r := CleanAndFormatLine(line);
    if r == [] {
      CleanEmpty();
    } else {
      var p := NormalizedParts(r);
      NormalizedIsFixed(p[0], p[1], p[2]);
    }
  }

  lemma CleanEmpty()
    ensures CleanAndFormatLine("") == ""
  {
    assert StripSpaces("") == "";
    assert MatchCard("").None?;
  }

  /** A normalized record is its three fields joined by `|`. */
  lemma NormalizedParts(r: string) returns (p: seq<string>)
    requires IsNormalized(r)
    ensures p == Split(r, {'|'}) && |p| == 3
    ensures r == p[0] + "|" + p[1] + "|" + p[2]
  {
    p := Split(r, {'|'});
    JoinSplit(r, '|');
    assert Join(p[2..], '|') == p[2];
    assert Join(p[1..], '|') == p[1] + "|" + p[2];
  }

  lemma NormalizedIsFixed(card: string, mm: string, yyyy: string)
    requires IsCardNumber(card) && IsMonth(mm) && IsYear(yyyy)
    ensures var r := card + "|" + mm + "|" + yyyy;
            CleanAndFormatLine(r) == r
  {
    var tail := "|" + mm + "|" + yyyy;
    var r := card + tail;
    assert card + "|" + mm + "|" + yyyy == r;
    RecordHasNoSpaces(card, mm, yyyy);
    CardOfRecord(card, tail);
    RestOfRecord(card, tail);
    ExpiryOfRest(mm, yyyy);
    assert Accepts(Expiry(mm, yyyy)) by {
      assert TryParseInt(mm) == Some(DecimalValue(mm));
      assert TryParseInt(yyyy) == Some(DecimalValue(yyyy));
    }
  }

  lemma RecordHasNoSpaces(card: string, mm: string, yyyy: string)
    requires AllDigits(card) && AllDigits(mm) && AllDigits(yyyy)
    ensures var r := card + ("|" + mm + "|" + yyyy);
            StripSpaces(r) == r
  {
    var r := card + ("|" + mm + "|" + yyyy);
    forall i | 0 <= i < |r| ensures r[i] != ' ' {
      assert r[i] == '|' || IsDigit(r[i]);
    }
    WithoutAbsent(r, ' ');
  }

  lemma ExpiryOfRest(mm: string, yyyy: string)
    requires IsMonth(mm) && IsYear(yyyy)
    ensures ExtractExpiry("|" + ("|" + mm + "|" + yyyy)) == Expiry(mm, yyyy)
  {
    var rest := "|" + ("|" + mm + "|" + yyyy);
    assert Free(rest, {'/'}) by {
      forall i | 0 <= i < |rest| ensures rest[i] != '/' {
        assert rest[i] == '|' || IsDigit(rest[i]);
      }
    }
    FreeHasNoDate(rest, {'/'});
    RunsOfRest(mm, yyyy);
    RunsExpiryOfFields(mm, yyyy);
  }

  lemma RunsExpiryOfFields(mm: string, yyyy: string)
    requires IsMonth(mm) && IsYear(yyyy)
    ensures RunsExpiry([mm, yyyy]) == Expiry(mm, yyyy)
  {
    assert TryParseInt(mm) == Some(DecimalValue(mm));
  }

  lemma {:induction false} WithoutAbsent(s: string, c: char)
    requires Free(s, {c})
    ensures Without(s, c) == s
  {
    if s != [] {
      WithoutAbsent(s[1..], c);
      assert s == [s[0]] + s[1..];
    }
  }

  lemma CardOfRecord(card: string, tail: string)
    requires IsCardNumber(card)
    requires |card| == 16 || (|tail| >= 1 && !IsDigit(tail[0]))
    ensures MatchCard(card + tail) == Some(card)
  {
    var s := card + tail;
    assert DigitsAt(s, 0, 15);
    assert CardFrom(s, 0) == Some(0);
    if |card| == 15 {
      assert s[15] == tail[0];
    }
    assert s[0..|card|] == card;
  }

  lemma RestOfRecord(card: string, tail: string)
    requires IsCardNumber(card) && |tail| < 15
    ensures ReplaceAll(card + tail, card, "|") == "|" + tail
  {
    var s := card + tail;
    assert s[..|card|] == card;
    assert s[|card|..] == tail;
  }

  lemma RunsOfRest(mm: string, yyyy: string)
    requires |mm| >= 1 && AllDigits(mm) && |yyyy| >= 1 && AllDigits(yyyy)
    ensures DigitRuns("|" + ("|" + mm + "|" + yyyy)) == [mm, yyyy]
  {
    var a := mm + ['|'] + yyyy;
    RunsOfFields(mm, yyyy);
    RunsSkip('|', a);
    RunsSkip('|', ['|'] + a);
    RestShape(mm, yyyy);
  }

  lemma RestShape(mm: string, yyyy: string)
    ensures "|" + ("|" + mm + "|" + yyyy) == ['|'] + (['|'] + (mm + ['|'] + yyyy))
  {
  }

  /** Two digit fields joined by `|` are two runs. */
  lemma RunsOfFields(mm: string, yyyy: string)
    requires |mm| >= 1 && AllDigits(mm) && |yyyy| >= 1 && AllDigits(yyyy)
    ensures DigitRuns(mm + ['|'] + yyyy) == [mm, yyyy]
  {
    RunsWhole(mm);
    RunsWhole(yyyy);
    RunsSplitAtNonDigit(mm, '|', yyyy);
  }

  // ---------------------------------------------------------------------
  // Why a line was rejected
  // ---------------------------------------------------------------------

  /** The reasons `GetFormatErrorReason` reports, in the order it checks them. */
  datatype FormatError =
    | TooShort(digitCount: nat)
    | NoCardFound
    | NoExpiry
    | ExpiryUnrecognised

  /** `GetFormatErrorReason`: too few digits or no card number; otherwise no
      expiry when neither a `MM/YY`-or-`MM|YY` date nor two digit runs remain
      once the card is cut out; otherwise an expiry it could not read. */
  function GetFormatErrorReason(line: string): (r: FormatError)
    ensures r.TooShort? ==> r.digitCount == CountDigits(line) < 15
    ensures r.NoCardFound? <==>
              (forall k: nat :: !DigitsAt(StripSpaces(line), k, 15)) && CountDigits(line) >= 15
    ensures r.NoExpiry? <==>
              && MatchCard(StripSpaces(line)).Some?
              && var rest := ReplaceAll(StripSpaces(line), MatchCard(StripSpaces(line)).value, "|");
                 && (forall i: nat :: i < |rest| ==> DateAt(rest, i, {'/', '|'}).None?)
                 && |DigitRuns(rest)| < 2
  {
    var s := StripSpaces(line);
    match MatchCard(s)
    case None =>
      var digitCount := CountDigits(line);
      if digitCount < 15 then TooShort(digitCount) else NoCardFound
    case Some(cardNum) =>
      var rest := ReplaceAll(s, cardNum, "|");
      if FindDate(rest, {'/', '|'}, 0).None? && |DigitRuns(rest)| < 2 then NoExpiry
      else ExpiryUnrecognised
  }

  /** Fewer than fifteen digits is reported as exactly that, with the count. */
  lemma TooShortIff(line: string)
    ensures GetFormatErrorReason(line).TooShort? <==> CountDigits(line) < 15
  {
    if MatchCard(StripSpaces(line)).Some? {
      CardNeedsFifteenDigits(StripSpaces(line));
      CountDigitsWithoutSpaces(line);
    }
  }

  /** Every reason but the last names a line that normalizing rejects: a
      line that normalizes is never reported as too short, cardless or
      dateless. */
  lemma ReasonMeansRejected(line: string)
    requires GetFormatErrorReason(line) != ExpiryUnrecognised
    ensures CleanAndFormatLine(line) == []
  {
    var s := StripSpaces(line);
    if MatchCard(s).Some? {
      var rest := ReplaceAll(s, MatchCard(s).value, "|");
      DateWiden(rest, {'/'}, {'/', '|'});
      assert FindDate(rest, {'/'}, 0).None?;
      assert ExtractExpiry(rest) == RunsExpiry(DigitRuns(rest));
    }
  }
}

=== FILE: luhn.dfy ===
/** The Luhn (mod 10) check digit of ISO/IEC 7812-1, Annex B, as computed
    by `GetLuhnCheckDigit` and checked by `IsLuhnValid`. */
module Luhn {
  import opened Text

  /** C#'s `a % b` for `b > 0`: truncated division, so the remainder takes
      the sign of `a` (Dafny's own `%` never goes negative). */
  function CsRem(a: int, b: int): (r: int)
    requires b > 0
    ensures a == b * CsQuot(a, b) + r
    ensures a >= 0 ==> 0 <= r < b
    ensures a < 0 ==> -b < r <= 0
  {
    if a >= 0 then a % b else -((-a) % b)
  }

  /** The quotient that goes with `CsRem`, rounded toward zero. */
  function CsQuot(a: int, b: int): int
    requires b > 0
  {
    if a >= 0 then a / b else -((-a) / b)
  }

  /** What one character adds to the sum: its value, or, when it is doubled,
      twice its value less 9 if that exceeds 9. */
  function Contribution(c: char, doubled: bool): int
  {
    var d := DigitValue(c);
    if doubled then (if 2 * d > 9 then 2 * d - 9 else 2 * d) else d
  }

  /** The Luhn sum of `s` in which the rightmost character is doubled iff
      `doubleLast`, and doubling alternates moving left. */
  function Weighted(s: string, doubleLast: bool): int
  {
    if s == [] then 0
    else Weighted(s[..|s| - 1], !doubleLast) + Contribution(s[|s| - 1], doubleLast)
  }

  /** The check digit of a prefix: the digit that, appended, makes the Luhn
      sum of the whole number a multiple of 10. Every character counts by
      its code minus 48, so the result lies in 0..9 for any input. */
  function CheckDigit(prefix: string): (d: int)
    ensures 0 <= d <= 9
    ensures prefix == [] ==> d == 0
    ensures AllDigits(prefix) ==> (Weighted(prefix, true) + d) % 10 == 0
  {
    var sum := Weighted(prefix, true);
    assert AllDigits(prefix) ==> sum >= 0 by {
      if AllDigits(prefix) {
        WeightedOfDigits(prefix, true);
      }
    }
    CsRem(10 - CsRem(sum, 10), 10)
  }

  lemma {:induction false} WeightedOfDigits(s: string, doubleLast: bool)
    requires AllDigits(s)
    ensures Weighted(s, doubleLast) >= 0
  {
    if s != [] {
      WeightedOfDigits(s[..|s| - 1], !doubleLast);
    }
  }

  /** `GetLuhnCheckDigit`'s loop: walks from the rightmost character to the left,
      doubling every second one starting with the rightmost. */
  method GetLuhnCheckDigit(number: string) returns (d: int)
    ensures d == CheckDigit(number)
    ensures 0 <= d <= 9
  {
    var sum := 0;
    var doubleDigit := true;
    var i := |number|;
    while i > 0
      invariant 0 <= i <= |number|
      invariant sum == Weighted(number[i..], true)
      invariant doubleDigit <==> (|number| - i) % 2 == 0
    {
      i := i - 1;
      var digit := DigitValue(number[i]);
      if doubleDigit {
        digit := digit * 2;
        if digit > 9 {
          digit := digit - 9;
        }
      }
      WeightedCons(number[i], number[i + 1..], true);
      assert number[i..] == [number[i]] + number[i + 1..];
      sum := sum + digit;
      doubleDigit := !doubleDigit;
    }
    d := CsRem(10 - CsRem(sum, 10), 10);
  }

  /** Adding a character on the left: it is doubled iff the characters to its
      right leave it at the right parity. */
  lemma {:induction false} WeightedCons(c: char, t: string, doubleLast: bool)
    ensures Weighted([c] + t, doubleLast)
         == Weighted(t, doubleLast) + Contribution(c, if |t| % 2 == 0 then doubleLast else !doubleLast)
  {
    if t == [] {
      assert [c] + t == [c];
      assert ([c] + t)[..0] == [];
    } else {
      var s := [c] + t;
      assert s[..|s| - 1] == [c] + t[..|t| - 1];
      WeightedCons(c, t[..|t| - 1], !doubleLast);
    }
  }

  /** `IsLuhnValid`: false for fewer than two characters or any non-digit,
      otherwise whether the last digit is the check digit of the rest. Stated
      as the ISO formulation: the Luhn sum of the whole number, with the
      rightmost digit not doubled, is a multiple of 10. */
  function IsLuhnValid(fullNumber: string): (ok: bool)
    ensures ok <==> |fullNumber| >= 2 && AllDigits(fullNumber) && Weighted(fullNumber, false) % 10 == 0
  {
    if |fullNumber| < 2 || !AllDigits(fullNumber) then false
    else
      var prefix := fullNumber[..|fullNumber| - 1];
      var last := fullNumber[|fullNumber| - 1];
      ValidIffSumDivisible(prefix, last);
      assert fullNumber == prefix + [last];
      CheckDigit(prefix) == DigitValue(last)
  }

  lemma ValidIffSumDivisible(prefix: string, last: char)
    requires AllDigits(prefix) && IsDigit(last)
    ensures CheckDigit(prefix) == DigitValue(last) <==> Weighted(prefix + [last], false) % 10 == 0
  {
    var s := prefix + [last];
    assert s[..|s| - 1] == prefix;
    assert Weighted(s, false) == Weighted(prefix, true) + DigitValue(last);
    var c := CheckDigit(prefix);
    var w := Weighted(prefix, true);
    assert (w + c) % 10 == 0;
    assert 0 <= DigitValue(last) <= 9;
    SameResidueDigit(w, c, DigitValue(last));
  }

  /** Two digits that each complete `w` to a multiple of 10 are equal, and the
      only digit that does so is the one that does. */
  lemma SameResidueDigit(w: int, c: int, d: int)
    requires 0 <= c <= 9 && 0 <= d <= 9
    requires (w + c) % 10 == 0
    ensures c == d <==> (w + d) % 10 == 0
  {
    if (w + d) % 10 == 0 {
      assert ((w + c) - (w + d)) % 10 == 0;
    }
  }

  /** Appending the check digit to any non-empty digit string gives a valid
      number, and it is the only digit that does. */
  lemma CheckDigitRoundTrip(prefix: string, last: char)
    requires |prefix| >= 1 && AllDigits(prefix) && IsDigit(last)
    ensures IsLuhnValid(prefix + [DigitChar(CheckDigit(prefix))])
    ensures IsLuhnValid(prefix + [last]) <==> last == DigitChar(CheckDigit(prefix))
  {
    var c := DigitChar(CheckDigit(prefix));
    ValidIffSumDivisible(prefix, c);
    ValidIffSumDivisible(prefix, last);
    assert AllDigits(prefix + [c]);
    assert AllDigits(prefix + [last]);
  }
}

=== FILE: outcomes.dfy ===
/** Failure-carrying values used in place of the empty strings, `-1` indices
    and early `continue`s of `CleanAndFormatLine`, `GenerateForPattern` and
    `GenerateBulkProcess`. */
module Outcomes {

  /** A value that may be absent: a regex that did not match, an `IndexOf`
      that found nothing, an `int.TryParse` that failed. */
  datatype Option<+T> = None | Some(value: T)

  /** The outcome of a step that either produces a value or rejects its input
      with a reason. */
  datatype Result<+T, +E> = Success(value: T) | Failure(error: E)
}

=== FILE: scenarios.dfy ===
/** Worked instances of the formatting functions on concrete lines. */
module Scenarios {
  import opened Outcomes
  import opened Text
  import opened Formatting

  /** Removing the spaces of `a b`, where `b` has none, removes those of `a`. */
  lemma StripAtSpace(a: string, b: string)
    requires Free(b, {' '})
    ensures StripSpaces(a + " " + b) == StripSpaces(a) + b
  {
    WithoutAppend(a + " ", b, ' ');
    WithoutAppend(a, " ", ' ');
    WithoutAbsent(b, ' ');
    assert Without(" ", ' ') == "" by {
      assert " "[1..] == "";
    }
    assert Without(a, ' ') + "" == Without(a, ' ');
  }

  lemma YearValue()
    ensures AllDigits("2612") && DecimalValue("2612") > 2040
  {
    assert "2612"[..3] == "261";
    assert "261"[..2] == "26";
    assert "26"[..1] == "2";
    assert "2"[..0] == "";
  }

  /** A slash date right after the cut-out card. */
  lemma DateAfterBar(g1: string, d: string)
    requires |g1| == 2 && AllDigits(g1) && |d| >= 4 && AllDigits(d)
    ensures FindDate("|" + g1 + "/" + d, {'/'}, 0) == Some((g1, d[..4]))
  {
    var rest := "|" + g1 + "/" + d;
    assert rest[0] == '|' && rest[3] == '/';
    assert DateAt(rest, 0, {'/'}).None?;
    RunLenOf(rest, 4, |d|);
    assert rest[1..3] == g1 && rest[4..8] == d[..4];
    assert DateWith(rest, 1, 2, {'/'}) == Some((g1, d[..4]));
  }

  lemma FusedExpiry()
    ensures ExtractExpiry("|" + "12/26123") == Expiry("12", "2612")
  {
    assert "|" + "12/26123" == "|" + "12" + "/" + "26123";
    DateAfterBar("12", "26123");
    assert "26123"[..4] == "2612";
  }

  lemma FusedStrip(card: string)
    requires IsCardNumber(card)
    ensures StripSpaces(card + " 12/26 123") == card + "12/26123"
  {
    assert card + " 12/26 123" == (card + " " + "12/26") + " " + "123";
    StripAtSpace(card + " " + "12/26", "123");
    StripAtSpace(card, "12/26");
    WithoutAbsent(card, ' ');
  }

  /** A 16-digit card followed by " 12/26 123": with the spaces gone the year
      takes the first digit of the next field, and 2612 is out of range. */
  lemma FusedFieldsAfter(card: string)
    requires IsCardNumber(card) && |card| == 16
    ensures CleanAndFormatLine(card + " 12/26 123") == ""
  {
    var t := "12/26123";
    FusedStrip(card);
    CardOfRecord(card, t);
    RestOfRecord(card, t);
    FusedExpiry();
    FusedRejected();
  }

  lemma FusedRejected()
    ensures !Accepts(Expiry("12", "2612"))
  {
    YearValue();
    assert TryParseInt("2612") == Some(DecimalValue("2612"));
  }


  lemma ValidExpiryValues()
    ensures AllDigits("12") && DecimalValue("12") == 12
    ensures AllDigits("2026") && DecimalValue("2026") == 2026
  {
    assert "12"[..1] == "1" && "1"[..0] == "";
    assert "2026"[..3] == "202" && "202"[..2] == "20";
    assert "20"[..1] == "2" && "2"[..0] == "";
  }

  lemma SlashExpiryOfRest()
    ensures ExtractExpiry("|" + "12/2026") == Expiry("12", "2026")
    ensures Accepts(Expiry("12", "2026"))
  {
    SlashDateOfRest();
    SlashOfValid();
    ValidExpiryAccepted();
  }

  lemma SlashDateOfRest()
    ensures FindDate("|" + "12/2026", {'/'}, 0) == Some(("12", "2026"))
  {
    assert "|" + "12/2026" == "|" + "12" + "/" + "2026";
    DateAfterBar("12", "2026");
    assert "2026"[..4] == "2026";
  }

  lemma ValidExpiryAccepted()
    ensures Accepts(Expiry("12", "2026"))
  {
    ValidExpiryValues();
  }

  lemma SlashOfValid()
    ensures SlashExpiry("12", "2026") == Expiry("12", "2026")
  {
    ValidExpiryValues();
    assert PadLeft("12", 2, '0') == "12";
  }

  /** A card and a `MM/YYYY` date separated by a space normalize to the
      record `card|MM|YYYY`. */
  lemma SlashDateAfter(card: string)
    requires IsCardNumber(card) && |card| == 16
    ensures CleanAndFormatLine(card + " 12/2026") == card + "|12|2026"
  {
    var t := "12/2026";
    assert card + " 12/2026" == card + " " + t;
    StripAtSpace(card, t);
    WithoutAbsent(card, ' ');
    CardOfRecord(card, t);
    RestOfRecord(card, t);
    SlashExpiryOfRest();
    RecordText(card);
  }

  lemma RecordText(card: string)
    ensures card + "|" + "12" + "|" + "2026" == card + "|12|2026"
  {
    assert "|" + "12" + "|" + "2026" == "|12|2026";
  }

  /** Masking four digits of a normalized record. */
  lemma MaskFourAfter(card: string)
    requires IsCardNumber(card) && |card| == 16
    ensures ApplyCardMask(card + "|12|2026", 4) == card[..12] + "xxxx|12|2026"
  {
    ValidExpiryValues();
    assert card + "|12|2026" == card + "|" + "12" + "|" + "2026";
    RecordFields(card, "12", "2026");
    var masked := card[..12] + Xs(4);
    assert Xs(4) == "xxxx";
    var q := [card, "12", "2026"][0 := masked];
    assert q == [masked, "12", "2026"];
    assert Join(q[2..], '|') == "2026";
    assert Join(q[1..], '|') == "12" + "|" + "2026";
    assert Join(q, '|') == masked + "|" + "12" + "|" + "2026";
  }

  /** With the spaces removed, the year of `12/26` runs into the next field. */
  lemma FusedFieldsExample()
    ensures CleanAndFormatLine("4111111111111111 12/26 123") == ""
  {
    var card := "4111111111111111";
    assert IsCardNumber(card);
    assert "4111111111111111 12/26 123" == card + " 12/26 123";
    FusedFieldsAfter(card);
  }

  lemma SlashDateExample()
    ensures CleanAndFormatLine("4111111111111111 12/2026") == "4111111111111111|12|2026"
  {
    var card := "4111111111111111";
    assert IsCardNumber(card);
    assert "4111111111111111 12/2026" == card + " 12/2026";
    assert "4111111111111111|12|2026" == card + "|12|2026";
    SlashDateAfter(card);
  }

  lemma MaskExample()
    ensures ApplyCardMask("4111111111111111|12|2026", 4) == "411111111111xxxx|12|2026"
  {
    var card := "4111111111111111";
    SampleCardNumber();
    MaskLiterals();
    MaskFourAfter(card);
  }

  lemma SampleCardNumber()
    ensures IsCardNumber("4111111111111111")
  {
  }

  lemma MaskLiterals()
    ensures "4111111111111111|12|2026" == "4111111111111111" + "|12|2026"
    ensures "4111111111111111"[..12] + "xxxx|12|2026" == "411111111111xxxx|12|2026"
  {
  }
}

=== FILE: shuffle.dfy ===
/** The in-place Fisher-Yates shuffle `ShuffleList`, with the random draws
    supplied by the caller: `draws[j]` is what `rng.Next(n + 1)` returns in
    the `j`-th iteration. */
module Shuffle {

  /** One draw per iteration, each within the bound `rng.Next(n + 1)` allows:
      the `j`-th iteration has `n == len - 1 - j`. */
  predicate ValidDraws(len: nat, draws: seq<nat>)
  {
    && len <= |draws| + 1
    && forall j :: 0 <= j < |draws| && j + 1 < len ==> draws[j] < len - j
  }

  lemma ValidDrawsTail(len: nat, draws: seq<nat>)
    requires len >= 2 && ValidDraws(len, draws)
    ensures ValidDraws(len - 1, draws[1..])
  {
    forall j | 0 <= j < |draws[1..]| && j + 1 < len - 1
      ensures draws[1..][j] < len - 1 - j
    {
      assert draws[1..][j] == draws[j + 1];
    }
  }

  /** Reference definition: the last slot receives the drawn element, the
      element it displaces moves into the drawn slot, and the rest is
      shuffled with the remaining draws. */
  function Shuffled<T>(xs: seq<T>, draws: seq<nat>): (r: seq<T>)
    requires ValidDraws(|xs|, draws)
    decreases |xs|
  {
    if |xs| <= 1 then xs
    else
      var n := |xs| - 1;
      var k := draws[0];
      ValidDrawsTail(|xs|, draws);
      Shuffled(xs[k := xs[n]][..n], draws[1..]) + [xs[k]]
  }

  /** The shuffle is a permutation of its input. */
  lemma {:induction false} ShuffledPermutes<T>(xs: seq<T>, draws: seq<nat>)
    requires ValidDraws(|xs|, draws)
    ensures |Shuffled(xs, draws)| == |xs|
    ensures multiset(Shuffled(xs, draws)) == multiset(xs)
    decreases |xs|
  {
    if |xs| > 1 {
      var n := |xs| - 1;
      var k := draws[0];
      ValidDrawsTail(|xs|, draws);
      ShuffledPermutes(xs[k := xs[n]][..n], draws[1..]);
      SwapOutLast(xs, k);
    }
  }

  /** Moving the last element into slot `k` and dropping the last slot loses
      exactly the element that was in slot `k`. */
  lemma SwapOutLast<T>(xs: seq<T>, k: nat)
    requires k < |xs|
    ensures multiset(xs[k := xs[|xs| - 1]][..|xs| - 1]) + multiset{xs[k]} == multiset(xs)
  {
    var n := |xs| - 1;
    if k == n {
      assert xs[k := xs[n]][..n] == xs[..n];
      assert xs == xs[..n] + [xs[n]];
    } else {
      assert xs == xs[..k] + [xs[k]] + xs[k + 1..n] + [xs[n]];
      assert xs[k := xs[n]][..n] == xs[..k] + [xs[n]] + xs[k + 1..n];
    }
  }

  /** Drawing each slot's own index every time leaves the list unchanged. */
  lemma {:induction false} SelfDrawsKeepOrder<T>(xs: seq<T>, draws: seq<nat>)
    requires ValidDraws(|xs|, draws)
    requires forall j :: 0 <= j < |draws| && j + 1 < |xs| ==> draws[j] == |xs| - 1 - j
    ensures Shuffled(xs, draws) == xs
    decreases |xs|
  {
    if |xs| > 1 {
      var n := |xs| - 1;
      ValidDrawsTail(|xs|, draws);
      assert xs[n := xs[n]] == xs;
      forall j | 0 <= j < |draws[1..]| && j + 1 < n
        ensures draws[1..][j] == n - 1 - j
      {
        assert draws[1..][j] == draws[j + 1];
      }
      SelfDrawsKeepOrder(xs[..n], draws[1..]);
      assert xs == xs[..n] + [xs[n]];
    }
  }

  /** `ShuffleList(list)` with the draws of `rng` as a parameter: counts `n`
      down from the length and swaps slot `n` with a drawn slot `k <= n`. */
  method ShuffleList<T>(list: seq<T>, draws: seq<nat>) returns (r: seq<T>)
    requires ValidDraws(|list|, draws)
    ensures r == Shuffled(list, draws)
    ensures |r| == |list| && multiset(r) == multiset(list)
  {
    r := list;
    var n := |list|;
    var j := 0;
    assert r[..n] == list && r[n..] == [] && draws[j..] == draws;
    while n > 1
      invariant 0 <= n <= |list| && j == |list| - n
      invariant |list| >= 1 ==> n >= 1
      invariant j <= |draws|
      invariant |r| == |list|
      invariant ValidDraws(n, draws[j..])
      invariant Shuffled(list, draws) == Shuffled(r[..n], draws[j..]) + r[n..]
    {
      n := n - 1;
      var k := draws[j];
      assert draws[j..][0] == k;
      ShuffleStep(r, n, draws[j..]);
      ValidDrawsTail(n + 1, draws[j..]);
      assert draws[j..][1..] == draws[j + 1..];
      var value := r[k];
      r := r[k := r[n]];
      r := r[n := value];
      j := j + 1;
    }
    assert r[..n] == Shuffled(r[..n], draws[j..]);
    assert r == r[..n] + r[n..];
    ShuffledPermutes(list, draws);
  }

  /** One iteration of the loop, stated on the list before the swap. */
  lemma ShuffleStep<T>(a: seq<T>, n: nat, draws: seq<nat>)
    requires n + 1 <= |a| && n >= 1
    requires ValidDraws(n + 1, draws)
    ensures var k := draws[0];
            var b := a[k := a[n]][n := a[k]];
            Shuffled(a[..n + 1], draws) + a[n + 1..]
              == Shuffled(b[..n], draws[1..]) + b[n..]
  {
    var k := draws[0];
    var b := a[k := a[n]][n := a[k]];
    var c := a[..n + 1];
    assert c[k := c[n]][..n] == b[..n];
    assert b[n..] == [a[k]] + a[n + 1..];
  }
}

=== FILE: text.dfy ===
/** The few .NET string and number primitives the toolkit is built from:
    `Split`/`Join`, `Trim`, `PadLeft`, `Replace`, `int.TryParse` and the
    custom `"000"` number format. Only ASCII digits count as digits. */
module Text {
  import opened Outcomes

  // ---------------------------------------------------------------------
  // Characters and digits
  // ---------------------------------------------------------------------

  /** `s.StartsWith(prefix)`, compared character by character. */
  predicate StartsWith(s: string, prefix: string) { |prefix| <= |s| && s[..|prefix|] == prefix }

  /** An ASCII decimal digit. */
  predicate IsDigit(c: char) { '0' <= c <= '9' }

  predicate AllDigits(s: string) { forall i :: 0 <= i < |s| ==> IsDigit(s[i]) }

  /** `c - '0'` in C#: the character's code minus 48, for any character. */
  function DigitValue(c: char): int { c as int - '0' as int }

  function DigitChar(d: int): (c: char)
    requires 0 <= d <= 9
    ensures IsDigit(c) && DigitValue(c) == d
  {
    ('0' as int + d) as char
  }

  /** `char.IsWhiteSpace`: the Unicode separators plus the C0 and C1 layout controls. */
  predicate IsWhiteSpace(c: char) {
    || '\U{9}' <= c <= '\U{D}' || c == ' ' || c == '\U{85}' || c == '\U{A0}'
    || c == '\U{1680}' || '\U{2000}' <= c <= '\U{200A}' || c == '\U{2028}'
    || c == '\U{2029}' || c == '\U{202F}' || c == '\U{205F}' || c == '\U{3000}'
  }

  /** The white space that number parsing skips around a number. */
  predicate IsParseWhite(c: char) { c == ' ' || '\U{9}' <= c <= '\U{D}' }

  function CountDigits(s: string): (n: nat)
    ensures n <= |s|
    ensures n == |s| <==> AllDigits(s)
  {
    if s == [] then 0 else (if IsDigit(s[0]) then 1 else 0) + CountDigits(s[1..])
  }

  // ---------------------------------------------------------------------
  // Decimal numbers
  // ---------------------------------------------------------------------

  function Pow10(n: nat): (p: nat)
    ensures p >= 1
  {
    if n == 0 then 1 else 10 * Pow10(n - 1)
  }

  /** `a / 10^n`, computed by `n` divisions by ten so that the solver sees
      only division by a constant. */
  function ShiftDown(a: nat, n: nat): nat
  {
    if n == 0 then a else ShiftDown(a / 10, n - 1)
  }

  /** `a % 10^n`: the lowest `n` decimal digits of `a`, again by division
      by ten. */
  function LowDigits(a: nat, n: nat): (r: nat)
    ensures r < Pow10(n)
  {
    if n == 0 then 0 else a % 10 + 10 * LowDigits(a / 10, n - 1)
  }

  lemma {:induction false} ShiftDownAdd(a: nat, m: nat, n: nat)
    ensures ShiftDown(ShiftDown(a, m), n) == ShiftDown(a, m + n)
  {
    if m > 0 {
      ShiftDownAdd(a / 10, m - 1, n);
    }
  }

  lemma {:induction false} ShiftDownIsDiv(a: nat, n: nat)
    ensures ShiftDown(a, n) == a / Pow10(n)
  {
    if n > 0 {
      ShiftDownIsDiv(a / 10, n - 1);
      DivDiv(a, 10, Pow10(n - 1));
    }
  }

  lemma {:induction false} LowDigitsIsMod(a: nat, n: nat)
    ensures LowDigits(a, n) == a % Pow10(n)
  {
    if n > 0 {
      var m := Pow10(n - 1);
      LowDigitsIsMod(a / 10, n - 1);
      DivMod(a, 10);
      DivMod(a / 10, m);
      var q := (a / 10) / m;
      var r := (a / 10) % m;
      PeelDigit(a, a / 10, a % 10, m, q, r);
      DivUnique(a, 10 * m, q, 10 * r + a % 10);
      DivMod(a, 10 * m);
      assert Pow10(n) == 10 * m;
    }
  }

  /** The arithmetic of peeling the lowest digit: with `a = 10 * a1 + d`
      and `a1 = m * q + r`, `a = (10 * m) * q + (10 * r + d)`. */
  lemma PeelDigit(a: int, a1: int, d: int, m: int, q: int, r: int)
    requires a == 10 * a1 + d && 0 <= d < 10
    requires a1 == m * q + r && 0 <= r < m
    ensures a == (10 * m) * q + (10 * r + d)
    ensures 0 <= 10 * r + d < 10 * m
  {
    assert 10 * (m * q) == (10 * m) * q;
  }

  /** Euclidean division by a positive divisor, stated once so that the
      solver need not rediscover it for a divisor that is not a constant. */
  lemma DivMod(a: nat, m: nat)
    requires m > 0
    ensures a == m * (a / m) + a % m
    ensures 0 <= a / m && 0 <= a % m < m
  {
    assert a == m * (a / m) + a % m;
    assert a % m < m;
  }

  lemma MulAtLeast(x: int, y: int)
    ensures x >= 1 && y >= 0 ==> x * y >= y
  {
  }

  /** Quotient and remainder are determined by the division equation. */
  lemma DivUnique(a: int, d: int, q: int, r: int)
    requires d > 0 && 0 <= r < d && a == d * q + r
    ensures a / d == q
  {
    var q' := a / d;
    var r' := a % d;
    assert d * (q - q') == r' - r;
    MulAtLeast(q - q', d);
    MulAtLeast(q' - q, d);
    assert d * (q' - q) == r - r';
  }

  /** Dividing by `b` and then by `c` is dividing by `b * c`. */
  lemma DivDiv(a: nat, b: nat, c: nat)
    requires b > 0 && c > 0
    ensures a / b / c == a / (b * c)
  {
    DivMod(a, b);
    DivMod(a / b, c);
    DivDivArith(a, b, c, a / b, a % b, a / b / c, (a / b) % c);
    DivUnique(a, b * c, a / b / c, b * ((a / b) % c) + a % b);
  }

  /** The arithmetic of `DivDiv`: the two division equations combine into
      one for the divisor `b * c`. */
  lemma DivDivArith(a: int, b: int, c: int, q1: int, r1: int, q2: int, r2: int)
    requires b > 0 && c > 0
    requires a == b * q1 + r1 && 0 <= r1 < b
    requires q1 == c * q2 + r2 && 0 <= r2 < c
    ensures a == (b * c) * q2 + (b * r2 + r1)
    ensures 0 <= b * r2 + r1 < b * c
  {
    assert b * q1 == b * (c * q2) + b * r2 by {
      Distribute(b, c * q2, r2);
    }
    assert b * (c * q2) == (b * c) * q2 by {
      Associate(b, c, q2);
    }
    assert b * r2 <= b * (c - 1) by {
      MulAtLeast(b, (c - 1) - r2);
      Distribute(b, r2, (c - 1) - r2);
    }
    assert b * (c - 1) == b * c - b by {
      Distribute(b, c - 1, 1);
    }
    assert b * r2 >= 0 by {
      MulAtLeast(b, r2);
    }
  }

  lemma Distribute(x: int, y: int, z: int)
    ensures x * (y + z) == x * y + x * z
  {
  }

  lemma Associate(x: int, y: int, z: int)
    ensures x * (y * z) == (x * y) * z
  {
  }

  /** The value of a string of decimal digits, most significant first. */
  function DecimalValue(s: string): (v: nat)
    requires AllDigits(s)
    ensures v < Pow10(|s|)
  {
    if s == [] then 0 else 10 * DecimalValue(s[..|s| - 1]) + DigitValue(s[|s| - 1])
  }

  /** `v.ToString(new string('0', width))` for `v < 10^width`: exactly `width`
      digits, zero-padded on the left; the inverse of `DecimalValue`. */
  function ZeroPadded(v: nat, width: nat): (r: string)
    requires v < Pow10(width)
    ensures |r| == width && AllDigits(r)
    ensures DecimalValue(r) == v
  {
    if width == 0 then ""
    else
      var r := ZeroPadded(v / 10, width - 1) + [DigitChar(v % 10)];
      assert r[..|r| - 1] == ZeroPadded(v / 10, width - 1);
      r
  }

  /** The value of a concatenation: the left part shifted by the length of
      the right part. */
  lemma {:induction false} DecimalValueAppend(a: string, b: string)
    requires AllDigits(a) && AllDigits(b)
    ensures DecimalValue(a + b) == DecimalValue(a) * Pow10(|b|) + DecimalValue(b)
    decreases |b|
  {
    if b == [] {
      assert a + b == a;
    } else {
      var b' := b[..|b| - 1];
      var d := DigitValue(b[|b| - 1]);
      assert AllDigits(a + b');
      DecimalValueAppend(a, b');
      assert DecimalValue(a + b) == 10 * DecimalValue(a + b') + d by {
        var ab := a + b;
        assert ab[..|ab| - 1] == a + b' && ab[|ab| - 1] == b[|b| - 1];
      }
      ShiftProduct(DecimalValue(a), Pow10(|b'|), DecimalValue(b'), d,
                   Pow10(|b|), DecimalValue(b), DecimalValue(a + b), DecimalValue(a + b'));
    }
  }

  /** The arithmetic step of `DecimalValueAppend`, on plain numbers. */
  lemma ShiftProduct(x: int, p: int, y: int, d: int, p': int, v: int, w: int, w0: int)
    requires w0 == x * p + y && w == 10 * w0 + d
    requires p' == 10 * p && v == 10 * y + d
    ensures w == x * p' + v
  {
  }

  /** Leading zeros do not change the value. */
  lemma ZerosPadValue(s: string, width: nat)
    requires AllDigits(s)
    ensures AllDigits(PadLeft(s, width, '0'))
    ensures DecimalValue(PadLeft(s, width, '0')) == DecimalValue(s)
  {
    if |s| < width {
      var z := seq(width - |s|, _ => '0');
      ZerosValue(z);
      DecimalValueAppend(z, s);
    }
  }

  lemma {:induction false} ZerosValue(z: string)
    requires forall i :: 0 <= i < |z| ==> z[i] == '0'
    ensures AllDigits(z) && DecimalValue(z) == 0
  {
    if z != [] {
      ZerosValue(z[..|z| - 1]);
    }
  }

  const IntMin: int := -2147483648
  const IntMax: int := 2147483647

  /** `int.TryParse(s, out v)` with the default integer style: optional white
      space, an optionally signed run of digits whose value fits in 32 bits,
      optional white space, and then any number of trailing NUL characters,
      which the .NET number parser skips. */
  function TryParseInt(s: string): (r: Option<int>)
    ensures r.Some? ==> IntMin <= r.value <= IntMax
    ensures 1 <= |s| <= 9 && AllDigits(s) ==> r == Some(DecimalValue(s))
  {
    var t := NumberPart(s);
    if 1 <= |s| <= 9 && AllDigits(s) then
      ShortDigitsParse(s);
      ParseNumber(t)
    else
      ParseNumber(t)
  }

  /** Only a text whose number part is an optionally signed run of digits
      parses, and every such text whose number part has at most nine
      characters does. */
  lemma ParsedIsNumeral(s: string)
    ensures TryParseInt(s).Some? ==> IsNumeral(NumberPart(s))
    ensures IsNumeral(NumberPart(s)) && |NumberPart(s)| <= 9 ==> TryParseInt(s).Some?
  {
    var t := NumberPart(s);
    assert TryParseInt(s) == ParseNumber(t);
  }

  predicate IsNul(c: char) { c == '\0' }

  /** What is left for the sign and the digits once the leading white space,
      the trailing NULs and the white space before them are gone. */
  function NumberPart(s: string): string
  {
    DropWhileEnd(DropWhileEnd(DropWhile(s, IsParseWhite), IsNul), IsParseWhite)
  }

  /** An optional sign followed by at least one ASCII digit. */
  predicate IsNumeral(t: string)
  {
    && |t| >= 1 && AllDigits(t[1..])
    && (IsDigit(t[0]) || (|t| >= 2 && (t[0] == '-' || t[0] == '+')))
  }

  /** The sign-and-digits part of `int.TryParse`, after the white space is
      gone: only a numeral parses, and every numeral of at most nine
      characters fits in 32 bits. */
  function ParseNumber(t: string): (r: Option<int>)
    ensures r.Some? ==> IntMin <= r.value <= IntMax
    ensures r.Some? ==> IsNumeral(t)
    ensures IsNumeral(t) && |t| <= 9 ==> r.Some?
  {
    NumeralFits(t);
    if |t| >= 2 && (t[0] == '-' || t[0] == '+') && AllDigits(t[1..]) then
      var v: int := if t[0] == '-' then -(DecimalValue(t[1..]) as int) else DecimalValue(t[1..]);
      if IntMin <= v <= IntMax then Some(v) else None
    else if |t| >= 1 && AllDigits(t) then
      (if DecimalValue(t) <= IntMax then Some(DecimalValue(t)) else None)
    else None
  }

  /** A numeral of at most nine characters has a value below 10^9. */
  lemma NumeralFits(t: string)
    ensures IsNumeral(t) && |t| <= 9 && AllDigits(t) ==> DecimalValue(t) < 1000000000
    ensures IsNumeral(t) && |t| <= 9 ==> DecimalValue(t[1..]) < 1000000000
    ensures IsNumeral(t) && IsDigit(t[0]) ==> AllDigits(t)
  {
    if IsNumeral(t) && IsDigit(t[0]) {
      forall i | 1 <= i < |t| ensures IsDigit(t[i]) {
        assert t[i] == t[1..][i - 1];
      }
    }
    if IsNumeral(t) && |t| <= 9 {
      Pow10Nine();
      Pow10Monotone(|t| - 1, 9);
      if AllDigits(t) {
        Pow10Monotone(|t|, 9);
      }
    }
  }

  lemma ShortDigitsParse(s: string)
    requires 1 <= |s| <= 9 && AllDigits(s)
    ensures NumberPart(s) == s && IsNumeral(s)
    ensures ParseNumber(s) == Some(DecimalValue(s))
  {
    DigitsNumeral(s);
    NumberPartOfDigits(s, s[0], s[|s| - 1]);
    ShortDigitsValue(s);
  }

  /** A text that starts and ends with a digit is its own number part. */
  lemma NumberPartOfDigits(s: string, first: char, last: char)
    requires s != [] && first == s[0] && last == s[|s| - 1]
    requires IsDigit(first) && IsDigit(last)
    ensures NumberPart(s) == s
  {
    assert !IsParseWhite(first) && !IsNul(last) && !IsParseWhite(last);
    DropWhileStops(s, IsParseWhite);
    DropWhileEndStops(s, IsNul);
    DropWhileEndStops(s, IsParseWhite);
  }

  lemma DropWhileStops(s: string, p: char -> bool)
    requires s != [] && !p(s[0])
    ensures DropWhile(s, p) == s
  {
  }

  lemma DropWhileEndStops(s: string, p: char -> bool)
    requires s != [] && !p(s[|s| - 1])
    ensures DropWhileEnd(s, p) == s
  {
  }

  lemma DigitsNumeral(s: string)
    requires 1 <= |s| && AllDigits(s)
    ensures IsNumeral(s)
  {
    forall i | 0 <= i < |s| - 1 ensures IsDigit(s[1..][i]) { assert s[1..][i] == s[i + 1]; }
  }

  /** `int.TryParse` accepts trailing NULs after the number: `"12\0\0"` is 12. */
  lemma TrailingNulsSkipped()
    ensures TryParseInt("12\0\0") == Some(12)
  {
    var s := "12\0\0";
    assert !IsParseWhite(s[0]);
    assert DropWhile(s, IsParseWhite) == s;
    assert IsNul(s[3]) && IsNul(s[2]) && !IsNul(s[1]);
    assert s[..3] == "12\0" && "12\0"[..2] == "12";
    assert DropWhileEnd(s, IsNul) == "12";
    assert DropWhileEnd("12", IsParseWhite) == "12";
    assert AllDigits("12") && DecimalValue("12") == 12 by {
      assert "12"[..1] == "1" && "1"[..0] == "";
    }
  }

  lemma ShortDigitsValue(s: string)
    requires 1 <= |s| <= 9 && AllDigits(s)
    ensures ParseNumber(s) == Some(DecimalValue(s))
  {
    assert IsDigit(s[0]);
    Pow10Monotone(|s|, 9);
    Pow10Nine();
    assert DecimalValue(s) <= IntMax;
  }

  lemma {:induction false} Pow10Monotone(m: nat, n: nat)
    requires m <= n
    ensures Pow10(m) <= Pow10(n)
  {
    if m < n {
      Pow10Monotone(m, n - 1);
    }
  }

  lemma Pow10Nine()
    ensures Pow10(9) == 1000000000
  {
    calc {
      Pow10(9);
      10 * Pow10(8);
      100 * Pow10(7);
      1000 * Pow10(6);
      1000000 * Pow10(3);
      1000000000 * Pow10(0);
    }
  }

  // ---------------------------------------------------------------------
  // Trimming and padding
  // ---------------------------------------------------------------------

  /** Drops the leading characters that satisfy `p`. */
  function DropWhile(s: string, p: char -> bool): (r: string)
    ensures |r| <= |s| && r == s[|s| - |r|..]
    ensures forall i :: 0 <= i < |s| - |r| ==> p(s[i])
    ensures r != [] ==> !p(r[0])
  {
    if s != [] && p(s[0]) then
      var r := DropWhile(s[1..], p);
      assert s[1..][|s| - 1 - |r|..] == s[|s| - |r|..];
      r
    else s
  }

  /** Drops the trailing characters that satisfy `p`. */
  function DropWhileEnd(s: string, p: char -> bool): (r: string)
    ensures |r| <= |s| && r == s[..|r|]
    ensures forall i :: |r| <= i < |s| ==> p(s[i])
    ensures r != [] ==> !p(r[|r| - 1])
  {
    if s != [] && p(s[|s| - 1]) then DropWhileEnd(s[..|s| - 1], p) else s
  }

  /** `string.IsNullOrWhiteSpace` on a non-null string. */
  predicate IsBlank(s: string) { forall i :: 0 <= i < |s| ==> IsWhiteSpace(s[i]) }

  /** `r` is the slice of `s` that starts at `a`, and only white space
      comes before it and after it. */
  predicate WhiteFramed(s: string, a: int, r: string)
  {
    && 0 <= a && a + |r| <= |s| && r == s[a..a + |r|]
    && IsBlank(s[..a]) && IsBlank(s[a + |r|..])
  }

  /** `s.Trim()`: the string without its leading and trailing white space. */
  function Trim(s: string): (r: string)
    ensures |r| <= |s|
    ensures r == [] <==> IsBlank(s)
    ensures r != [] ==> !IsWhiteSpace(r[0]) && !IsWhiteSpace(r[|r| - 1])
  {
    TrimEnds(s);
    DropWhileEnd(DropWhile(s, IsWhiteSpace), IsWhiteSpace)
  }

  /** The trimmed text is the slice of `s` after its leading white space,
      and only white space follows it: nothing but white space is removed,
      and only at the two ends. */
  lemma TrimIsSlice(s: string)
    ensures exists a :: WhiteFramed(s, a, Trim(s))
  {
    var t := DropWhile(s, IsWhiteSpace);
    var r := DropWhileEnd(t, IsWhiteSpace);
    TrimSlice(s, t, r);
    assert WhiteFramed(s, |s| - |t|, Trim(s));
  }

  /** The trimmed text is empty exactly for a blank text, and otherwise
      starts and ends with non-white characters. */
  lemma TrimEnds(s: string)
    ensures var r := DropWhileEnd(DropWhile(s, IsWhiteSpace), IsWhiteSpace);
            && |r| <= |s|
            && (r == [] <==> IsBlank(s))
            && (r != [] ==> !IsWhiteSpace(r[0]) && !IsWhiteSpace(r[|r| - 1]))
  {
    var t := DropWhile(s, IsWhiteSpace);
    var r := DropWhileEnd(t, IsWhiteSpace);
    assert r != [] ==> r[0] == t[0];
    if r == [] {
      assert IsBlank(s);
    } else {
      assert !IsWhiteSpace(s[|s| - |t|]);
    }
  }

  /** Dropping white space from the front and then from the back leaves a
      slice of `s` with only white space around it. */
  lemma TrimSlice(s: string, t: string, r: string)
    requires |t| <= |s| && t == s[|s| - |t|..]
    requires forall i :: 0 <= i < |s| - |t| ==> IsWhiteSpace(s[i])
    requires |r| <= |t| && r == t[..|r|]
    requires forall i :: |r| <= i < |t| ==> IsWhiteSpace(t[i])
    ensures WhiteFramed(s, |s| - |t|, r)
  {
    var a := |s| - |t|;
    assert s[a + |r|..] == t[|r|..];
  }

  /** `s.PadLeft(width, c)`. */
  function PadLeft(s: string, width: nat, c: char): (r: string)
    ensures |r| == if |s| >= width then |s| else width
    ensures r[|r| - |s|..] == s
    ensures forall i :: 0 <= i < |r| - |s| ==> r[i] == c
  {
    if |s| >= width then s else seq(width - |s|, _ => c) + s
  }

  // ---------------------------------------------------------------------
  // Splitting and joining
  // ---------------------------------------------------------------------

  /** `s` contains none of the characters in `seps`. */
  predicate Free(s: string, seps: set<char>) { forall i :: 0 <= i < |s| ==> s[i] !in seps }

  /** `s.Split(seps)`: the pieces between separators, empty pieces included,
      so there is always one more piece than separators. */
  function Split(s: string, seps: set<char>): (parts: seq<string>)
    ensures |parts| >= 1
    ensures forall i :: 0 <= i < |parts| ==> Free(parts[i], seps)
  {
    if s == [] then [""]
    else
      var tail := Split(s[1..], seps);
      if s[0] in seps then [""] + tail
      else [[s[0]] + tail[0]] + tail[1..]
  }

  /** `string.Join(sep, parts)`. */
  function Join(parts: seq<string>, sep: char): string
  {
    if |parts| == 0 then ""
    else if |parts| == 1 then parts[0]
    else parts[0] + [sep] + Join(parts[1..], sep)
  }

  /** The first `|`-separated field of a record. */
  function FirstField(s: string): string
  {
    Split(s, {'|'})[0]
  }

  /** Joining the pieces of a split gives back the string. */
  lemma {:induction false} JoinSplit(s: string, sep: char)
    ensures Join(Split(s, {sep}), sep) == s
  {
    if s != [] {
      var tail := Split(s[1..], {sep});
      JoinSplit(s[1..], sep);
      if s[0] != sep {
        if |tail| == 1 {
          assert s == [s[0]] + tail[0];
        } else {
          assert Join(tail, sep) == tail[0] + [sep] + Join(tail[1..], sep);
          assert s == [s[0]] + s[1..];
        }
      } else {
        assert s == [sep] + s[1..];
      }
    }
  }

  /** Splitting a join of separator-free pieces gives back the pieces. */
  lemma {:induction false} SplitJoin(parts: seq<string>, sep: char)
    requires |parts| >= 1
    requires forall i :: 0 <= i < |parts| ==> Free(parts[i], {sep})
    ensures Split(Join(parts, sep), {sep}) == parts
  {
    if |parts| == 1 {
      SplitFree(parts[0], {sep});
    } else {
      SplitJoin(parts[1..], sep);
      SplitPrefix(parts[0], sep, Join(parts[1..], sep), {sep});
    }
  }

  /** A separator-free string is one piece. */
  lemma {:induction false} SplitFree(s: string, seps: set<char>)
    requires Free(s, seps)
    ensures Split(s, seps) == [s]
  {
    if s != [] {
      SplitFree(s[1..], seps);
      assert s == [s[0]] + s[1..];
    }
  }

  /** A string splits at its first separator: the piece before it, then the
      pieces of what follows. */
  lemma {:induction false} SplitPrefix(a: string, c: char, rest: string, seps: set<char>)
    requires Free(a, seps) && c in seps
    ensures Split(a + [c] + rest, seps) == [a] + Split(rest, seps)
  {
    var s := a + [c] + rest;
    if a == [] {
      assert s[1..] == rest;
    } else {
      assert s[1..] == a[1..] + [c] + rest;
      SplitPrefix(a[1..], c, rest, seps);
      assert a == [a[0]] + a[1..];
    }
  }

  /** The first field of `a|rest` is `a` when `a` holds no `|`. */
  lemma FirstFieldOf(a: string, rest: string)
    requires Free(a, {'|'})
    ensures FirstField(a + ['|'] + rest) == a
  {
    SplitPrefix(a, '|', rest, {'|'});
  }

  // ---------------------------------------------------------------------
  // Replacing
  // ---------------------------------------------------------------------

  /** No character of `t` occurs in `rep`. */
  predicate Avoids(t: string, rep: string) { forall k :: 0 <= k < |t| ==> t[k] !in rep }

  /** `pat` occurs in `t` at position `i`. */
  predicate OccursAt(t: string, pat: string, i: int)
  {
    0 <= i && i + |pat| <= |t| && t[i..i + |pat|] == pat
  }

  /** `pat` occurs nowhere in `t`. */
  predicate NoOccurrence(t: string, pat: string)
  {
    forall i :: 0 <= i <= |t| ==> !OccursAt(t, pat, i)
  }

  /** Up to the first character of `rep`, the result agrees with `s`. */
  predicate AgreesBeforeRep(r: string, s: string, rep: string)
  {
    forall m :: 0 <= m <= |r| && Avoids(r[..m], rep) ==> m <= |s| && r[..m] == s[..m]
  }

  /** `s.Replace(pat, rep)`: every occurrence of `pat`, found left to right
      without overlap, is replaced by `rep`. When `rep` is non-empty and
      shares no character with `pat`, no occurrence of `pat` is left. */
  function ReplaceAll(s: string, pat: string, rep: string): (r: string)
    requires |pat| >= 1
    ensures forall i :: 0 <= i < |r| ==> r[i] in s || r[i] in rep
    ensures rep != [] ==> AgreesBeforeRep(r, s, rep)
    ensures rep != [] && Avoids(pat, rep) ==> NoOccurrence(r, pat)
  {
    if |s| < |pat| then
      assert forall m :: 0 <= m <= |s| ==> s[..m] == s[..m];
      s
    else if s[..|pat|] == pat then
      var t := ReplaceAll(s[|pat|..], pat, rep);
      ReplaceStep(pat, rep, t);
      rep + t
    else
      var t := ReplaceAll(s[1..], pat, rep);
      KeepStep(s, pat, rep, t);
      [s[0]] + t
  }

  /** A replacement in front keeps both properties of `ReplaceAll`. */
  lemma ReplaceStep(pat: string, rep: string, t: string)
    requires |pat| >= 1
    ensures rep != [] ==> forall m :: 0 <= m <= |rep + t| && Avoids((rep + t)[..m], rep) ==> m == 0
    ensures rep != [] && Avoids(pat, rep) && NoOccurrence(t, pat) ==> NoOccurrence(rep + t, pat)
  {
    var r := rep + t;
    if rep != [] {
      forall m | 0 < m <= |r| ensures r[..m][0] in rep {
        assert r[..m][0] == rep[0];
      }
      if Avoids(pat, rep) && NoOccurrence(t, pat) {
        forall i | 0 <= i <= |r| - |pat| ensures !OccursAt(r, pat, i) {
          if i < |rep| {
            assert r[i] == rep[i] && r[i..i + |pat|][0] == r[i];
          } else {
            var j := i - |rep|;
            assert r[i..i + |pat|] == t[j..j + |pat|];
            assert !OccursAt(t, pat, j);
          }
        }
      }
    }
  }

  /** A kept first character keeps both properties of `ReplaceAll`. */
  lemma KeepStep(s: string, pat: string, rep: string, t: string)
    requires 1 <= |pat| <= |s| && s[..|pat|] != pat
    requires rep != [] ==> AgreesBeforeRep(t, s[1..], rep)
    ensures rep != [] ==> AgreesBeforeRep([s[0]] + t, s, rep)
    ensures rep != [] && Avoids(pat, rep) && NoOccurrence(t, pat) ==> NoOccurrence([s[0]] + t, pat)
  {
    var r := [s[0]] + t;
    if rep != [] {
      forall m | 0 <= m <= |r| && Avoids(r[..m], rep) ensures m <= |s| && r[..m] == s[..m] {
        if m > 0 {
          assert r[..m] == [s[0]] + t[..m - 1];
          assert Avoids(t[..m - 1], rep) by {
            forall k | 0 <= k < m - 1 ensures t[k] !in rep {
              assert t[k] == r[..m][k + 1];
            }
          }
          assert s[..m] == [s[0]] + s[1..][..m - 1];
        }
      }
      if Avoids(pat, rep) && NoOccurrence(t, pat) {
        forall i | 0 <= i <= |r| - |pat| ensures !OccursAt(r, pat, i) {
          if i == 0 {
            assert Avoids(r[..|pat|], rep) ==> r[..|pat|] == s[..|pat|];
          } else {
            var j := i - 1;
            assert r[i..i + |pat|] == t[j..j + |pat|];
            assert !OccursAt(t, pat, j);
          }
        }
      }
    }
  }

  /** An occurrence at the front is replaced, and the scan goes on after it. */
  lemma ReplaceFront(pat: string, b: string, rep: string)
    requires |pat| >= 1
    ensures ReplaceAll(pat + b, pat, rep) == rep + ReplaceAll(b, pat, rep)
  {
    var s := pat + b;
    assert s[..|pat|] == pat && s[|pat|..] == b;
  }

  /** Text in which no occurrence of `pat` starts is kept as it is. */
  lemma {:induction false} ReplaceSkip(a: string, b: string, pat: string, rep: string)
    requires |pat| >= 1
    requires forall i :: 0 <= i < |a| ==> !OccursAt(a + b, pat, i)
    ensures ReplaceAll(a + b, pat, rep) == a + ReplaceAll(b, pat, rep)
  {
    var s := a + b;
    if a == [] {
      assert s == b;
    } else if |s| < |pat| {
      ReplaceShort(s, pat, rep);
      ReplaceShort(b, pat, rep);
    } else {
      SkipFirst(a, b, pat);
      ReplaceKeep(s, pat, rep);
      ReplaceSkip(a[1..], b, pat, rep);
      var t := ReplaceAll(b, pat, rep);
      assert [a[0]] + (a[1..] + t) == a + t;
    }
  }

  /** Text shorter than the pattern is kept. */
  lemma ReplaceShort(s: string, pat: string, rep: string)
    requires |s| < |pat|
    ensures ReplaceAll(s, pat, rep) == s
  {
  }

  /** A first character that starts no occurrence is kept. */
  lemma ReplaceKeep(s: string, pat: string, rep: string)
    requires 1 <= |pat| <= |s| && !OccursAt(s, pat, 0)
    ensures ReplaceAll(s, pat, rep) == [s[0]] + ReplaceAll(s[1..], pat, rep)
  {
    assert s[..|pat|] != pat;
  }

  /** With no occurrence starting inside `a`, none starts at the front of
      `a + b`, and none starts inside `a[1..]` within `a[1..] + b`. */
  lemma SkipFirst(a: string, b: string, pat: string)
    requires a != []
    requires forall i :: 0 <= i < |a| ==> !OccursAt(a + b, pat, i)
    ensures !OccursAt(a + b, pat, 0)
    ensures (a + b)[1..] == a[1..] + b
    ensures forall i :: 0 <= i < |a[1..]| ==> !OccursAt(a[1..] + b, pat, i)
  {
    assert (a + b)[1..] == a[1..] + b;
    forall i | 0 <= i < |a| - 1 ensures !OccursAt(a[1..] + b, pat, i) {
      assert !OccursAt(a + b, pat, i + 1);
      if i + |pat| <= |a| - 1 + |b| {
        assert (a + b)[i + 1..i + 1 + |pat|] == (a[1..] + b)[i..i + |pat|];
      }
    }
  }

  /** The characters of `s` other than `c`, in order. */
  function Without(s: string, c: char): (r: string)
    ensures Free(r, {c})
    ensures |r| <= |s|
  {
    if s == [] then "" else (if s[0] == c then "" else [s[0]]) + Without(s[1..], c)
  }

  /** Removing `c` from a concatenation removes it from each part. */
  lemma {:induction false} WithoutAppend(a: string, b: string, c: char)
    ensures Without(a + b, c) == Without(a, c) + Without(b, c)
  {
    if a == [] {
      assert a + b == b;
    } else {
      var h := if a[0] == c then "" else [a[0]];
      assert Without(a + b, c) == h + Without(a[1..] + b, c) by {
        assert (a + b)[0] == a[0] && (a + b)[1..] == a[1..] + b;
      }
      WithoutAppend(a[1..], b, c);
      assert Without(a, c) == h + Without(a[1..], c);
      Associative(h, Without(a[1..], c), Without(b, c));
    }
  }

  lemma Associative(x: string, y: string, z: string)
    ensures x + (y + z) == (x + y) + z
  {
  }

  /** The pieces written one after another, with nothing between them. */
  function Concat(ss: seq<string>): string
  {
    if ss == [] then "" else ss[0] + Concat(ss[1..])
  }

  lemma ConcatCons(x: string, ys: seq<string>)
    ensures Concat([x] + ys) == x + Concat(ys)
  {
    assert ([x] + ys)[1..] == ys;
  }

  /** `line.Replace(" ", "")`: removes every space and nothing else. */
  function StripSpaces(line: string): (r: string)
    ensures r == Without(line, ' ')
  {
    ReplaceSingleIsWithout(line, ' ');
    ReplaceAll(line, " ", "")
  }

  lemma {:induction false} ReplaceSingleIsWithout(s: string, c: char)
    ensures ReplaceAll(s, [c], "") == Without(s, c)
  {
    if s != [] {
      ReplaceSingleIsWithout(s[1..], c);
      assert s[..1] == [s[0]];
    }
  }
}
